=== FILE: README.md ===
# churchill: ranked rectangle queries, modelled in Dafny

The churchill repository answers one kind of query over a fixed set of
points. Each point has an id, a rank (lower is better) and x/y coordinates.
`create` builds a search context over the points. `search(rect, count, out)`
writes into `out` the points that lie inside the rectangle (bounds
included), and returns how many it wrote. The intended answer is the
`count` lowest-rank hits (all hits when there are fewer), in ascending rank.

The repository has four C implementations of this interface:

- `gump.c` keeps three sorted copies of the points (by x, by y, by rank).
  A query locates its x- and y-slices by binary search. It then scans
  either the rank-sorted copy or the smaller slice, keeping a bounded
  top-`count` buffer.
- `gumptionaire.c` adds two axis range trees. Each tree node stores the
  rank-sorted best points of its strip. It also adds a 50 x 50 grid of
  rank-sorted cells, merged with a k-way rank merge. The query planner
  (`searchRange`) picks one of five plans. The rank-sorted copy scanned
  by `searchBaseline` is the array `buildGrid` later reorders; it is only
  scanned while the range trees are built, before the grid exists.
- `gumption.c` builds a nine-child region tree. Each node stores its best
  points. Queries descend, scan a node buffer, or split over the four
  corner quadrants and merge their answers.
- `old.c` is an earlier quadtree over index boxes of the sorted copies. It
  has two search routines (`searchTreeA`, `searchTreeB`) and a rank
  intersection helper.

The model lives in these modules:

- Shared pieces:
  - `Geometry`: points, rectangles and the hit tests.
  - `CoordSearch`: the coordinate binary search, `bsearch`.
  - `Sorting`: `qsort` as a sorted permutation.
  - `Selector`: the top-K selectors `findHitsU` and `findHitsS`.
  - `Planner`: the slice planner shared by every variant.
  - `Merge`: the k-way rank merges.
  - `RankIntersect`: `intersect`.
- Per variant:
  - `Gump` for `gump.c`.
  - `RangeTree`, `Grid` and `Gumptionaire` for `gumptionaire.c`.
  - `Gumption` for `gumption.c`.
  - `OldTree` for `old.c`.

`Ranking` holds the reference answer the searches are proved against:

- `Hits(points, rect, Both)` is the points inside the rectangle.
- `IsTopK(sel, cands, k)` says that `sel` has `min(k, |cands|)` of the
  candidates, and that no left-out candidate ranks below a taken one.
- `Answers(out, points, rect, count)` is `IsTopK` of the hits, with `out`
  rank-ascending.
- `Found(out, rect, points)` is the weaker guarantee of the tree paths in
  `gumption.c` and `old.c`. It says only that the output is rank-ascending
  hits, each one of the points.

Three behaviours of the code that a reader might expect otherwise:

- **Grid cells.** The model's grid puts every point in exactly one cell,
  the first one whose upper edge is at or above it, so a point on a
  dividing line is not stored in both neighbouring cells
  (`Grid.CellOfPoint`). The grid `buildGrid` builds does not have this
  property: its row search (gumptionaire.c:477) can take the next strip's
  first point into a cell, which then holds a point outside it, and the
  same array entry also starts the next column, so it belongs to two
  cells (ninth finding).
- **Merges.** `findHitsB` does not skip repeated ranks
  (gumptionaire.c:218-231). The merges of `gumption.c` and `old.c` apply
  no hit test, and they use a strict comparison chain (see Findings). The
  corrected merge skips a repeated rank, because the corner children of
  gumption.c:385-388 share the closed median edges. A point on a median
  line therefore reaches the merge from two buffers.
- **The `count` promise.** The searches of `gump.c` and most plans of
  `gumptionaire.c` return exactly the `min(count, hits)` lowest-rank hits.
  The tree paths of `gumption.c` and `old.c` do not promise that, and
  neither do grid plans 2 and 4 of `gumptionaire.c`, which answer over the
  window's cells. Their contracts say what the code does guarantee.

## Model

| member | source | states |
|---|---|---|
| Geometry.HitIsBothAxes | gump.c:59-69 | a point is a hit exactly when it passes both the x test and the y test; a coordinate equal to a bound counts as inside |
| Geometry.SharedEdgeIsNoOverlap | gumption.c:51-53 | two rectangles that only share an edge do not overlap under the strict test, in either argument order |
| Geometry.InsideIffSubset | gumption.c:55-57 | `isRectInside(r1, r2)` holds exactly when every point inside r2 is inside r1 (r2 well formed) |
| Geometry.InsideTransitive | gumption.c:55-57 | containment of rectangles is transitive |
| CoordSearch.BSearch | gumptionaire.c:82-99 | lower mode returns the first index in [imin, imax+1] whose coordinate is >= v; upper mode the last index in [imin-1, imax] whose coordinate is <= v; every index before/after it lies on the correct side of v, so a run of equal values is never split |
| CoordSearch.AxisRange | gumption.c:242-247 | with the search confined to the array, [l, r] holds exactly the indices whose coordinate lies in [lo, hi]; the slice length is never negative for lo <= hi and the slice is empty for lo > hi |
| CoordSearch.AxisRangeAsWritten | gump.c:200-203 | with upper index N as written, the search also reads the entry past the end; when that entry's coordinate lies in [lo, hi] the upper end comes back as N, one past the last point |
| CoordSearch.SliceCount | gump.c:212-213 | a point occurs in an axis slice as often as in the sorted array when it passes that axis's test, and not at all otherwise |
| CoordSearch.AxisSliceHits | gump.c:212-213 | testing only the other axis over one axis slice finds the same hits, with multiplicity, as the full test over all points |
| Sorting.SortedByRank | gump.c:51-53 | ordered by the rank comparator is the same as rank-ascending |
| Sorting.Insert | gump.c:225-227 | inserting into a sorted sequence keeps it sorted and adds exactly the one point |
| Sorting.Sort | gump.c:225-227 | the `qsort` result is a permutation of its input, sorted by the comparator's key |
| Sorting.SortSegment | gumptionaire.c:468 | sorting a[lo..hi) in place leaves a sorted permutation of that segment and the rest of the array unchanged |
| Sorting.SortedCopy | gump.c:219-227 | a fresh array holding a permutation of the points, sorted by the key |
| Ranking.HitsCount | gump.c:130-137 | a point's multiplicity among the hits is its multiplicity among the candidates if it passes the test, and 0 otherwise |
| Ranking.HitsAppend | gumptionaire.c:123-134 | the hits of two concatenated candidate runs are the hits of each run, concatenated |
| Ranking.HitsPermutation | gump.c:112-119 | the hits depend only on the multiset of candidates, so scanning a sorted copy scans the input |
| Ranking.HitsMember | gump.c:59-61 | a point is among the hits exactly when it is a candidate and passes the test |
| Ranking.HitsSorted | gumptionaire.c:165-178 | filtering a rank-sorted array keeps it rank-sorted |
| Ranking.TopKPermutation | gump.c:212-213 | a top-K selection of candidates is a top-K selection of any permutation of them |
| Ranking.TopKReorder | gump.c:193-194 | reordering a top-K selection, as the final sort does, keeps it a top-K selection |
| Ranking.PrefixOfSortedIsTopK | gump.c:108-122 | the first k entries of a rank-sorted sequence are its k lowest-rank entries |
| Ranking.FirstHitsOfSortedAnswer | gump.c:108-122 | the first `count` hits met while scanning a rank-sorted array answer the query over that array |
| Ranking.AnswersPermutation | gump.c:112-119 | an answer computed over a permuted copy of the points answers the query over the points |
| Ranking.TopKRefine | gumptionaire.c:266-275 | when a stored rank-sorted top-k of a set yields `count` hits of a query, those hits are the query's `count` lowest-rank hits in the whole set |
| Ranking.HitsNested | gumptionaire.c:272 | when every hit of q lies in `outer`, the hits of q among the hits of `outer` are the hits of q, with multiplicity |
| Ranking.AnswersFound | gumption.c:325-335 | every answer is also a rank-ascending set of hits drawn from the points |
| Ranking.BufferScan | gumption.c:276-278 | scanning a node's stored top-K of its rectangle gives rank-ascending hits of the points; when the node contains the query, this scan answers the query if it fills the output or if the buffer is not full |
| Ranking.ShortBufferScan | gumption.c:276-278 | a stored buffer shorter than its capacity holds every point of its rectangle, so scanning it answers any query inside that rectangle |
| Ranking.TopKFound | gumption.c:282-285 | a rank-sorted top-K of hits drawn from the points is rank-ascending hits of the points |
| Selector.ScanMax | gumptionaire.c:149-156 | the largest rank among the first `count` entries, the first slot holding it, and (-1, -1) for an empty buffer |
| Selector.StartKept | gumptionaire.c:123-134 | after the fill phase the buffer holds every hit seen and nothing is dropped; `max` bounds every kept rank and sits at `maxloc` |
| Selector.KeptIsTopK | gumptionaire.c:137-159 | a full kept buffer is a top-`count` selection of the hits seen |
| Selector.SkipStep | gumptionaire.c:139-142 | dropping a candidate ranked above the current maximum keeps the kept/dropped invariant |
| Selector.ReplaceStep | gumptionaire.c:144-146 | overwriting the maximum's slot with a better hit keeps the kept and dropped points a split of the hits seen, with every kept rank <= max <= every dropped rank |
| Selector.FindHitsU | gumptionaire.c:101-163 | at most `count` hits, rank-ascending, forming a top-`count` selection of the candidates that pass the given test; nothing past them is written |
| Selector.CopyHits | gumptionaire.c:106-116 | when the candidates fit, the output is exactly the candidates that pass, in input order |
| Selector.FillFirst | gumptionaire.c:123-134 | the fill phase stops when the input runs out or the buffer is full; it holds exactly the hits of the scanned prefix, with their maximum and its first slot |
| Selector.ReplaceWorst | gumptionaire.c:137-159 | the replacement phase ends with a top-`count` selection of all hits of the input |
| Selector.Offer | gumptionaire.c:138-158 | one candidate of the replacement phase: a hit ranked at or below the maximum replaces it, anything else is dropped, and the invariant holds for the longer input |
| Selector.ReplaceMax | gumptionaire.c:144-156 | replacing the maximum and rescanning keeps the invariant with the new point seen |
| Selector.SortKept | gumptionaire.c:161 | the final sort leaves the buffer rank-ascending and still a top-`count` selection |
| Selector.FindHitsS | gumptionaire.c:165-178 | the output is exactly the first `count` hits in input order, and at most `count` entries |
| Selector.FindHitsSOfSortedAnswers | gumptionaire.c:165-178 | over a rank-sorted candidate array, `findHitsS` answers the query |
| Planner.SliceSize | gumptionaire.c:249-254 | a positive slice length is the number of points within the query on that axis; a non-positive one means there are none |
| Planner.NoHitsOnEmptySlice | gump.c:207 | an empty x or y slice means no point hits the query |
| Planner.ScanSlice | gumptionaire.c:258-261 | the selector over one axis slice, with the other axis's test, answers the query over all points |
| Planner.SliceAnswers | gump.c:212-213 | a rank-sorted top-`count` of one slice's other-axis hits answers the query over all points |
| Planner.EmptyAnswers | gumptionaire.c:256 | returning no points answers a query whose x or y slice is empty |
| Planner.SearchBinary | gumptionaire.c:247-262 | corrected (first finding): `searchBinary` answers the query whichever branch it takes (empty slice, rank scan above the limit, slice selector below it) |
| Planner.RankScan | gumptionaire.c:241-243 | the first `count` hits of the rank-sorted copy answer the query |
| Planner.SliceScan | old.c:101-103 | the selector over the smaller slice answers the query |
| RankIntersect.CommonLength | old.c:20-36 | the rank intersection is no longer than either input |
| RankIntersect.CommonSound | old.c:29-31 | every emitted point comes from the first input and its rank occurs in the second |
| RankIntersect.CommonComplete | old.c:24-34 | on rank-sorted inputs, every rank occurring in both inputs is emitted |
| RankIntersect.CommonSorted | old.c:24-34 | on rank-sorted inputs, the emitted points ascend by rank |
| RankIntersect.Intersect | old.c:20-36 | both input prefixes are left rank-sorted permutations of themselves; the output is the rank intersection, cut after `max` points (after one point when max <= 0); nothing past it is written |
| RankIntersect.Walk | old.c:24-35 | the two-cursor walk writes exactly the cut rank intersection of the two prefixes |
| Merge.ScanMin | gumptionaire.c:200-216 | the minimum search returns the first buffer whose front has the smallest rank, with that rank, or (RANKMAX, -1) when every buffer is used up |
| Merge.ScanMinSpec | gumptionaire.c:200-216 | the rank found is at most every live front and strictly below the fronts of earlier buffers |
| Merge.MergePermutation | gumptionaire.c:195-231 | the first-minimum merge emits exactly the points left in the buffers, as a multiset |
| Merge.MergeSorted | gumptionaire.c:195-231 | over rank-sorted buffers, the merge emits points in ascending rank |
| Merge.MergedIsSortedUnion | gumptionaire.c:195-231 | the whole merge is a rank-sorted permutation of all buffers laid end to end |
| Merge.Done | gumptionaire.c:206 | the count of used-up buffers never exceeds the number examined |
| Merge.DoneAll | gumptionaire.c:219 | `fin == w*h` exactly when every buffer is used up |
| Merge.PickNone | gumptionaire.c:219 | the merge finds no buffer to advance exactly when all buffers are used up |
| Merge.RestAdvance | gumptionaire.c:230 | advancing one cursor removes exactly its front point from what is left |
| Merge.StrictPicksMinimum | gumption.c:299-302 | when one front is strictly smallest, the strict comparison chain picks it |
| Merge.StrictMergeTie | gumption.c:289-305 | as written, two buffers whose fronts q and q' have the same rank (the same point on a shared median edge, or two points of equal rank) make the chain pick nothing twice, so [[q],[q'],[],[]] with room 2 yields two empty slots; the first-minimum merge yields [q, q'] |
| Merge.StrictMergeStalls | old.c:70-84 | as written, once the smallest front is tied no cursor moves again, so every remaining slot up to the loop bound is counted and none is written |
| Merge.StrictTreeTie | old.c:160-176 | as written, a point q of the tree answer and a point q' of a leftover buffer with the same rank make the five-way merge count every one of its slots without writing any; the first-minimum merge yields [q, q'], and with repeated ranks skipped [q] |
| Merge.QuadrantMerge | gumption.c:289-305 | merging four rank-ascending hit buffers of the query (the corners here and the quadrants of old.c:63-84) gives at most the room's number of rank-ascending hits of the points |
| Merge.DedupAscending | gumption.c:289-305 | after skipping repeated ranks, a rank-sorted stream strictly ascends and ends on the stream's last rank |
| Merge.DedupKeepsRanks | gumption.c:289-305 | skipping repeated ranks loses no rank of the stream |
| Merge.MergeChildren | gumption.c:289-305 | the corrected child merge writes exactly the first `room` entries of the first-minimum merge, with repeated ranks skipped |
| Merge.MergeHitsDone | gumptionaire.c:224-228 | when the loop stops, the output is the first `count` hits of the merged stream |
| Merge.MergedAnswers | gumptionaire.c:180-234 | the first `count` hits of the merge of rank-sorted buffers answer the query over the buffers' points |
| Merge.MergeChildrenOutput | gumption.c:289-305 | the merged output has strictly ascending ranks, and every point of it comes from one of the buffers |
| Merge.MergeFound | gumption.c:289-305 | merging children's rank-ascending hits gives rank-ascending hits of the points |
| Gump.Context.Create | gump.c:216-230 | three fresh copies of the input, sorted by x, by y and by rank |
| Gump.Context.BaselineSearch | gump.c:108-122 | the first `count` hits of the rank-sorted copy answer the query |
| Gump.Context.BinarySearch | gump.c:197-214 | corrected (first finding): `search`'s answer: at most `count` points, the query's lowest-rank hits, rank-ascending; the output past them is untouched |
| Gump.FindHits | gump.c:124-195 | a rank-ascending top-`count` of the candidates passing the x-only test (`xOrY`) or the y-only test |
| Grid.SlotBounds | gumptionaire.c:184-189 | the corrected slot `i*h + j` of a w x h window lies in 0 .. w*h-1 |
| Grid.SlotDivMod | gumptionaire.c:221 | a corrected slot gives back its cell: column slot / h, row slot % h |
| Grid.SlotInjective | gumptionaire.c:202 | distinct cells of a window have distinct corrected slots |
| Grid.SlotCell | gumptionaire.c:200-202 | every slot of a window names a cell inside the window |
| Grid.SlotsFitGrid | gumptionaire.c:441 | a window of the grid needs at most DIVS*DIVS corrected slots |
| Grid.SlotCollision | gumptionaire.c:186 | the slot as written, `i*w + j`, gives cells (0,2) and (1,0) of a 2-wide, 3-tall window the same cursor |
| Grid.BlockiOverflow | gumptionaire.c:441 | an 11 x 11 window uses slot 120, beyond the 100 cursors allocated |
| Grid.LastEdge | gumptionaire.c:464 | the last strip edge is the grid's upper bound |
| Grid.EdgesAscend | gumptionaire.c:463-464 | strip edges ascend |
| Grid.StripUnique | gumptionaire.c:465 | a value lies in at most one strip |
| Grid.StripOf | gumptionaire.c:461-498 | every value up to the upper bound lies in one of the DIVS strips |
| Grid.StripBelowTop | gumptionaire.c:464 | a value in a strip lies at or below the grid's upper bound |
| Grid.CellFacts | gumptionaire.c:474-495 | corrected (ninth finding): each cell is a range of the grid array, rank-sorted, holding only points within its strips |
| Grid.ColumnFacts | gumptionaire.c:461-498 | corrected (ninth finding): a column's cells follow each other; the points between its last cell and the next column lie above the grid |
| Grid.Cell | gumptionaire.c:484-488 | corrected (ninth finding): the points of a cell are rank-sorted and lie within its strips |
| Grid.Window | gumptionaire.c:200-208 | the window of w x h cells has one cell per slot |
| Grid.WindowAt | gumptionaire.c:202-208 | slot `i*h + j` of the window holds cell (x0+i, y0+j) |
| Grid.WindowSingle | gumptionaire.c:312-317 | a 1 x 1 window is its one cell |
| Grid.WindowCells | gumptionaire.c:200-208 | every window cell is rank-sorted and holds points of the grid array |
| Grid.Placement | gumptionaire.c:461-498 | corrected (ninth finding): every point not above the grid sits in a cell whose strips contain it |
| Grid.CellOfPoint | gumptionaire.c:461-498 | corrected (ninth finding): a point is in cell (i, j) exactly when it is not above the grid and lies in strips i and j, so each point is in exactly one cell |
| Grid.SortRun | gumptionaire.c:486 | sorting one segment of the grid array is a permutation that sorts that segment and leaves the rest |
| Grid.SortKeepsCell | gumptionaire.c:486 | sorting a cell's segment keeps every point of it in that cell |
| Grid.SortKeepsStrip | gumptionaire.c:468 | sorting a column's segment keeps every point of it in that x-strip |
| Grid.CellStep | gumptionaire.c:482-488 | sorting the next run of a column by rank makes it the column's next cell |
| Grid.ColumnStep | gumptionaire.c:475-494 | corrected (ninth finding): one row step keeps the column invariant: cells so far built, the rest y-sorted above the row edge, outside untouched, a permutation |
| Grid.BuildColumn | gumptionaire.c:466-495 | corrected (ninth finding): a complete column over the x-strip's points starting at `lo`; the array outside the strip is unchanged and the whole is a permutation |
| Grid.ColumnPass | gumptionaire.c:475-494 | corrected (ninth finding): one pass of the row loop preserves the column invariant and consumes the points up to the row edge |
| Grid.GridStep | gumptionaire.c:463-497 | appending a built column keeps the strip-loop invariant |
| Grid.GridPass | gumptionaire.c:463-497 | corrected (ninth finding): one pass of the strip loop builds the next column and keeps the strip-loop invariant |
| Grid.GridTail | gumptionaire.c:461-498 | after the last strip the array is laid out as a grid |
| Grid.BuildGrid | gumptionaire.c:440-498 | corrected (ninth finding): the bounds are the second smallest and second largest x and y; the grid array is a permutation of the points laid out as DIVS x DIVS rank-sorted cells |
| Grid.RowSearchAsWritten | gumptionaire.c:477 | as written, the row search also probes the first point of the next strip; when that point lies at or below the row edge (and above the column's points) the search returns it, and it lies outside the cell |
| Grid.BuildStrips | gumptionaire.c:461-498 | corrected (ninth finding): the strip loop turns the x-sorted array into a permutation of itself laid out as a grid |
| RangeTree.Len | gumptionaire.c:381 | a node's buffer length, `DEPTHFACTOR * 2^(MAXDEPTH - depth)`, is at least DEPTHFACTOR |
| RangeTree.StripCovers | gumptionaire.c:384-389 | every hit of a query whose axis range lies within a node's span lies in the node's strip |
| RangeTree.CoveringNodeAnswers | gumptionaire.c:266-275 | when the first `count` hits of a covering node's buffer exist, they answer the query over all points |
| RangeTree.CoveringChild | gumptionaire.c:267-269 | the child chosen holds the query's range, and none is chosen only when no child holds it |
| RangeTree.ChildOk | gumptionaire.c:425-427 | every child of a well-built inner node is well built one level down |
| RangeTree.DeepestOk | gumptionaire.c:267-269 | the descent stops at a depth within the tree, at a node that still covers the query |
| RangeTree.RangeHits | gumptionaire.c:266-275 | corrected (fourth finding): `rangeHits` returns `count` or a depth marker in [-MAXDEPTH, -depth]; on `count` the output answers the query over all points |
| RangeTree.ScanNode | gumptionaire.c:271-274 | the corrected node scan over the filled part of the buffer returns `count` (then answering the query) or `-depth` |
| RangeTree.PhantomOriginHits | gumptionaire.c:271-272 | as written, scanning the whole buffer with its calloc zero tail reports the point (0,0) twice for a leaf over one point at (10,10) and a query around the origin |
| RangeTree.SkipRun | gumptionaire.c:398-405 | advancing the median stops at the end of its run of equal coordinates |
| RangeTree.Split | gumptionaire.c:398-423 | corrected (fifth finding): median and quartiles end runs of equal coordinates, and l <= q1 <= med <= q3 |
| RangeTree.Q3SplitsRun | gumptionaire.c:416-423 | as written, the q3 loop tests the median's value; on x = 0,1,2,3,3,3,4,4 the third quartile lands inside the run of 4s |
| Gumptionaire.BuildRange | gumptionaire.c:370-430 | corrected (first and fifth findings): the node over [l, r] is well built: its buffer is the rank-ascending top of its strip, zero filled, with children reusing the given overlaps |
| Gumptionaire.Inner | gumptionaire.c:393-427 | an inner node assembled from its buffer and three children is well built |
| Gumptionaire.BuildChildren | gumptionaire.c:425-427 | the left, right and middle children are well built one level down |
| Gumptionaire.Middle | gumptionaire.c:427 | the middle child, built over [q1, q3] and reusing the siblings' inner grandchildren, is well built |
| Gumptionaire.Child | gumptionaire.c:425-426 | a side child, reused when given and built otherwise, is well built |
| Gumptionaire.InnerChildren | gumptionaire.c:427 | the grandchildren a middle child reuses are well built at its depth |
| Gumptionaire.FillBuffer | gumptionaire.c:381-390 | corrected (first finding): the node buffer has its depth's length; its filled part is the rank-ascending top of the strip's points and the rest is zero |
| Gumptionaire.TrimWithin | gumptionaire.c:296-301 | the trimmed query lies within the grid bounds, and a point hits it exactly when it hits both the query and the bounds |
| Gumptionaire.WindowMergeable | gumptionaire.c:335-340 | the cells of a grid window are rank-sorted with ranks below RANKMAX, as the merge needs |
| Gumptionaire.SingleWindowAnswers | gumptionaire.c:312-317 | an answer over one cell is an answer over the 1 x 1 window |
| Gumptionaire.SliceCounts | gumptionaire.c:278-294 | the located slice lengths give the axis counts the planner compares with BINARYLIMIT, and an empty slice means an empty axis count |
| Gumptionaire.BuildAll | gumptionaire.c:537-550 | the sorted copies, both range trees over the whole array and the grid are built and well formed |
| Gumptionaire.Context.Create | gumptionaire.c:532-562 | the context holds the input and its structures are well built; an empty input builds nothing |
| Gumptionaire.Context.FindMin | gumptionaire.c:195-216 | corrected (second finding): the minimum search over the window's cursors: the first cell with the smallest live front, and the number of used-up cells |
| Gumptionaire.Context.ResetCursors | gumptionaire.c:184-189 | corrected (second finding): the w*h window cursors are zero and the others unchanged |
| Gumptionaire.Context.FindHitsB | gumptionaire.c:180-234 | corrected (second finding): the output is exactly the first `count` hits of the rank merge of the window's cells |
| Gumptionaire.Context.MergeNext | gumptionaire.c:195-231 | corrected (second finding): one loop pass advances one cursor and writes at most one hit; it stops exactly when all cells are used up |
| Gumptionaire.Context.MaxTests | gumptionaire.c:323-332 | the number of points in the window's cells |
| Gumptionaire.Context.ScanSmaller | gumptionaire.c:341-345 | the selector over the smaller slice answers the query |
| Gumptionaire.Context.TreeSearch | gumptionaire.c:319-321 | corrected (fourth finding): the range tree returns `count` and then answers the query, or a negative marker |
| Gumptionaire.Context.CellSearch | gumptionaire.c:312-317 | the single-cell scan answers the query over that cell |
| Gumptionaire.Context.WindowSearch | gumptionaire.c:335-340 | corrected (second finding): the grid merge answers the query over the window's cells |
| Gumptionaire.Context.SearchRange | gumptionaire.c:277-359 | corrected (first, second and fourth findings): the plan taken and its guarantee: 0 nothing, exactly for an empty axis count; 1 slice scan below BINARYLIMIT; 2 single cell, exactly for a 1 x 1 window; 3 range tree, full; 4 grid merge when the window holds fewer points than the smaller slice; 5 slice scan otherwise; the query is trimmed to the bounds exactly on plans 2 to 5 |
| Gumptionaire.Context.SlicePlans | gumptionaire.c:285-294 | an empty slice gives plan 0 and a small one plan 1, each answering the query |
| Gumptionaire.Context.GridPlans | gumptionaire.c:296-345 | corrected (second and fourth findings): with both slices at least BINARYLIMIT, the query is trimmed and plans 2 to 5 run with their guarantees |
| Gumptionaire.Context.Fallback | gumptionaire.c:323-345 | corrected (second finding): plan 4 runs exactly when the window holds fewer points than the smaller slice, answering over the window; otherwise plan 5 answers over all points |
| Gumptionaire.Context.Search | gumptionaire.c:564-571 | corrected (first, second and fourth findings): no points for an empty context; otherwise an answer over all points, or over the window's cells for plans 2 and 4 |
| Gumption.ChildGeometry | gumption.c:377-392 | each of the nine children lies inside its parent, is at least half as wide and tall, and the four corner children cover every point of the parent |
| Gumption.BuildNode | gumption.c:354-404 | corrected (first finding): the node over `rect` is well built: its buffer holds the rank-ascending top of its rectangle's points, and inner nodes have nine well-built children |
| Gumption.FillBuffer | gumption.c:373-400 | corrected (first finding): the buffer has the depth's capacity and holds the rank-ascending top of the points inside the node |
| Gumption.BuildChildren | gumption.c:384-392 | all nine children are built over their rectangles, one level down |
| Gumption.AddChild | gumption.c:384-392 | building one more child extends the built children and keeps the earlier ones |
| Gumption.Descent | gumption.c:265-275 | corrected: the first child in the order 1, 3, 7, 9, 5, 2, 4, 6, 8 whose rectangle contains the query; -1 exactly when none does |
| Gumption.DescentAsWritten | gumption.c:267-275 | as written: the first child in that order contained in the query; -1 exactly when none is |
| Gumption.NarrowDescentFails | gumption.c:259-275 | as written, a query narrow enough to descend is never wider than a child, so the descent finds no child and `treeHits` fails |
| Gumption.NarrowQueryDescends | gumption.c:259-275 | corrected: a query inside the node and narrower than a quarter of it on both axes lies in some child |
| Gumption.HoldingChild | gumption.c:377-382 | such a query lies in a child whose position in the descent order is found |
| Gumption.SharedCornerDiffers | gumption.c:384-389 | a reused corner matches the fresh child rectangle for child 2, but not for the full-width child 4, whose reused child 1 ends at the first x quartile instead of the median |
| Gumption.TreeHits | gumption.c:257-310 | corrected (third and sixth findings): `treeHits` returns `count` or -1; on `count` the output is rank-ascending hits of the points, and an answer when the scanned node contains the query |
| Gumption.DescendHits | gumption.c:265-275 | corrected (sixth finding): descending into the containing child keeps the `treeHits` guarantee; no child gives -1 |
| Gumption.ScanHits | gumption.c:276-278 | scanning the node buffer gives `count` rank-ascending hits or -1, answering the query when the node contains it |
| Gumption.SplitHits | gumption.c:279-306 | corrected (third finding): merging the overlapping corner quadrants gives `count` rank-ascending hits or -1 |
| Gumption.ChildHits | gumption.c:282-285 | a quadrant's answer holds at most `count` rank-ascending hits of the points, and nothing for a quadrant that does not overlap |
| Gumption.Context.Create | gumption.c:428-458 | the context holds the input; for a non-empty input the root rectangle runs from the second smallest to the second largest x and y, and the tree over it is well built |
| Gumption.Context.SearchTree | gumption.c:312-346 | corrected (first, third and sixth findings): at most `count` rank-ascending hits of the points; an answer when the slice path or a containing node is used; otherwise exactly `count` points and both axis counts at least BINARYLIMIT |
| Gumption.Context.Search | gumption.c:460-465 | corrected (first, third and sixth findings): the guarantee of `searchTree`, with no points for an empty context |
| OldTree.Quadrants | old.c:289-292 | the four child boxes of a node |
| OldTree.QuadrantsPartition | old.c:288-292 | an index pair of the node's box lies in exactly one quadrant, the one its side of the medians selects |
| OldTree.QuadrantsShrink | old.c:288-292 | every quadrant lies within the array and is no larger than its parent, and all shrink unless both medians are at the top |
| OldTree.RunEnd | old.c:270-286 | the median advance ends at the last index of its run of equal coordinates, or at the box's top |
| OldTree.AdvanceMedian | old.c:270-286 | the advancing loop computes that run end |
| OldTree.RunEndOnConstant | old.c:270-286 | on a constant run the advance reaches the top |
| OldTree.SameSpotRecurses | old.c:268-292 | when the upper halves of both coordinate ranges are constant, both medians reach the top and the third quadrant, bl, is the node's own box, so the build recurses without end |
| OldTree.FillBuffer | old.c:264-265 | corrected (first finding): the node buffer holds the rank-ascending top `size` points of its rectangle |
| OldTree.BuildNode | old.c:233-295 | corrected (first and seventh findings): the node over box `b` is well built: its rectangle and buffer are right, and it splits into four well-built quadrants exactly when it is large enough and not stuck |
| OldTree.Medians | old.c:270-286 | the medians are the run ends from the box midpoints |
| OldTree.OwnNode | old.c:246-264 | corrected (first finding): the node's box, rectangle and buffer, with no children |
| OldTree.Grow | old.c:288-292 | the four quadrants are built in order |
| OldTree.AddQuadrant | old.c:289-292 | building the next quadrant extends the built children |
| OldTree.StoredFound | old.c:41-49 | a node buffer inside the query gives rank-ascending hits of the points, at most its size |
| OldTree.ChildPointsFound | old.c:39-85 | `treeHitsA`'s answer holds at most `maxres` rank-ascending hits of the points |
| OldTree.SplitFound | old.c:58-84 | the merged quadrant answers of a partly covered node are rank-ascending hits of the points |
| OldTree.WidenAllAppend | old.c:44-47 | widening the enclosing box by two runs of boxes is widening by their concatenation |
| OldTree.WidenAllSide | old.c:44-47 | each side of the widened box is -1 only when unset and given no box; otherwise it encloses the start and every box, and equals one of them |
| OldTree.Holding | old.c:184-187 | the first child whose rectangle contains the query; -1 exactly when none does |
| OldTree.Context.Create | old.c:309-340 | the context holds the input, `maxres` and the entry past the end of the sorted copies, and the root is well built |
| OldTree.Context.TreeHitsA | old.c:39-85 | the answer is the model's `ChildPoints`, which merges the quadrant answers with the corrected merge of the third finding, and the enclosing box is widened by every node box inside the query |
| OldTree.Context.MergeQuadrants | old.c:63-84 | corrected (third finding): the merged output is the first `maxres` entries of the quadrants' first-minimum merge, with repeated ranks skipped |
| OldTree.Context.SearchTreeA | old.c:87-180 | corrected (first, third and eighth findings): rank-ascending hits of the points; an answer on the slice paths; otherwise the merge of the tree answer with the four leftover buffers, at most `maxres` entries, and the box widened from unset |
| OldTree.Context.MergeTree | old.c:157-178 | corrected (eighth finding): at most `maxres` rank-ascending hits, the first entries of the five buffers' first-minimum merge with repeated ranks skipped; the box widened from unset over the contained boxes |
| OldTree.Context.TreeHitsB | old.c:182-201 | at most `count` rank-ascending hits of the points, an answer when a containing node's buffer is used |
| OldTree.Context.BoxScan | old.c:193-196 | the scan of a box's slice gives at most `count` rank-ascending hits of the points |
| OldTree.Context.SearchTreeB | old.c:203-226 | corrected (first finding): at most `count` rank-ascending hits; an answer on the slice paths; the tree path only when both axis counts are at least 2*MINBOX |

## Left out

- Memory management is not modelled: `destroy`, `freeNode`, `freeRange` and `freeGrid` (including the double free at gumptionaire.c:511 and 527), and the release of the rank-sorted copy after building in gumption.c:456 (it is not read afterwards). The model has no allocation failures and no dangling references.
- Output is not modelled: `printf` tracing (including in `findHitsB`), the `WRITEFILES` dumps, and the `hitchecks`, `nodes` and `ranges` counters. They do not affect results.
- Floating point is not modelled. Coordinates are exact reals.
  - The ratio tests (gump.c:209-210 `> .01`, old.c:99-100 and 220-221 `> .1`) are computed exactly.
  - `gumption.c` child midpoints are exact.
  - `pow(2, ...)` in `gumptionaire.c` is the integer `Pow2`.
- The grid window of `searchRange` is a parameter (x0, y0, w, h) of `Gumptionaire.Context.Search`. Its corner and size come from `floor`/`ceil` of float divisions (gumptionaire.c:303-310). Its correctness relative to the query is not modelled, only its use.
- `Sorting.SortSegment`: `qsort` is modelled by one fixed result, `Sorting.Sort`, the insertion of each point before the first entry with a larger key. `qsort` promises only a sorted permutation and may order equal keys differently. The model fixes one order, so where the order of equal keys shows, it shows as in that one order. This applies to the sorted prefixes of `RankIntersect.Intersect` and to which of two equal-rank points it emits. `Sorting.SortedCopy` and `Grid.SortRun` state only a sorted permutation.
- Overflow of the subtraction in the comparators (`rankCompare` at gump.c:51-53) is not modelled. Integers are unbounded.
- The `gumption.c` children built as aliases of siblings' grandchildren (the `over1..over9` parameters, gumption.c:384-392) are not modelled. The model builds every child fresh over `ChildRect`, so sharing is not captured. The shared children do not always have the rectangles of a fresh build: child 4 is built full width (`xmin` to `xmax`, gumption.c:389), but the corners passed to it are half-width grandchildren such as child 7 of child 1, which ends at the first x quartile (`Gumption.SharedCornerDiffers`). The same holds for children 4 and 6 passed to children 2 and 8, and for those passed to child 5. In the source, such a subtree's corners do not cover its rectangle. `NodeOk` and `ChildRect` describe the fresh geometry. The alias pattern suggests `xmed` was meant at gumption.c:389; the model keeps `xmax`.
- In `gumptionaire.c`, the `med` and `q1` advance loops (gumptionaire.c:398-414) have no array-end guard. They are modelled as stopping at the last element (`RangeTree.SkipRun`).
- MINBOX (100) is taken from the comment at old.c:267. The constant is not defined in the file.
- MAXRESLEN is the parameter `maxres` of `OldTree.Context.Create`.
- The node points of old.c use the commented-out definition at old.c:260-261.
- Old.c references `isHitXMinRank`, `isHitYMinRank` and `_rankmax`, which are not defined in the repository. So the four leftover strip buffers `lbox`, `rbox`, `tbox`, `bbox` of `searchTreeA` are parameters, required only to be rank-ascending hits of the points. The leftover rectangle computation (old.c:116-155) is not modelled.
- In `treeHitsB`, the NULL children of a leaf are treated as no child.
- The read of `xsort[N]` (old.c:248-253) is the context constant `past`.
- `search` in old.c (old.c:342-345) calls `searchRankBinary`, which is not part of this model (it is not defined in the repository). `SearchTreeA` and `SearchTreeB` are the entry points.
- `OldTree.Context.MergeQuadrants`: the strict comparison chain of old.c:78-81 is replaced by the corrected merge of the third finding. On a tied front the source moves no cursor and counts every remaining slot up to MAXRESLEN with stale entries (`Merge.StrictMergeStalls`); the model emits each rank once. The quadrants of old.c:288-292 do not overlap, so a tie there needs two distinct points of equal rank, of which the corrected merge keeps the first.
- `OldTree.Context.MergeTree`: the strict five-way chain of old.c:169-173 is replaced by the same corrected merge (eighth finding). Ties arise when a point of the tree answer and a point of a leftover buffer have the same rank (`Merge.StrictTreeTie`). The boxes of old.c do not overlap, so such a tie needs two distinct points of equal rank. The corrected merge then keeps only the first of them; ranks are not required to be distinct.
- `OldTree.Context.TreeHitsA`: its result `ChildPoints` uses the corrected quadrant merge, not the stalling chain of old.c:78-81.
- `OldTree.Context.SearchTreeA`: on the tree path it returns up to `maxres` points, whatever `count` is, as the code does. It is stated as rank-ascending hits, not as lowest-rank hits.
- The scratch buffers `childPoints` and `hits1..hits9` are returned values, not shared arrays.
- `Grid.BuildGrid`: the strip search's upper index `N - xidxl + 1` reaches two past the end of the array (gumptionaire.c:465); that over-read is not modelled, and the search stops at the last element of the array.
- `Grid.ColumnPass`, `Grid.BuildColumn`, `Grid.BuildGrid`: the row search is confined to the column (ninth finding). The source's upper index `xidxr - yidxl + 1` (gumptionaire.c:477) reaches the first point of the next strip, which is inside the array. When that point lies at or below a row edge, the source makes index xidxr+1 the last entry of a cell of column i, and column i+1, which starts at that index, sorts it again. A point can then sit in two cells or in a cell whose strips do not contain it, a cell can lose its rank order, and grid plan 4 can report a point twice. `Grid.RowSearchAsWritten` states the search result; the later corruption of cells is not modelled.
- `Grid.ColumnStep`: one row step takes only points of the column, as the corrected search does; the source's step can take the next strip's first point as well (ninth finding).
- `Gumptionaire.Context.Create` and `Gumption.Context.Create` require an input other than a single point. For N = 1 the code reads `xsort[N-2]`.
- `OldTree.Context.Create` requires a non-empty input: for an empty one the root's box would read `xsort[-1]`. The rank bounds in the `Create` requires are what the merges' RANKMAX sentinel assumes.
- `Gumption.Context.SearchTree` and `Gumption.Context.Search` require `count <= HITSLEN` (20), the size of the `calloc`ed child hit buffers (gumption.c:394-397). A larger `count` overflows them.
- `Gumption.Context.SearchTree`: a tree answer is stated only as rank-ascending hits of the points, not as lowest-rank hits. It is lowest-rank when a node containing the query is scanned.
- `Gumption.TreeHits`: the split branch's merge is stated as sound (rank-ascending hits), not as lowest-rank, because the children return at most `count` each.
- `OldTree.Context.TreeHitsB`, `OldTree.Context.SearchTreeB`, `OldTree.Context.BoxScan`: the tree paths are stated only as rank-ascending hits of the points.
- `Gumptionaire.Context.Search`: plans 2 and 4 answer over the window's cells only, as the code does.
- `Gump.Context.BinarySearch` uses the upper search index N-1. The index N as written is the subject of the first finding.
- Every search and node fill locates its axis slices with the corrected upper index N-1 of the first finding: `searchBinary` in all three of its copies, `searchRange`, `searchTree`, `searchTreeA` and `searchTreeB`. The read of the entry past the end is not modelled there; `CoordSearch.AxisRangeAsWritten` states what it does.

## Findings

| source | as written | input that shows it | evidently intended | confidence | as-written member | corrected member |
|---|---|---|---|---|---|---|
| gump.c:200-203, gumptionaire.c:249-252, gumptionaire.c:278-281, gumption.c:242-245, gumption.c:313-316, old.c:89-92, old.c:205-208 | `bsearch(..., 0, N)` uses upper index N, reading one entry past the sorted array | one point at x = 0, query hx = 1, memory past the end reading x = 1: the upper bound is 1 = N, so the slice counts a point that does not exist | upper index N-1 | not executed | CoordSearch.AxisRangeAsWritten | CoordSearch.AxisRange |
| gumptionaire.c:186, 202, 221, 441 | the cursor slot of cell (i, j) is `i*w + j`, over `calloc(100)` cursors | a 2 x 3 window: cells (0,2) and (1,0) share slot 2; an 11 x 11 window uses slot 120 > 99 | slot `i*h + j`, with DIVS*DIVS cursors | not executed | Grid.SlotCollision | Grid.SlotInjective |
| gumption.c:299-302, old.c:78-81 | the four-way merges of `treeHits` and `treeHitsA` pick a buffer only when its front is strictly below the other three; on a tie nothing is written but the slot is counted, and no cursor moves, so the tie is never broken | in `treeHits`, a point p on the x median line inside the query reaches corners 1 and 3, giving buffers [[p],[p],[],[]]; in `treeHitsA`, two distinct points of equal rank in two quadrants give [[q],[q'],[],[]]; with count 2 the output slots hold no point | take the first smallest front and skip a repeated rank | not executed | Merge.StrictMergeTie | Merge.MergeChildren |
| gumptionaire.c:271-272 | `rangeHits` scans all `len` entries of the node buffer, including the `calloc` zero tail | 5000 points on the line x + y = 100 with 0 < x < 100, the query from (-1,-1) to (50,50) and count 10: both axis slices hold about 2500 points, so the range tree is searched; every node covering a slice holds fewer points than its buffer length (the root holds 5000 of 128000), the query has at most one real hit, and the scan reports the zero tail's (0,0) rank-0 entries as hits; the member exhibits the scan on a one-point buffer with a zero tail | scan only the filled part of the buffer | not executed | RangeTree.PhantomOriginHits | RangeTree.ScanNode |
| gumptionaire.c:416-423 | the q3 advance loop compares the coordinates at `med`, not at `q3` | x = 0,1,2,3,3,3,4,4: q3 = 6 lies inside the run of 4s | advance q3 to the end of its own run | not executed | RangeTree.Q3SplitsRun | RangeTree.Split |
| gumption.c:267-275 | the descent tests `isRectInside(rect, child)`, the query containing the child | any query narrow enough to descend: no child is found and the search fails | `isRectInside(child, rect)`, the child containing the query | not executed | Gumption.NarrowDescentFails | Gumption.NarrowQueryDescends |
| old.c:270-292 | the median advance reaches the box's top when the upper half of a coordinate range is constant; when that holds for both ranges (a stuck x median alone still shrinks y), the third quadrant, bl, built after the empty tr and tl, is the node's own box | 200 or more points at one position: `buildNode` recurses on the same box without end | stop splitting a box that does not shrink | not executed | OldTree.SameSpotRecurses | OldTree.BuildNode |
| old.c:169-173 | the five-way merge of `searchTreeA`'s tree branch picks a buffer only when its front is strictly below the other four; on a tie nothing is written and no cursor moves, so every slot up to MAXRESLEN is counted | a point q of a contained node and a point q' of `lbox`, both inside the query, with q.rank == q'.rank (nothing in the code makes ranks distinct): every output slot is counted and none holds q or q' | take the first smallest front and skip a repeated rank | not executed | Merge.StrictTreeTie | OldTree.Context.MergeTree |
| gumptionaire.c:477 | the row search's upper index `xidxr - yidxl + 1` makes `bsearch` probe index xidxr+1, the first point of the next strip in x order | a column at indices 10..12 with y = .1, .2, .3, the next strip's first point at index 13 with y = .5, and a row edge at .5: the search returns 13, so the cell takes that point, which lies outside its x-strip; index 13 is also the first entry of column i+1, whose sorts rewrite it, so one entry belongs to two cells | upper index `xidxr - yidxl`, the column's last point | not executed | Grid.RowSearchAsWritten | Grid.ColumnPass |

=== FILE: coordsearch.dfy ===
/**
 * `bsearch`, the coordinate lookup every planner uses to turn a rectangle's
 * x or y interval into a contiguous slice of the x- or y-sorted array
 * (gump.c:71-88, gumptionaire.c:82-99, gumption.c:74-91: three identical
 * copies), and the slice computation its callers perform.
 */
module CoordSearch {
  import opened Geometry
  import opened Ranking
  import opened Sorting

  /** p[lo..hi] (both ends included) ascends on axis a. */
  predicate SortedOn(p: seq<Point>, a: Axis, lo: int, hi: int)
    requires 0 <= lo && hi < |p|
  {
    forall i, j :: lo <= i <= j <= hi ==> Coord(p[i], a) <= Coord(p[j], a)
  }

  /** A whole sequence sorted by the axis key is sorted on every slice. */
  lemma SortedOnSlice(p: seq<Point>, a: Axis, lo: int, hi: int)
    requires SortedBy(p, AxisKey(a)) && 0 <= lo && hi < |p|
    ensures SortedOn(p, a, lo, hi)
  {
    forall i, j | lo <= i <= j <= hi ensures Coord(p[i], a) <= Coord(p[j], a) {
      if i < j {
        assert Key(p[i], AxisKey(a)) <= Key(p[j], AxisKey(a));
      }
    }
  }

  /**
   * `bsearch(p, xOrY, minOrMax, v, imin, imax)` on the sorted slice
   * p[imin..imax]. With `lower` (minOrMax = true) the result is the first
   * index in [imin, imax+1] whose coordinate is >= v; otherwise it is the
   * last index in [imin-1, imax] whose coordinate is <= v. When the probe
   * lands on a run of values equal to v, the run is walked to its first
   * (lower) or last (upper) element, so a run is never split.
   */
  method BSearch(p: seq<Point>, a: Axis, lower: bool, v: real, imin: int, imax: int) returns (r: int)
    requires 0 <= imin <= imax + 1 && imax < |p|
    requires SortedOn(p, a, imin, imax)
    ensures lower ==> imin <= r <= imax + 1
    ensures lower ==> forall k :: imin <= k < r ==> Coord(p[k], a) < v
    ensures lower ==> forall k :: r <= k <= imax ==> Coord(p[k], a) >= v
    ensures !lower ==> imin - 1 <= r <= imax
    ensures !lower ==> forall k :: imin <= k <= r ==> Coord(p[k], a) <= v
    ensures !lower ==> forall k :: r < k <= imax ==> Coord(p[k], a) > v
  {
    var lo, hi := imin, imax;
    while hi >= lo
      invariant imin <= lo <= hi + 1 <= imax + 1
      invariant forall k :: imin <= k < lo ==> Coord(p[k], a) < v
      invariant forall k :: hi < k <= imax ==> Coord(p[k], a) > v
      decreases hi - lo
    {
      var mid := (lo + hi) / 2;
      var val := Coord(p[mid], a);
      if val == v {
        if lower {
          while mid > lo && Coord(p[mid - 1], a) == v
            invariant lo <= mid <= hi && Coord(p[mid], a) == v
          {
            mid := mid - 1;
          }
          return mid;
        } else {
          while mid < hi && Coord(p[mid + 1], a) == v
            invariant lo <= mid <= hi && Coord(p[mid], a) == v
          {
            mid := mid + 1;
          }
          return mid;
        }
      } else if val < v {
        lo := mid + 1;
      } else {
        hi := mid - 1;
      }
    }
    r := if lower then lo else hi;
  }

  /** [l, r] holds exactly the indices of `p` whose coordinate on `a` lies
      within [lo, hi]. */
  ghost predicate IsAxisRange(p: seq<Point>, a: Axis, lo: real, hi: real, l: int, r: int)
  {
    && 0 <= l && r < |p|
    && forall k :: 0 <= k < |p| ==> (l <= k <= r <==> lo <= Coord(p[k], a) <= hi)
  }

  /** The one-axis test that checks the coordinate of axis `a`. */
  function AxisTest(a: Axis): HitTest
  {
    match a
    case X => XOnly
    case Y => YOnly
  }

  /** The one-axis test for the other axis. */
  function OtherTest(a: Axis): HitTest
  {
    match a
    case X => YOnly
    case Y => XOnly
  }

  /** The interval of `r` on axis `a`. */
  function Low(r: Rect, a: Axis): real
  {
    match a
    case X => r.lx
    case Y => r.ly
  }

  function High(r: Rect, a: Axis): real
  {
    match a
    case X => r.hx
    case Y => r.hy
  }

  /**
   * The pair of `bsearch` calls a planner makes for one axis
   * (gumption.c:242-247 and the same lines in every variant), with the
   * search confined to the array: imax is N-1. The slice holds exactly
   * the points whose coordinate lies in the rectangle's interval, and its
   * length n = r - l + 1 is never negative for a well-formed rectangle.
   */
  method AxisRange(p: seq<Point>, a: Axis, lo: real, hi: real) returns (l: int, r: int)
    requires SortedBy(p, AxisKey(a))
    ensures IsAxisRange(p, a, lo, hi, l, r)
    ensures l <= |p| && -1 <= r
    ensures lo <= hi ==> l <= r + 1
    ensures lo > hi ==> r < l
  {
    if |p| > 0 {
      SortedOnSlice(p, a, 0, |p| - 1);
    }
    l := BSearch(p, a, true, lo, 0, |p| - 1);
    r := BSearch(p, a, false, hi, 0, |p| - 1);
    if r + 1 < l {
      assert Coord(p[r + 1], a) < lo && Coord(p[r + 1], a) > hi;
    }
    if 0 <= l <= r < |p| {
      assert lo <= Coord(p[l], a) <= hi;
    }
  }

  /**
   * The same pair of calls as the source writes them, with imax = N: the
   * search then also probes the element one past the end of the array,
   * modelled as `past`. When that value falls inside [lo, hi] the upper
   * bound comes back as N, so the slice length counts a point that does
   * not exist (e.g. one point at x = 0, query hx = 1, memory past the end
   * reading x = 1: the result is r = 1 = N).
   */
  method AxisRangeAsWritten(p: seq<Point>, past: Point, a: Axis, lo: real, hi: real) returns (l: int, r: int)
    requires SortedBy(p + [past], AxisKey(a))
    ensures IsAxisRange(p + [past], a, lo, hi, l, r)
    ensures lo <= Coord(past, a) <= hi ==> r == |p|
  {
    var mem := p + [past];
    SortedOnSlice(mem, a, 0, |p|);
    l := BSearch(mem, a, true, lo, 0, |p|);
    r := BSearch(mem, a, false, hi, 0, |p|);
    assert mem[|p|] == past;
  }

  /** p[l..l+n), or nothing when n is not positive: the candidate slice
      `&p[l], n` a planner hands to a selector (a non-positive n makes the
      selectors scan nothing). */
  function Slice(p: seq<Point>, l: int, n: int): (s: seq<Point>)
    requires n > 0 ==> 0 <= l && l + n <= |p|
    ensures |s| == if n > 0 then n else 0
  {
    if n <= 0 then [] else p[l..l + n]
  }

  /** A point occurs in the slice as often as in the whole array when its
      coordinate is in the interval, and not at all otherwise. */
  lemma SliceCount(p: seq<Point>, a: Axis, rect: Rect, l: int, r: int, q: Point)
    requires IsAxisRange(p, a, Low(rect, a), High(rect, a), l, r)
    ensures multiset(Slice(p, l, r - l + 1))[q] ==
      if Passes(AxisTest(a), rect, q) then multiset(p)[q] else 0
  {
    var s := Slice(p, l, r - l + 1);
    var inside := Low(rect, a) <= Coord(q, a) <= High(rect, a);
    assert inside <==> Passes(AxisTest(a), rect, q);
    if r - l + 1 > 0 {
      assert p == p[..l] + s + p[r + 1..];
      assert multiset(p) == multiset(p[..l]) + multiset(s) + multiset(p[r + 1..]);
      if inside {
        assert q !in p[..l] && q !in p[r + 1..];
      } else {
        assert q !in s;
      }
    } else if inside {
      assert q !in p;
    }
  }

  /**
   * Scanning only the x-slice of the query with the y-test (or the y-slice
   * with the x-test) finds exactly the points the full test finds: the
   * same hits, counted with multiplicity.
   */
  lemma AxisSliceHits(p: seq<Point>, a: Axis, rect: Rect, l: int, r: int)
    requires IsAxisRange(p, a, Low(rect, a), High(rect, a), l, r)
    ensures multiset(Hits(Slice(p, l, r - l + 1), rect, OtherTest(a))) == multiset(Hits(p, rect, Both))
  {
    var s := Slice(p, l, r - l + 1);
    forall q ensures multiset(Hits(s, rect, OtherTest(a)))[q] == multiset(Hits(p, rect, Both))[q] {
      HitsCount(s, rect, OtherTest(a), q);
      HitsCount(p, rect, Both, q);
      SliceCount(p, a, rect, l, r, q);
    }
  }
}

=== FILE: geometry.dfy ===
/**
 * Points, query rectangles and the hit predicates every search path is built
 * from. Coordinates are only compared (and, in the region tree, halved), so
 * they are modelled as exact reals; no floating-point rounding is modelled.
 */
module Geometry {

  /** A point of the immutable input set; a lower rank is a better point. */
  datatype Point = Point(id: int, rank: int, x: real, y: real)

  /** A query or node rectangle, inclusive on all four bounds. */
  datatype Rect = Rect(lx: real, hx: real, ly: real, hy: real)
  {
    /** Lower bounds do not exceed upper bounds. */
    predicate WellFormed() { lx <= hx && ly <= hy }
  }

  /** The point a `calloc`ed buffer entry reads as. */
  const Origin: Point := Point(0, 0, 0.0, 0.0)

  /** The coordinate a sorted array is ordered by (the source's `xOrY` flag). */
  datatype Axis = X | Y

  /** The hit predicate handed to a selector (the source passes `isHit`,
      `isHitX` or `isHitY` as a function argument or a boolean flag). */
  datatype HitTest = Both | XOnly | YOnly

  /** The point's coordinate on `a`. */
  function Coord(p: Point, a: Axis): real
  {
    match a
    case X => p.x
    case Y => p.y
  }

  /** `isHitX`: the x coordinate lies within [lx, hx]. */
  predicate IsHitX(r: Rect, p: Point)
  {
    p.x >= r.lx && p.x <= r.hx
  }

  /** `isHitY`: the y coordinate lies within [ly, hy]. */
  predicate IsHitY(r: Rect, p: Point)
  {
    p.y >= r.ly && p.y <= r.hy
  }

  /** `isHit`: the point lies inside the rectangle, bounds included. */
  predicate IsHit(r: Rect, p: Point)
  {
    p.x >= r.lx && p.x <= r.hx && p.y >= r.ly && p.y <= r.hy
  }

  /** Dispatch on the hit predicate a caller passed. */
  predicate Passes(t: HitTest, r: Rect, p: Point)
  {
    match t
    case Both => IsHit(r, p)
    case XOnly => IsHitX(r, p)
    case YOnly => IsHitY(r, p)
  }

  /** `isRectOverlap`: the interiors intersect (strict comparisons). */
  predicate IsRectOverlap(r1: Rect, r2: Rect)
  {
    r1.lx < r2.hx && r1.hx > r2.lx && r1.ly < r2.hy && r1.hy > r2.ly
  }

  /** `isRectInside(r1, r2)`: every bound of r2 lies within r1's. */
  predicate IsRectInside(r1: Rect, r2: Rect)
  {
    r2.lx >= r1.lx && r2.ly >= r1.ly && r2.hx <= r1.hx && r2.hy <= r1.hy
  }

  /** The full test is the conjunction of the two one-axis tests, and a point
      on any of the four bounds is a hit. */
  lemma HitIsBothAxes(r: Rect, p: Point)
    ensures IsHit(r, p) <==> IsHitX(r, p) && IsHitY(r, p)
    ensures (p.x == r.lx || p.x == r.hx) && r.lx <= r.hx && IsHitY(r, p) ==> IsHit(r, p)
    ensures (p.y == r.ly || p.y == r.hy) && r.ly <= r.hy && IsHitX(r, p) ==> IsHit(r, p)
  {
  }

  /** Two rectangles that only share an edge do not overlap. */
  lemma SharedEdgeIsNoOverlap(r1: Rect, r2: Rect)
    requires r1.hx == r2.lx
    ensures !IsRectOverlap(r1, r2) && !IsRectOverlap(r2, r1)
  {
  }

  /** `isRectInside(r1, r2)` holds exactly when every point hitting the
      (well-formed) rectangle r2 also hits r1, that is r2 is a subset of r1. */
  lemma InsideIffSubset(r1: Rect, r2: Rect)
    requires r2.WellFormed()
    ensures IsRectInside(r1, r2) <==> (forall p: Point :: IsHit(r2, p) ==> IsHit(r1, p))
  {
    if forall p: Point :: IsHit(r2, p) ==> IsHit(r1, p) {
      var lo := Point(0, 0, r2.lx, r2.ly);
      var hi := Point(0, 0, r2.hx, r2.hy);
      assert IsHit(r2, lo) && IsHit(r2, hi);
    }
  }

  /** Containment is transitive; a query inside a node that lies inside a
      bigger node lies inside that node too. */
  lemma InsideTransitive(r1: Rect, r2: Rect, r3: Rect)
    requires IsRectInside(r1, r2) && IsRectInside(r2, r3)
    ensures IsRectInside(r1, r3)
  {
  }
}

=== FILE: grid.dfy ===
/**
 * The grid of gumptionaire.c: the points between the second-lowest and
 * second-highest coordinates on each axis are cut into DIVS x DIVS cells.
 * `buildGrid` lays the cells out as consecutive segments of one array,
 * column by column, each segment sorted by rank; a query over a window of
 * cells keeps one cursor per cell in `blocki`, at a slot numbered by the
 * cell's position in the window.
 */
module Grid {
  import opened Geometry
  import opened Ranking
  import opened Sorting
  import opened CoordSearch

  /** Cells per axis (gumptionaire.c:21). */
  const DIVS: int := 50

  // ---------------------------------------------------------------------
  // Cursor slots.

  /** The cursor slot of cell (i, j) of a window h cells tall. */
  function Slot(i: int, j: int, h: int): int
  {
    i * h + j
  }

  lemma MulMono(a: int, b: int, h: int)
    requires a <= b && h >= 0
    ensures a * h <= b * h
  {
    assert b * h - a * h == (b - a) * h;
  }

  /** The slots of a w x h window are 0 .. w*h-1. */
  lemma SlotBounds(i: int, j: int, w: int, h: int)
    requires 0 <= i < w && 0 <= j < h
    ensures 0 <= Slot(i, j, h) < w * h
  {
    MulMono(0, i, h);
    MulMono(i + 1, w, h);
  }

  /** A slot determines its cell: column slot / h, row slot % h. */
  lemma SlotDivMod(i: int, j: int, h: int)
    requires 0 <= i && 0 <= j < h
    ensures Slot(i, j, h) / h == i && Slot(i, j, h) % h == j
  {
    var b := Slot(i, j, h);
    var q, r := b / h, b % h;
    assert b == q * h + r;
    if q < i {
      MulMono(q + 1, i, h);
      assert false;
    } else if q > i {
      MulMono(i + 1, q, h);
      assert false;
    }
  }

  /** Distinct cells of a window have distinct slots. */
  lemma SlotInjective(i: int, j: int, i2: int, j2: int, h: int)
    requires 0 <= i && 0 <= i2 && 0 <= j < h && 0 <= j2 < h
    requires Slot(i, j, h) == Slot(i2, j2, h)
    ensures i == i2 && j == j2
  {
    SlotDivMod(i, j, h);
    SlotDivMod(i2, j2, h);
  }

  /** Every slot of a window names a cell inside the window. */
  lemma SlotCell(b: int, w: int, h: int)
    requires 0 <= b < w * h && h > 0
    ensures 0 <= b / h < w && 0 <= b % h < h
    ensures Slot(b / h, b % h, h) == b
  {
    var q, r := b / h, b % h;
    assert b == q * h + r;
    if q >= w {
      MulMono(w, q, h);
      assert false;
    }
    if q < 0 {
      MulMono(q, -1, h);
      assert false;
    }
  }

  /** A window of the grid needs at most DIVS*DIVS slots. */
  lemma SlotsFitGrid(i: int, j: int, w: int, h: int)
    requires 0 <= i < w <= DIVS && 0 <= j < h <= DIVS
    ensures 0 <= Slot(i, j, h) < DIVS * DIVS
  {
    SlotBounds(i, j, w, h);
    MulMono(w, DIVS, h);
  }

  /** The slot as written (gumptionaire.c:186, 202, 221): the column is
      multiplied by the window's width instead of its height. */
  function SlotAsWritten(i: int, j: int, w: int): int
  {
    i * w + j
  }

  /** In a window 2 cells wide and 3 tall, cells (0, 2) and (1, 0) share
      a cursor as written, so the merge advances one cursor for both. */
  lemma SlotCollision()
    ensures SlotAsWritten(0, 2, 2) == SlotAsWritten(1, 0, 2)
    ensures Slot(0, 2, 3) != Slot(1, 0, 3)
  {
  }

  /** The slots `buildGrid` allocates for cursors (gumptionaire.c:441). */
  const BLOCKI_AS_WRITTEN: int := 100

  /** An 11 x 11 window, well inside the grid, uses slot 120 both as
      written and corrected, past the 100 slots allocated; the grid itself
      can need DIVS*DIVS = 2500. */
  lemma BlockiOverflow()
    ensures 11 <= DIVS
    ensures SlotAsWritten(10, 10, 11) == Slot(10, 10, 11) == 120 >= BLOCKI_AS_WRITTEN
  {
  }

  // ---------------------------------------------------------------------
  // Cell edges.

  /** Edge i of the DIVS strips cutting [lo, hi]: lo + i*d with
      d = (hi - lo)/DIVS (gumptionaire.c:450-451, 463-464, 475-476). */
  function Edge(lo: real, hi: real, i: int): real
  {
    lo + (i as real) * ((hi - lo) / (DIVS as real))
  }

  /** Strip i along one axis is (Edge(i), Edge(i+1)]; the first strip
      also takes everything below the grid's lower edge. */
  predicate InStrip(v: real, lo: real, hi: real, i: int)
  {
    (i == 0 || Edge(lo, hi, i) < v) && v <= Edge(lo, hi, i + 1)
  }

  /** The strips of cell (i, j) contain the point. */
  predicate InCell(p: Point, bounds: Rect, i: int, j: int)
  {
    InStrip(p.x, bounds.lx, bounds.hx, i) && InStrip(p.y, bounds.ly, bounds.hy, j)
  }

  /** Beyond the grid's upper edge on some axis. */
  predicate Outside(p: Point, bounds: Rect)
  {
    p.x > bounds.hx || p.y > bounds.hy
  }

  /** The last edge is the upper bound itself. */
  lemma LastEdge(lo: real, hi: real)
    ensures Edge(lo, hi, DIVS) == hi
  {
  }

  /** Edges ascend when the interval is not reversed. */
  lemma EdgesAscend(lo: real, hi: real, i: int, i2: int)
    requires lo <= hi && i <= i2
    ensures Edge(lo, hi, i) <= Edge(lo, hi, i2)
  {
    var d := (hi - lo) / (DIVS as real);
    assert (i2 as real) * d - (i as real) * d == ((i2 - i) as real) * d;
  }

  /** A value lies in at most one strip. */
  lemma StripUnique(v: real, lo: real, hi: real, i: int, i2: int)
    requires lo <= hi && 0 <= i && 0 <= i2
    requires InStrip(v, lo, hi, i) && InStrip(v, lo, hi, i2)
    ensures i == i2
  {
    if i < i2 {
      EdgesAscend(lo, hi, i + 1, i2);
    } else if i2 < i {
      EdgesAscend(lo, hi, i2 + 1, i);
    }
  }

  lemma {:induction false} StripFrom(v: real, lo: real, hi: real, i: int) returns (s: int)
    requires lo <= hi && v <= hi && 0 <= i < DIVS
    requires i == 0 || Edge(lo, hi, i) < v
    ensures i <= s < DIVS && InStrip(v, lo, hi, s)
    decreases DIVS - i
  {
    if v <= Edge(lo, hi, i + 1) {
      s := i;
    } else {
      if i + 1 == DIVS {
        LastEdge(lo, hi);
      }
      s := StripFrom(v, lo, hi, i + 1);
    }
  }

  /** Every value up to the upper bound lies in one of the DIVS strips. */
  lemma StripOf(v: real, lo: real, hi: real) returns (s: int)
    requires lo <= hi && v <= hi
    ensures 0 <= s < DIVS && InStrip(v, lo, hi, s)
  {
    s := StripFrom(v, lo, hi, 0);
  }

  /** A strip lies below the upper bound. */
  lemma StripBelowTop(v: real, lo: real, hi: real, i: int)
    requires lo <= hi && 0 <= i < DIVS && InStrip(v, lo, hi, i)
    ensures v <= hi
  {
    EdgesAscend(lo, hi, i + 1, DIVS);
  }

  // ---------------------------------------------------------------------
  // The cell layout.

  /** The first entry of a row of cell starts. */
  function Head(row: seq<int>): int
  {
    if |row| > 0 then row[0] else 0
  }

  /** g[start .. start+len) is a well-formed cell (i, j): sorted by rank,
      and holding only points in the cell's strips. */
  ghost predicate CellOk(g: seq<Point>, bounds: Rect, i: int, j: int, start: int, len: int)
  {
    && 0 <= start && 0 <= len && start + len <= |g|
    && RankSorted(g[start..start + len])
    && (forall k :: start <= k < start + len ==> InCell(g[k], bounds, i, j))
  }

  /**
   * The first |row| cells of column i: cell j is g[row[j] .. row[j] +
   * rowLen[j]), and the cells follow each other from `lo` up to `top`.
   */
  ghost predicate Rows(row: seq<int>, rowLen: seq<int>, g: seq<Point>, bounds: Rect, i: int, lo: int, top: int)
  {
    && |row| == |rowLen| && 0 <= lo <= top <= |g|
    && (|row| == 0 ==> top == lo)
    && (|row| > 0 ==> row[0] == lo && row[|row| - 1] + rowLen[|row| - 1] == top)
    && (forall j :: 0 <= j < |row| ==> lo <= row[j] && row[j] + rowLen[j] <= top)
    && (forall j :: 0 <= j < |row| ==> CellOk(g, bounds, i, j, row[j], rowLen[j]))
    && (forall j :: 0 <= j < |row| - 1 ==> row[j + 1] == row[j] + rowLen[j])
  }

  /** The end of the last cell of a complete column. */
  function ColumnEnd(row: seq<int>, rowLen: seq<int>): int
    requires |row| == DIVS && |rowLen| == DIVS
  {
    row[DIVS - 1] + rowLen[DIVS - 1]
  }

  /** Column i, complete: DIVS cells, followed up to `hi` by the points of
      its x-strip that lie above the grid. */
  ghost predicate ColumnOk(row: seq<int>, rowLen: seq<int>, g: seq<Point>, bounds: Rect, i: int, hi: int)
  {
    && |row| == DIVS && |rowLen| == DIVS && 0 <= row[0]
    && Rows(row, rowLen, g, bounds, i, row[0], ColumnEnd(row, rowLen))
    && ColumnEnd(row, rowLen) <= hi <= |g|
    && (forall k :: ColumnEnd(row, rowLen) <= k < hi ==> Outside(g[k], bounds))
  }

  /** Where the region of column i ends: at the next column's first cell,
      or at `top` for the last column built. */
  function NextStart(cs: seq<seq<int>>, i: int, top: int): int
    requires 0 <= i < |cs|
  {
    if i + 1 < |cs| then Head(cs[i + 1]) else top
  }

  /** The first |cs| columns, laid out from index 0 up to `top`. */
  ghost predicate Built(cs: seq<seq<int>>, rl: seq<seq<int>>, g: seq<Point>, bounds: Rect, top: int)
  {
    && |cs| == |rl| <= DIVS && 0 <= top <= |g|
    && (|cs| == 0 ==> top == 0)
    && (|cs| > 0 ==> Head(cs[0]) == 0)
    && (forall i :: 0 <= i < |cs| ==> NextStart(cs, i, top) <= top)
    && (forall i :: 0 <= i < |cs| ==> ColumnOk(cs[i], rl[i], g, bounds, i, NextStart(cs, i, top)))
  }

  /**
   * The grid `buildGrid` leaves in `g` (gumptionaire.c:457-498): DIVS
   * columns of DIVS cells covering the whole array; cell (i, j) holds
   * g[cs[i][j] .. cs[i][j] + rl[i][j]), sorted by rank, and only points
   * in its strips; every point between cells lies above the grid.
   */
  ghost predicate GridOk(cs: seq<seq<int>>, rl: seq<seq<int>>, g: seq<Point>, bounds: Rect)
  {
    |cs| == DIVS && Built(cs, rl, g, bounds, |g|)
  }

  /** The facts about cell (i, j) a grid provides. */
  lemma CellFacts(cs: seq<seq<int>>, rl: seq<seq<int>>, g: seq<Point>, bounds: Rect, i: int, j: int)
    requires GridOk(cs, rl, g, bounds) && 0 <= i < DIVS && 0 <= j < DIVS
    ensures |cs[i]| == DIVS && |rl[i]| == DIVS
    ensures 0 <= cs[i][j] && 0 <= rl[i][j] && cs[i][j] + rl[i][j] <= |g|
    ensures RankSorted(g[cs[i][j]..cs[i][j] + rl[i][j]])
    ensures forall k :: cs[i][j] <= k < cs[i][j] + rl[i][j] ==> InCell(g[k], bounds, i, j)
  {
    assert ColumnOk(cs[i], rl[i], g, bounds, i, NextStart(cs, i, |g|));
    assert CellOk(g, bounds, i, j, cs[i][j], rl[i][j]);
  }

  /** The facts about column i a grid provides. */
  lemma ColumnFacts(cs: seq<seq<int>>, rl: seq<seq<int>>, g: seq<Point>, bounds: Rect, i: int)
    requires GridOk(cs, rl, g, bounds) && 0 <= i < DIVS
    ensures Contiguous(cs[i], rl[i])
    ensures ColumnEnd(cs[i], rl[i]) <= NextStart(cs, i, |g|) <= |g|
    ensures forall k :: ColumnEnd(cs[i], rl[i]) <= k < NextStart(cs, i, |g|) ==> Outside(g[k], bounds)
  {
    assert ColumnOk(cs[i], rl[i], g, bounds, i, NextStart(cs, i, |g|));
    assert forall j :: 0 <= j < DIVS ==> CellOk(g, bounds, i, j, cs[i][j], rl[i][j]);
  }

  /** The points of cell (i, j): `sc->grid[i][j][0 .. rlen[i][j])`. */
  function Cell(g: seq<Point>, cs: seq<seq<int>>, rl: seq<seq<int>>, bounds: Rect, i: int, j: int)
    : (c: seq<Point>)
    requires GridOk(cs, rl, g, bounds) && 0 <= i < DIVS && 0 <= j < DIVS
    ensures RankSorted(c)
    ensures forall p :: p in c ==> InCell(p, bounds, i, j)
  {
    CellFacts(cs, rl, g, bounds, i, j);
    var c := g[cs[i][j]..cs[i][j] + rl[i][j]];
    assert forall t :: 0 <= t < |c| ==> c[t] == g[cs[i][j] + t];
    c
  }

  /** The cell under slot b of the w x h window with corner (x0, y0). */
  function WindowCell(g: seq<Point>, cs: seq<seq<int>>, rl: seq<seq<int>>, bounds: Rect,
                      x0: int, y0: int, w: int, h: int, b: int): seq<Point>
    requires GridOk(cs, rl, g, bounds) && 0 <= x0 && 0 <= y0 && x0 + w <= DIVS && y0 + h <= DIVS
    requires 0 <= b < w * h
  {
    if h <= 0 then [] else
      SlotCell(b, w, h);
      Cell(g, cs, rl, bounds, x0 + b / h, y0 + b % h)
  }

  /** The cells of the w x h window with corner (x0, y0), in slot order:
      the rank-sorted inputs `findHitsB` merges. */
  function Window(g: seq<Point>, cs: seq<seq<int>>, rl: seq<seq<int>>, bounds: Rect,
                  x0: int, y0: int, w: int, h: int): (win: seq<seq<Point>>)
    requires GridOk(cs, rl, g, bounds)
    requires 0 <= x0 && 0 <= y0 && 0 <= w && 0 <= h && x0 + w <= DIVS && y0 + h <= DIVS
    ensures |win| == w * h
  {
    MulMono(0, w, h);
    seq(w * h, b requires 0 <= b < w * h => WindowCell(g, cs, rl, bounds, x0, y0, w, h, b))
  }

  /** Slot i*h + j of a window holds cell (x0 + i, y0 + j). */
  lemma WindowAt(g: seq<Point>, cs: seq<seq<int>>, rl: seq<seq<int>>, bounds: Rect,
                 x0: int, y0: int, w: int, h: int, i: int, j: int)
    requires GridOk(cs, rl, g, bounds) && 0 <= x0 && 0 <= y0 && x0 + w <= DIVS && y0 + h <= DIVS
    requires 0 <= i < w && 0 <= j < h
    ensures 0 <= Slot(i, j, h) < |Window(g, cs, rl, bounds, x0, y0, w, h)|
    ensures Window(g, cs, rl, bounds, x0, y0, w, h)[Slot(i, j, h)] == Cell(g, cs, rl, bounds, x0 + i, y0 + j)
  {
    SlotBounds(i, j, w, h);
    SlotDivMod(i, j, h);
  }

  /** `c` is cell (ci, cj) read through the layout: the run of `g` from
      the cell's start, as long as its recorded length. */
  ghost predicate CellAt(c: seq<Point>, g: seq<Point>, cs: seq<seq<int>>, rl: seq<seq<int>>, ci: int, cj: int)
  {
    && 0 <= ci < |cs| && ci < |rl| && 0 <= cj < |cs[ci]| && cj < |rl[ci]|
    && 0 <= cs[ci][cj] && 0 <= rl[ci][cj] && cs[ci][cj] + rl[ci][cj] <= |g|
    && c == g[cs[ci][cj]..cs[ci][cj] + rl[ci][cj]]
  }

  /** Slot i*h + j of `win` is cell (x0 + i, y0 + j) read through the
      layout, for every slot of the w x h window. */
  ghost predicate WindowLayout(win: seq<seq<Point>>, g: seq<Point>, cs: seq<seq<int>>, rl: seq<seq<int>>,
                               x0: int, y0: int, w: int, h: int)
  {
    && 0 <= w && 0 <= h && |win| == w * h
    && forall i, j :: 0 <= i < w && 0 <= j < h ==>
         0 <= Slot(i, j, h) < |win| && CellAt(win[Slot(i, j, h)], g, cs, rl, x0 + i, y0 + j)
  }

  /** A window of a grid is laid out slot by slot over the grid's array. */
  lemma WindowLayoutOk(g: seq<Point>, cs: seq<seq<int>>, rl: seq<seq<int>>, bounds: Rect,
                       x0: int, y0: int, w: int, h: int)
    requires GridOk(cs, rl, g, bounds)
    requires 0 <= x0 && 0 <= y0 && 0 <= w && 0 <= h && x0 + w <= DIVS && y0 + h <= DIVS
    ensures WindowLayout(Window(g, cs, rl, bounds, x0, y0, w, h), g, cs, rl, x0, y0, w, h)
  {
    var win := Window(g, cs, rl, bounds, x0, y0, w, h);
    forall i, j | 0 <= i < w && 0 <= j < h
      ensures 0 <= Slot(i, j, h) < |win| && CellAt(win[Slot(i, j, h)], g, cs, rl, x0 + i, y0 + j)
    {
      WindowAt(g, cs, rl, bounds, x0, y0, w, h, i, j);
      CellFacts(cs, rl, g, bounds, x0 + i, y0 + j);
    }
  }

  /** A 1 x 1 window is its one cell. */
  lemma WindowSingle(g: seq<Point>, cs: seq<seq<int>>, rl: seq<seq<int>>, bounds: Rect, x0: int, y0: int)
    requires GridOk(cs, rl, g, bounds) && 0 <= x0 < DIVS && 0 <= y0 < DIVS
    ensures Window(g, cs, rl, bounds, x0, y0, 1, 1) == [Cell(g, cs, rl, bounds, x0, y0)]
  {
    WindowAt(g, cs, rl, bounds, x0, y0, 1, 1, 0, 0);
  }

  /** Every cell of a window is sorted by rank and holds points of the
      grid's array. */
  lemma WindowCells(g: seq<Point>, cs: seq<seq<int>>, rl: seq<seq<int>>, bounds: Rect,
                    x0: int, y0: int, w: int, h: int)
    requires GridOk(cs, rl, g, bounds)
    requires 0 <= x0 && 0 <= y0 && 0 <= w && 0 <= h && x0 + w <= DIVS && y0 + h <= DIVS
    ensures forall b :: 0 <= b < w * h ==> RankSorted(Window(g, cs, rl, bounds, x0, y0, w, h)[b])
    ensures forall b, c :: 0 <= b < w * h && 0 <= c < |Window(g, cs, rl, bounds, x0, y0, w, h)[b]| ==>
      Window(g, cs, rl, bounds, x0, y0, w, h)[b][c] in g
  {
    var win := Window(g, cs, rl, bounds, x0, y0, w, h);
    forall b | 0 <= b < w * h
      ensures RankSorted(win[b])
      ensures forall c :: 0 <= c < |win[b]| ==> win[b][c] in g
    {
      SlotCell(b, w, h);
      var i, j := x0 + b / h, y0 + b % h;
      assert win[b] == Cell(g, cs, rl, bounds, i, j);
      CellFacts(cs, rl, g, bounds, i, j);
      forall c | 0 <= c < |win[b]| ensures win[b][c] in g {
        assert win[b][c] == g[cs[i][j] + c];
      }
    }
  }

  // ---------------------------------------------------------------------
  // Where each point of the array is.

  /** A column's cells follow each other without gaps. */
  predicate Contiguous(row: seq<int>, rowLen: seq<int>)
  {
    && |row| == DIVS && |rowLen| == DIVS
    && (forall j :: 0 <= j < DIVS ==> 0 <= rowLen[j])
    && (forall j :: 0 <= j < DIVS - 1 ==> row[j + 1] == row[j] + rowLen[j])
  }

  /** The cells from j on cover [row[j], ColumnEnd): an index there lies
      in one of them. */
  lemma {:induction false} CellInColumn(row: seq<int>, rowLen: seq<int>, j: int, k: int) returns (c: int)
    requires Contiguous(row, rowLen) && 0 <= j < DIVS
    requires row[j] <= k < ColumnEnd(row, rowLen)
    ensures j <= c < DIVS && row[c] <= k < row[c] + rowLen[c]
    decreases DIVS - j
  {
    if k < row[j] + rowLen[j] {
      c := j;
    } else {
      c := CellInColumn(row, rowLen, j + 1, k);
    }
  }

  /** From column i on, an index at or past the column's first cell lies
      in a cell or between cells, where only points above the grid are. */
  lemma {:induction false} PlaceFrom(cs: seq<seq<int>>, rl: seq<seq<int>>, g: seq<Point>, bounds: Rect,
                                     i: int, k: int) returns (ci: int, cj: int)
    requires GridOk(cs, rl, g, bounds) && 0 <= i < DIVS
    requires Head(cs[i]) <= k < |g|
    ensures Outside(g[k], bounds) || (
      && i <= ci < DIVS && 0 <= cj < DIVS
      && cs[ci][cj] <= k < cs[ci][cj] + rl[ci][cj])
    decreases DIVS - i
  {
    ColumnFacts(cs, rl, g, bounds, i);
    if k < ColumnEnd(cs[i], rl[i]) {
      ci := i;
      cj := CellInColumn(cs[i], rl[i], 0, k);
    } else if k < NextStart(cs, i, |g|) {
      ci, cj := 0, 0;
    } else {
      ci, cj := PlaceFrom(cs, rl, g, bounds, i + 1, k);
    }
  }

  /**
   * Every point of the array that is not above the grid is stored in a
   * cell, namely the one whose strips contain it.
   */
  lemma Placement(cs: seq<seq<int>>, rl: seq<seq<int>>, g: seq<Point>, bounds: Rect, k: int) returns (i: int, j: int)
    requires GridOk(cs, rl, g, bounds) && 0 <= k < |g|
    requires !Outside(g[k], bounds)
    ensures 0 <= i < DIVS && 0 <= j < DIVS
    ensures cs[i][j] <= k < cs[i][j] + rl[i][j]
    ensures InCell(g[k], bounds, i, j)
  {
    i, j := PlaceFrom(cs, rl, g, bounds, 0, k);
    CellFacts(cs, rl, g, bounds, i, j);
  }

  /**
   * For a grid whose bounds are not reversed, the cells hold exactly the
   * points not above the grid, each in the single cell whose strips
   * contain it.
   */
  lemma CellOfPoint(cs: seq<seq<int>>, rl: seq<seq<int>>, g: seq<Point>, bounds: Rect, k: int, i: int, j: int)
    requires GridOk(cs, rl, g, bounds) && bounds.WellFormed() && 0 <= k < |g|
    requires 0 <= i < DIVS && 0 <= j < DIVS
    ensures (cs[i][j] <= k < cs[i][j] + rl[i][j]) <==> (!Outside(g[k], bounds) && InCell(g[k], bounds, i, j))
  {
    CellFacts(cs, rl, g, bounds, i, j);
    if cs[i][j] <= k < cs[i][j] + rl[i][j] {
      StripBelowTop(g[k].x, bounds.lx, bounds.hx, i);
      StripBelowTop(g[k].y, bounds.ly, bounds.hy, j);
    } else if !Outside(g[k], bounds) && InCell(g[k], bounds, i, j) {
      var i2, j2 := Placement(cs, rl, g, bounds, k);
      StripUnique(g[k].x, bounds.lx, bounds.hx, i, i2);
      StripUnique(g[k].y, bounds.ly, bounds.hy, j, j2);
      assert false;
    }
  }

  // ---------------------------------------------------------------------
  // Building the grid.

  /** `post` is `pre` with the segment [lo, hi) sorted by the key in place. */
  ghost predicate SegmentSorted(pre: seq<Point>, post: seq<Point>, lo: int, hi: int, key: SortKey)
  {
    && 0 <= lo <= hi <= |pre| == |post|
    && post[..lo] == pre[..lo] && post[hi..] == pre[hi..]
    && multiset(post[lo..hi]) == multiset(pre[lo..hi])
    && SortedBy(post[lo..hi], key)
  }

  /** What `qsort` of one segment leaves behind. */
  lemma SortSegmentDone(pre: seq<Point>, post: seq<Point>, lo: int, hi: int, key: SortKey)
    requires 0 <= lo <= hi <= |pre| == |post|
    requires post[lo..hi] == Sort(pre[lo..hi], key)
    requires post[..lo] == pre[..lo] && post[hi..] == pre[hi..]
    ensures SegmentSorted(pre, post, lo, hi, key)
    ensures multiset(post) == multiset(pre)
  {
    SegmentPermutes(pre, post, lo, hi);
  }

  /** `qsort` of the segment g[lo .. hi), described by what it leaves. */
  method SortRun(g: array<Point>, lo: int, hi: int, key: SortKey)
    requires 0 <= lo <= hi <= g.Length
    modifies g
    ensures SegmentSorted(old(g[..]), g[..], lo, hi, key)
    ensures multiset(g[..]) == multiset(old(g[..]))
  {
    ghost var pre := g[..];
    SortSegment(g, lo, hi, key);
    SortSegmentDone(pre, g[..], lo, hi, key);
  }

  /** After sorting a segment in place, each of its points comes from the
      segment as it was. */
  lemma SortSource(pre: seq<Point>, post: seq<Point>, lo: int, hi: int, key: SortKey, k: int) returns (m: int)
    requires SegmentSorted(pre, post, lo, hi, key) && lo <= k < hi
    ensures lo <= m < hi && post[k] == pre[m]
  {
    var s := pre[lo..hi];
    assert post[k] == post[lo..hi][k - lo];
    assert post[k] in multiset(post[lo..hi]);
    assert post[k] in s;
    var t :| 0 <= t < |s| && s[t] == post[k];
    m := lo + t;
  }

  /** Sorting a segment keeps every point of it in cell (i, j). */
  lemma SortKeepsCell(pre: seq<Point>, post: seq<Point>, lo: int, hi: int, key: SortKey, bounds: Rect, i: int, j: int)
    requires SegmentSorted(pre, post, lo, hi, key)
    requires forall k :: lo <= k < hi ==> InCell(pre[k], bounds, i, j)
    ensures forall k :: lo <= k < hi ==> InCell(post[k], bounds, i, j)
  {
    forall k | lo <= k < hi ensures InCell(post[k], bounds, i, j) {
      var m := SortSource(pre, post, lo, hi, key, k);
    }
  }

  /** Sorting a segment keeps every point of it in x-strip i. */
  lemma SortKeepsStrip(pre: seq<Point>, post: seq<Point>, lo: int, hi: int, key: SortKey, bounds: Rect, i: int)
    requires SegmentSorted(pre, post, lo, hi, key)
    requires forall k :: lo <= k < hi ==> InStrip(pre[k].x, bounds.lx, bounds.hx, i)
    ensures forall k :: lo <= k < hi ==> InStrip(post[k].x, bounds.lx, bounds.hx, i)
  {
    forall k | lo <= k < hi ensures InStrip(post[k].x, bounds.lx, bounds.hx, i) {
      var m := SortSource(pre, post, lo, hi, key, k);
    }
  }

  /** A segment sorted by an axis key is sorted on that axis. */
  lemma SortedOnSegment(p: seq<Point>, a: Axis, lo: int, hi: int)
    requires 0 <= lo <= hi <= |p| && SortedBy(p[lo..hi], AxisKey(a))
    ensures SortedOn(p, a, lo, hi - 1)
  {
    forall k, m | lo <= k <= m <= hi - 1 ensures Coord(p[k], a) <= Coord(p[m], a) {
      assert p[k] == p[lo..hi][k - lo] && p[m] == p[lo..hi][m - lo];
      if k < m {
        assert Key(p[lo..hi][k - lo], AxisKey(a)) <= Key(p[lo..hi][m - lo], AxisKey(a));
      }
    }
  }

  /** A cell below `top` survives any change at or above it. */
  lemma CellKept(g: seq<Point>, g2: seq<Point>, bounds: Rect, i: int, j: int, start: int, len: int, top: int)
    requires CellOk(g, bounds, i, j, start, len) && start + len <= top <= |g|
    requires |g2| == |g| && g2[..top] == g[..top]
    ensures CellOk(g2, bounds, i, j, start, len)
  {
    forall k | 0 <= k < top ensures g2[k] == g[k] {
      assert g2[k] == g2[..top][k];
    }
    assert g2[start..start + len] == g[start..start + len];
  }

  /** Cells below `top` survive any change at or above it. */
  lemma RowsKept(row: seq<int>, rowLen: seq<int>, g: seq<Point>, g2: seq<Point>, bounds: Rect, i: int, lo: int, top: int)
    requires Rows(row, rowLen, g, bounds, i, lo, top)
    requires |g2| == |g| && g2[..top] == g[..top]
    ensures Rows(row, rowLen, g2, bounds, i, lo, top)
  {
    forall j | 0 <= j < |row| ensures CellOk(g2, bounds, i, j, row[j], rowLen[j]) {
      CellKept(g, g2, bounds, i, j, row[j], rowLen[j], top);
    }
  }

  /** Appending the cell g[top .. top+n) to the column. */
  lemma RowsExtend(row: seq<int>, rowLen: seq<int>, g: seq<Point>, bounds: Rect, i: int, lo: int, top: int, n: int)
    requires Rows(row, rowLen, g, bounds, i, lo, top)
    requires CellOk(g, bounds, i, |row|, top, n)
    ensures Rows(row + [top], rowLen + [n], g, bounds, i, lo, top + n)
  {
    var row2, rowLen2 := row + [top], rowLen + [n];
    forall j | 0 <= j < |row2| ensures CellOk(g, bounds, i, j, row2[j], rowLen2[j]) {
      if j < |row| {
        assert row2[j] == row[j] && rowLen2[j] == rowLen[j];
      }
    }
    forall j | 0 <= j < |row2| ensures lo <= row2[j] && row2[j] + rowLen2[j] <= top + n {
      if j < |row| {
        assert row2[j] == row[j] && rowLen2[j] == rowLen[j];
      }
    }
    forall j | 0 <= j < |row2| - 1 ensures row2[j + 1] == row2[j] + rowLen2[j] {
      assert row2[j] == row[j] && rowLen2[j] == rowLen[j];
    }
  }

  /**
   * One cell of the column loop: the segment [top, top+n) of `pre`, all of
   * whose points lie in cell (i, |row|), is sorted by rank (nothing is
   * done when it is empty) and becomes the next cell of the column.
   */
  lemma CellStep(row: seq<int>, rowLen: seq<int>, pre: seq<Point>, post: seq<Point>, bounds: Rect,
                 i: int, lo: int, top: int, n: int)
    requires Rows(row, rowLen, pre, bounds, i, lo, top)
    requires 0 <= n && SegmentSorted(pre, post, top, top + n, ByRank)
    requires forall k :: top <= k < top + n ==> InCell(pre[k], bounds, i, |row|)
    ensures Rows(row + [top], rowLen + [n], post, bounds, i, lo, top + n)
  {
    SortKeepsCell(pre, post, top, top + n, ByRank, bounds, i, |row|);
    RowsKept(row, rowLen, pre, post, bounds, i, lo, top);
    SortedByRank(post[top..top + n]);
    assert CellOk(post, bounds, i, |row|, top, n);
    RowsExtend(row, rowLen, post, bounds, i, lo, top, n);
  }

  /**
   * The state of the column loop after j rows: cells 0..j-1 of column i
   * fill g[lo .. top); the rest of the column, g[top .. hi), is still
   * sorted by y, in x-strip i and above row edge j; nothing outside
   * [lo, hi) has changed since `g0`, and the whole is a permutation of it.
   */
  ghost predicate ColumnLoop(row: seq<int>, rowLen: seq<int>, g: seq<Point>, g0: seq<Point>, bounds: Rect,
                             i: int, lo: int, hi: int, top: int, j: int)
  {
    && 0 <= lo <= top <= hi <= |g| == |g0| && |row| == j
    && Rows(row, rowLen, g, bounds, i, lo, top)
    && (forall k :: top <= k < hi ==> InStrip(g[k].x, bounds.lx, bounds.hx, i))
    && (j > 0 ==> forall k :: top <= k < hi ==> g[k].y > Edge(bounds.ly, bounds.hy, j))
    && SortedOn(g, Y, top, hi - 1)
    && g[..lo] == g0[..lo] && g[hi..] == g0[hi..]
    && multiset(g) == multiset(g0)
  }

  /**
   * One pass of the column loop (gumptionaire.c:475-494): `bsearch` finds
   * the last point at or below row edge j+1, the points from `top` to it
   * are sorted by rank and become cell j.
   */
  lemma ColumnStep(row: seq<int>, rowLen: seq<int>, pre: seq<Point>, post: seq<Point>, g0: seq<Point>, bounds: Rect,
                   i: int, lo: int, hi: int, top: int, j: int, r: int)
    requires ColumnLoop(row, rowLen, pre, g0, bounds, i, lo, hi, top, j)
    requires top - 1 <= r <= hi - 1
    requires forall k :: top <= k <= r ==> pre[k].y <= Edge(bounds.ly, bounds.hy, j + 1)
    requires forall k :: r < k <= hi - 1 ==> pre[k].y > Edge(bounds.ly, bounds.hy, j + 1)
    requires SegmentSorted(pre, post, top, r + 1, ByRank)
    ensures ColumnLoop(row + [top], rowLen + [r + 1 - top], post, g0, bounds, i, lo, hi, r + 1, j + 1)
  {
    var n := r + 1 - top;
    forall k | top <= k < top + n ensures InCell(pre[k], bounds, i, |row|) {
    }
    CellStep(row, rowLen, pre, post, bounds, i, lo, top, n);
    forall k | r + 1 <= k < hi ensures post[k] == pre[k] {
      assert post[k] == post[r + 1..][k - (r + 1)];
    }
    FrameStep(g0, pre, post, lo, top, r + 1, hi);
    SegmentPermutes(pre, post, top, r + 1);
  }

  /**
   * One column of `buildGrid` (gumptionaire.c:466-495) over g[lo .. hi),
   * the points of x-strip i: the segment is sorted by y, cut at the row
   * edges by `bsearch`, and each non-empty cell sorted by rank. The result
   * is a complete column; the points left over past the last row edge lie
   * above the grid. Nothing outside [lo, hi) changes.
   */
  method BuildColumn(g: array<Point>, lo: int, hi: int, i: int, bounds: Rect)
    returns (row: seq<int>, rowLen: seq<int>)
    requires 0 <= lo <= hi <= g.Length
    requires forall k :: lo <= k < hi ==> InStrip(g[k].x, bounds.lx, bounds.hx, i)
    modifies g
    ensures ColumnOk(row, rowLen, g[..], bounds, i, hi) && row[0] == lo
    ensures g[..lo] == old(g[..lo]) && g[hi..] == old(g[hi..])
    ensures multiset(g[..]) == multiset(old(g[..]))
  {
    ghost var g0 := g[..];
    SortRun(g, lo, hi, ByY);
    SortKeepsStrip(g0, g[..], lo, hi, ByY, bounds, i);
    SortedOnSegment(g[..], Y, lo, hi);
    row, rowLen := [], [];
    var yidxl := lo;
    for j := 0 to DIVS
      invariant ColumnLoop(row, rowLen, g[..], g0, bounds, i, lo, hi, yidxl, j)
    {
      var yidxr := ColumnPass(g, lo, hi, i, bounds, yidxl, j, row, rowLen, g0);
      row, rowLen := row + [yidxl], rowLen + [yidxr + 1 - yidxl];
      yidxl := yidxr + 1;
    }
    ColumnDone(row, rowLen, g[..], g0, bounds, i, lo, hi, yidxl);
  }

  /** After the last row edge the rows make a complete column, and what
      is left of the strip lies above the grid. */
  lemma ColumnDone(row: seq<int>, rowLen: seq<int>, g: seq<Point>, g0: seq<Point>, bounds: Rect,
                   i: int, lo: int, hi: int, top: int)
    requires ColumnLoop(row, rowLen, g, g0, bounds, i, lo, hi, top, DIVS)
    ensures ColumnOk(row, rowLen, g, bounds, i, hi) && row[0] == lo
  {
    LastEdge(bounds.ly, bounds.hy);
  }

  /**
   * One pass of the column loop (gumptionaire.c:475-494): `bsearch` finds
   * the last point at or below row edge j+1; the points from `top` to it,
   * if any, are sorted by rank and become cell j, of length `ny`. The
   * search stops at the column's last point, hi - 1; the source's stops
   * one later (see `RowSearchAsWritten`).
   */
  method ColumnPass(g: array<Point>, lo: int, hi: int, i: int, bounds: Rect, top: int, j: int,
                    ghost row: seq<int>, ghost rowLen: seq<int>, ghost g0: seq<Point>) returns (r: int)
    requires ColumnLoop(row, rowLen, g[..], g0, bounds, i, lo, hi, top, j)
    modifies g
    ensures top - 1 <= r <= hi - 1
    ensures ColumnLoop(row + [top], rowLen + [r + 1 - top], g[..], g0, bounds, i, lo, hi, r + 1, j + 1)
  {
    var hy := Edge(bounds.ly, bounds.hy, j + 1);
    r := BSearch(g[..], Y, false, hy, top, hi - 1);
    var ny := r - top + 1;
    ghost var pre := g[..];
    if ny == 0 {
      assert SegmentSorted(pre, g[..], top, r + 1, ByRank);
    } else {
      SortRun(g, top, r + 1, ByRank);
    }
    ColumnStep(row, rowLen, pre, g[..], g0, bounds, i, lo, hi, top, j, r);
  }

  /**
   * The row search as written (gumptionaire.c:477): its upper index
   * `xidxr - yidxl + 1` makes `bsearch` probe g[hi] as well, one past the
   * column g[lo .. hi): the first point of strip i+1 in x order. When that
   * point lies at or below row edge j+1 and above the column's points in y
   * (column y = .1, .2, .3, next point y = .5, row edge .5), the search
   * returns hi, and cell (i, j) takes a point that is not in it. Index hi
   * is also where column i+1 starts, so its sorts rewrite the last entry
   * of cell (i, j): that entry belongs to two cells, and cell (i, j) need
   * no longer be sorted by rank. `ColumnPass` confines the search to the
   * column.
   */
  method RowSearchAsWritten(g: seq<Point>, bounds: Rect, i: int, j: int, top: int, hi: int) returns (r: int)
    requires 0 <= top <= hi < |g| && SortedOn(g, Y, top, hi)
    ensures top - 1 <= r <= hi
    ensures g[hi].y <= Edge(bounds.ly, bounds.hy, j + 1) ==> r == hi
    ensures g[hi].y <= Edge(bounds.ly, bounds.hy, j + 1) && g[hi].x > Edge(bounds.lx, bounds.hx, i + 1) ==>
              top <= r && !InCell(g[r], bounds, i, j)
  {
    r := BSearch(g, Y, false, Edge(bounds.ly, bounds.hy, j + 1), top, hi);
  }

  /** Changing [a, b) inside [lo, hi) keeps what lies outside [lo, hi). */
  lemma FrameStep(g0: seq<Point>, pre: seq<Point>, post: seq<Point>, lo: int, a: int, b: int, hi: int)
    requires 0 <= lo <= a <= b <= hi <= |pre| == |post| == |g0|
    requires pre[..lo] == g0[..lo] && pre[hi..] == g0[hi..]
    requires post[..a] == pre[..a] && post[b..] == pre[b..]
    ensures post[..lo] == g0[..lo] && post[hi..] == g0[hi..]
    ensures post[b..hi] == pre[b..hi]
  {
    assert post[..lo] == post[..a][..lo];
    assert pre[..lo] == pre[..a][..lo];
    assert post[hi..] == post[b..][hi - b..];
    assert pre[hi..] == pre[b..][hi - b..];
    assert post[b..hi] == post[b..][..hi - b];
    assert pre[b..hi] == pre[b..][..hi - b];
  }

  /** A complete column survives any change from `hi` on. */
  lemma ColumnKept(row: seq<int>, rowLen: seq<int>, g: seq<Point>, g2: seq<Point>, bounds: Rect, i: int, hi: int)
    requires ColumnOk(row, rowLen, g, bounds, i, hi)
    requires |g2| == |g| && g2[..hi] == g[..hi]
    ensures ColumnOk(row, rowLen, g2, bounds, i, hi)
  {
    var e := ColumnEnd(row, rowLen);
    assert g2[..e] == g2[..hi][..e] && g[..e] == g[..hi][..e];
    RowsKept(row, rowLen, g, g2, bounds, i, row[0], e);
    forall k | e <= k < hi ensures Outside(g2[k], bounds) {
      assert g2[k] == g2[..hi][k] && g[k] == g[..hi][k];
    }
  }

  /**
   * The state of the strip loop of `buildGrid` after i columns: they fill
   * g[0 .. top); the rest, g[top ..), is still sorted by x and lies right
   * of x-edge i; the whole is a permutation of the input.
   */
  ghost predicate GridLoop(cs: seq<seq<int>>, rl: seq<seq<int>>, g: seq<Point>, xs: seq<Point>, bounds: Rect,
                           top: int, i: int)
  {
    && |g| == |xs| && 0 <= top <= |g| && |cs| == i
    && Built(cs, rl, g, bounds, top)
    && SortedOn(g, X, top, |g| - 1)
    && (i > 0 ==> forall k :: top <= k < |g| ==> g[k].x > Edge(bounds.lx, bounds.hx, i))
    && multiset(g) == multiset(xs)
  }

  /** The columns built so far survive any change from `top` on. */
  lemma BuiltKept(cs: seq<seq<int>>, rl: seq<seq<int>>, g: seq<Point>, g2: seq<Point>, bounds: Rect, top: int)
    requires Built(cs, rl, g, bounds, top)
    requires |g2| == |g| && g2[..top] == g[..top]
    ensures Built(cs, rl, g2, bounds, top)
  {
    forall c | 0 <= c < |cs| ensures ColumnOk(cs[c], rl[c], g2, bounds, c, NextStart(cs, c, top)) {
      var h := NextStart(cs, c, top);
      assert g2[..h] == g2[..top][..h] && g[..h] == g[..top][..h];
      ColumnKept(cs[c], rl[c], g, g2, bounds, c, h);
    }
  }

  /** A complete column starting at `top` and ending at `next` extends the
      grid built so far. */
  lemma BuiltAppend(cs: seq<seq<int>>, rl: seq<seq<int>>, g: seq<Point>, bounds: Rect, top: int,
                    row: seq<int>, rowLen: seq<int>, next: int)
    requires Built(cs, rl, g, bounds, top) && |cs| < DIVS
    requires top <= next && ColumnOk(row, rowLen, g, bounds, |cs|, next) && row[0] == top
    ensures Built(cs + [row], rl + [rowLen], g, bounds, next)
  {
    var cs2, rl2 := cs + [row], rl + [rowLen];
    forall c | 0 <= c < |cs2|
      ensures NextStart(cs2, c, next) <= next
      ensures ColumnOk(cs2[c], rl2[c], g, bounds, c, NextStart(cs2, c, next))
    {
      if c < |cs| {
        assert cs2[c] == cs[c] && rl2[c] == rl[c];
        assert NextStart(cs2, c, next) == NextStart(cs, c, top);
      }
    }
  }

  /** Appending column i, built over g[top .. r+1), to the grid. */
  lemma GridStep(cs: seq<seq<int>>, rl: seq<seq<int>>, pre: seq<Point>, post: seq<Point>, xs: seq<Point>,
                 bounds: Rect, top: int, i: int, r: int, row: seq<int>, rowLen: seq<int>)
    requires GridLoop(cs, rl, pre, xs, bounds, top, i) && i < DIVS
    requires top - 1 <= r <= |pre| - 1
    requires forall k :: r < k <= |pre| - 1 ==> pre[k].x > Edge(bounds.lx, bounds.hx, i + 1)
    requires |post| == |pre| && ColumnOk(row, rowLen, post, bounds, i, r + 1) && row[0] == top
    requires post[..top] == pre[..top] && post[r + 1..] == pre[r + 1..]
    requires multiset(post) == multiset(pre)
    ensures GridLoop(cs + [row], rl + [rowLen], post, xs, bounds, r + 1, i + 1)
  {
    BuiltKept(cs, rl, pre, post, bounds, top);
    BuiltAppend(cs, rl, post, bounds, top, row, rowLen, r + 1);
    forall k, m | r + 1 <= k <= m <= |post| - 1 ensures Coord(post[k], X) <= Coord(post[m], X) {
      assert post[k] == post[r + 1..][k - (r + 1)] && post[m] == post[r + 1..][m - (r + 1)];
    }
    forall k | r + 1 <= k < |post| ensures post[k].x > Edge(bounds.lx, bounds.hx, i + 1) {
      assert post[k] == post[r + 1..][k - (r + 1)];
    }
  }

  /** Before the strip loop: no column, and `g` is the x-sorted input. */
  lemma GridStart(g: seq<Point>, xs: seq<Point>, bounds: Rect)
    requires g == xs && SortedBy(xs, ByX)
    ensures GridLoop([], [], g, xs, bounds, 0, 0)
  {
    SortedOnSlice(xs, X, 0, |xs| - 1);
  }

  /**
   * One pass of the strip loop (gumptionaire.c:463-497): `bsearch` finds
   * the last point at or left of x-edge i+1, and the points from `top` to
   * it become column i. The search here stops at the last element; the
   * source passes an upper index two past the end, which is not modelled.
   */
  method GridPass(g: array<Point>, bounds: Rect, top: int, i: int,
                  cs: seq<seq<int>>, rl: seq<seq<int>>, ghost xs: seq<Point>)
    returns (r: int, cs2: seq<seq<int>>, rl2: seq<seq<int>>)
    requires GridLoop(cs, rl, g[..], xs, bounds, top, i) && i < DIVS
    modifies g
    ensures top - 1 <= r <= g.Length - 1
    ensures GridLoop(cs2, rl2, g[..], xs, bounds, r + 1, i + 1)
  {
    var hx := Edge(bounds.lx, bounds.hx, i + 1);
    r := BSearch(g[..], X, false, hx, top, g.Length - 1);
    ghost var pre := g[..];
    var row, rowLen := BuildColumn(g, top, r + 1, i, bounds);
    assert g[..top] == pre[..top];
    GridStep(cs, rl, pre, g[..], xs, bounds, top, i, r, row, rowLen);
    cs2, rl2 := cs + [row], rl + [rowLen];
  }

  /** Points above the grid past the end of a column join its gap. */
  lemma ColumnGap(row: seq<int>, rowLen: seq<int>, g: seq<Point>, bounds: Rect, i: int, hi: int, hi2: int)
    requires ColumnOk(row, rowLen, g, bounds, i, hi) && hi <= hi2 <= |g|
    requires forall k :: hi <= k < hi2 ==> Outside(g[k], bounds)
    ensures ColumnOk(row, rowLen, g, bounds, i, hi2)
  {
  }

  /** Once all DIVS columns are built, the points left over lie right of
      the grid and extend the gap of the last column to the end. */
  lemma BuiltFinish(cs: seq<seq<int>>, rl: seq<seq<int>>, g: seq<Point>, bounds: Rect, top: int)
    requires Built(cs, rl, g, bounds, top) && |cs| == DIVS
    requires forall k :: top <= k < |g| ==> Outside(g[k], bounds)
    ensures GridOk(cs, rl, g, bounds)
  {
    var last := DIVS - 1;
    ColumnGap(cs[last], rl[last], g, bounds, last, top, |g|);
    assert forall c :: 0 <= c < last ==> NextStart(cs, c, |g|) == NextStart(cs, c, top);
  }

  /** The end of the strip loop: what is left lies right of the last
      x-edge, which is bounds.hx. */
  lemma GridTail(cs: seq<seq<int>>, rl: seq<seq<int>>, g: seq<Point>, xs: seq<Point>, bounds: Rect, top: int)
    requires GridLoop(cs, rl, g, xs, bounds, top, DIVS)
    ensures GridOk(cs, rl, g, bounds)
  {
    LastEdge(bounds.lx, bounds.hx);
    BuiltFinish(cs, rl, g, bounds, top);
  }

  /**
   * `buildGrid` (gumptionaire.c:440-498): copy the x-sorted points into
   * `g`, take the second smallest and second largest x and y as the grid
   * bounds, and build the DIVS columns strip by strip. The result is a
   * permutation of the input laid out as a grid.
   */
  method BuildGrid(xs: seq<Point>, ys: seq<Point>, g: array<Point>)
    returns (bounds: Rect, cs: seq<seq<int>>, rl: seq<seq<int>>)
    requires 2 <= |xs| == |ys| == g.Length
    requires SortedBy(xs, ByX)
    modifies g
    ensures bounds == Rect(xs[1].x, xs[|xs| - 2].x, ys[1].y, ys[|ys| - 2].y)
    ensures multiset(g[..]) == multiset(xs)
    ensures GridOk(cs, rl, g[..], bounds)
  {
    bounds := Rect(xs[1].x, xs[|xs| - 2].x, ys[1].y, ys[|ys| - 2].y);
    WriteSegment(g, 0, g.Length, xs);
    assert g[..] == g[0..g.Length];
    cs, rl := BuildStrips(g, bounds, xs);
  }

  /** The strip loop of `buildGrid` (gumptionaire.c:461-498) over `g`,
      which holds the x-sorted points. */
  method BuildStrips(g: array<Point>, bounds: Rect, ghost xs: seq<Point>) returns (cs: seq<seq<int>>, rl: seq<seq<int>>)
    requires g[..] == xs && SortedBy(xs, ByX)
    modifies g
    ensures multiset(g[..]) == multiset(xs)
    ensures GridOk(cs, rl, g[..], bounds)
  {
    cs, rl := [], [];
    GridStart(g[..], xs, bounds);
    var xidxl := 0;
    for i := 0 to DIVS
      invariant GridLoop(cs, rl, g[..], xs, bounds, xidxl, i)
    {
      var xidxr;
      xidxr, cs, rl := GridPass(g, bounds, xidxl, i, cs, rl, xs);
      xidxl := xidxr + 1;
    }
    GridTail(cs, rl, g[..], xs, bounds, xidxl);
  }
}

=== FILE: gump.dfy ===
/**
 * The first search variant (gump.c): a context holding the points three
 * times, sorted by x, by y and by rank, and a planner that either scans
 * the rank-sorted copy or runs the top-K selector over the smaller of the
 * two axis slices of the query.
 */
module Gump {
  import opened Geometry
  import opened Ranking
  import opened Sorting
  import opened CoordSearch
  import opened Selector
  import opened Planner

  /**
   * `BubbaSearchContext`: the number of points and three copies of them,
   * ordered by x, by y and by rank. `points` is the input `create` was
   * given.
   */
  class Context {
    const xSort: array<Point>
    const ySort: array<Point>
    const rankSort: array<Point>
    ghost const points: seq<Point>

    /** Each copy is a permutation of the input sorted by its own key. */
    ghost predicate Valid()
      reads this, xSort, ySort, rankSort
    {
      && xSort != ySort && xSort != rankSort && ySort != rankSort
      && multiset(xSort[..]) == multiset(points) && SortedBy(xSort[..], ByX)
      && multiset(ySort[..]) == multiset(points) && SortedBy(ySort[..], ByY)
      && multiset(rankSort[..]) == multiset(points) && SortedBy(rankSort[..], ByRank)
    }

    /** `create(points_begin, points_end)` (gump.c:216-230): copy the input
        three times and sort the copies by x, y and rank. */
    constructor Create(input: seq<Point>)
      ensures Valid() && points == input
      ensures fresh(xSort) && fresh(ySort) && fresh(rankSort)
    {
      var xs := SortedCopy(input, ByX);
      var ys := SortedCopy(input, ByY);
      var rs := SortedCopy(input, ByRank);
      points, xSort, ySort, rankSort := input, xs, ys, rs;
    }

    /**
     * `baselineSearch(sc, rect, count, out)` (gump.c:108-122): the first
     * `count` hits of the rank-sorted copy, which answer the query.
     */
    method BaselineSearch(rect: Rect, count: nat, out: array<Point>) returns (n: nat)
      requires Valid()
      requires count <= out.Length
      requires out != xSort && out != ySort && out != rankSort
      modifies out
      ensures n <= count
      ensures Answers(out[..n], points, rect, count)
      ensures out[n..] == old(out[n..])
    {
      n := FindHitsS(rect, rankSort[..], out, count);
      SortedByRank(rankSort[..]);
      FindHitsSOfSortedAnswers(rankSort[..], rect, count, out[..n]);
      AnswersPermutation(out[..n], rankSort[..], points, rect, count);
    }

    /**
     * `binarySearch(sc, rect, count, out)` (gump.c:197-214), which `search`
     * calls unchanged. Both axis slices of the query are located; an
     * empty one gives no hits. When the smaller slice holds more than one
     * percent of the points, the rank-ordered scan is used; otherwise the
     * top-K selector runs over the smaller slice with only the other
     * axis's test. Either way the result answers the query.
     */
    method BinarySearch(rect: Rect, count: nat, out: array<Point>) returns (n: nat)
      requires Valid()
      requires RanksNonNegative(points)
      requires count <= out.Length
      requires out != xSort && out != ySort && out != rankSort
      modifies out
      ensures n <= count
      ensures Answers(out[..n], points, rect, count)
      ensures out[n..] == old(out[n..])
    {
      var xl, xr := AxisRange(xSort[..], X, rect.lx, rect.hx);
      var yl, yr := AxisRange(ySort[..], Y, rect.ly, rect.hy);
      var nx := xr - xl + 1;
      var ny := yr - yl + 1;
      if nx == 0 || ny == 0 {
        n := 0;
        EmptyAnswers(out[..0], xSort[..], ySort[..], points, rect, count, xl, xr, yl, yr);
        return;
      }
      var total := xSort.Length;
      if (Min(nx, ny) as real) / (total as real) > 0.01 {
        n := BaselineSearch(rect, count, out);
        return;
      }
      if nx < ny {
        RanksNonNegativeSlice(points, xSort[..], xl, nx);
        n := FindHits(rect, Slice(xSort[..], xl, nx), out, count, false);
        SliceAnswers(xSort[..], X, rect, xl, xr, out[..n], count, points);
      } else {
        RanksNonNegativeSlice(points, ySort[..], yl, ny);
        n := FindHits(rect, Slice(ySort[..], yl, ny), out, count, true);
        SliceAnswers(ySort[..], Y, rect, yl, yr, out[..n], count, points);
      }
    }
  }

  /**
   * `findHits(rect, in, n, out, count, xOrY)` (gump.c:124-195): the top-K
   * selector with the x-only test when `xOrY` holds and the y-only test
   * otherwise. Its extra early return once the fill phase has used up the
   * input (gump.c:162-165) and its final sort of `count` rather than `hits`
   * entries (when both are equal) have the same effect as the shared
   * selector.
   */
  method FindHits(rect: Rect, input: seq<Point>, out: array<Point>, count: nat, xOrY: bool) returns (hits: nat)
    requires count <= out.Length
    requires RanksNonNegative(input)
    modifies out
    ensures hits <= count
    ensures RankSorted(out[..hits])
    ensures IsTopK(out[..hits], Hits(input, rect, if xOrY then XOnly else YOnly), count)
    ensures out[hits..] == old(out[hits..])
  {
    hits := FindHitsU(rect, input, out, count, if xOrY then XOnly else YOnly);
  }
}

=== FILE: gumption.dfy ===
/**
 * The region tree of gumption.c: every node covers a rectangle and keeps
 * the lowest-rank points inside it; an inner node has nine children, the
 * four quadrants and five overlapping half-size rectangles between them.
 * A query descends into a child that contains it, scans a node's buffer,
 * or merges the answers of the four quadrants, and a failed tree search
 * falls back to the axis-slice scan.
 */
module Gumption {
  import opened Geometry
  import opened Ranking
  import opened Sorting
  import opened CoordSearch
  import opened Selector
  import opened Planner
  import opened Merge

  /** A node buffer is filled by the rank-order scan once the smaller axis
      slice of its rectangle exceeds this (gumption.c:7, 249). */
  const RANKLIMIT: int := 10000
  /** Below this smaller axis count a query bypasses the tree (gumption.c:8). */
  const BINARYLIMIT: int := 2000
  /** The depth of the leaves; the root is at depth 0 (gumption.c:9). */
  const MAXDEPTH: int := 5
  /** Buffer lengths of inner nodes and of leaves (gumption.c:10-11). */
  const NODERANKSIZE: nat := 240
  const LEAFRANKSIZE: nat := 1000
  /** The length of an inner node's child-result buffers `hits1`, `hits3`,
      `hits7`, `hits9` (gumption.c:394-397). */
  const HITSLEN: nat := 20

  /**
   * A `TreeNode`: its rectangle, its rank buffer of which the first `n`
   * entries are filled, and its children: none for a leaf, otherwise nine,
   * the source's children 1 to 9 at positions 0 to 8. The per-node merge
   * buffers are scratch space of a query and are not part of the value.
   */
  datatype Node = Node(rect: Rect, ranksort: seq<Point>, n: nat, children: seq<Node>)

  /** The rank buffer length of a node at `depth` (gumption.c:373-375, 398-400). */
  function BufferSize(depth: int): nat
  {
    if depth < MAXDEPTH then NODERANKSIZE else LEAFRANKSIZE
  }

  function Mid(lo: real, hi: real): real
  {
    (hi + lo) / 2.0
  }

  /**
   * The rectangle of child c + 1 of a node over `r` (gumption.c:377-392):
   * with the medians and quartiles of both sides, children 1, 3, 7 and 9
   * are the quadrants, 2 and 8 the middle halves of the bottom and top
   * halves, 4 the middle half-height band, 6 its right half and 5 the
   * centre. Midpoints are exact here.
   */
  function ChildRect(r: Rect, c: int): Rect
    requires 0 <= c < 9
  {
    var xmed, ymed := Mid(r.lx, r.hx), Mid(r.ly, r.hy);
    var xq1, xq3 := Mid(r.lx, xmed), Mid(xmed, r.hx);
    var yq1, yq3 := Mid(r.ly, ymed), Mid(ymed, r.hy);
    if c == 0 then Rect(r.lx, xmed, r.ly, ymed)
    else if c == 1 then Rect(xq1, xq3, r.ly, ymed)
    else if c == 2 then Rect(xmed, r.hx, r.ly, ymed)
    else if c == 3 then Rect(r.lx, r.hx, yq1, yq3)
    else if c == 4 then Rect(xq1, xq3, yq1, yq3)
    else if c == 5 then Rect(xmed, r.hx, yq1, yq3)
    else if c == 6 then Rect(r.lx, xmed, ymed, r.hy)
    else if c == 7 then Rect(xq1, xq3, ymed, r.hy)
    else Rect(xmed, r.hx, ymed, r.hy)
  }

  /** Every child lies inside its parent and is at least half as wide and
      half as tall; the four quadrants cover the parent. */
  lemma ChildGeometry(r: Rect, c: int, p: Point)
    requires r.WellFormed() && 0 <= c < 9
    ensures ChildRect(r, c).WellFormed() && IsRectInside(r, ChildRect(r, c))
    ensures 2.0 * (ChildRect(r, c).hx - ChildRect(r, c).lx) >= r.hx - r.lx
    ensures 2.0 * (ChildRect(r, c).hy - ChildRect(r, c).ly) >= r.hy - r.ly
    ensures IsHit(r, p) ==>
      IsHit(ChildRect(r, 0), p) || IsHit(ChildRect(r, 2), p) || IsHit(ChildRect(r, 6), p) || IsHit(ChildRect(r, 8), p)
  {
  }

  /** Not every child passed for reuse has the rectangle a fresh build
      would give it. Child 2 reuses child 3 of child 1 as its own child 1,
      and the two rectangles agree. Child 4 spans the node's full width
      (gumption.c:389), but the corner it reuses as its child 1 is child 7
      of child 1, which ends at the first x quartile where a fresh child 1
      of child 4 ends at the x median. The model builds every child fresh
      over `ChildRect`. */
  lemma SharedCornerDiffers(r: Rect)
    requires r.WellFormed() && r.lx < r.hx
    ensures ChildRect(ChildRect(r, 0), 2) == ChildRect(ChildRect(r, 1), 0)
    ensures ChildRect(ChildRect(r, 0), 6).hx < ChildRect(ChildRect(r, 3), 0).hx
  {
  }

  /** A node's own buffer: the right length, its filled prefix the
      lowest-rank points inside the node's rectangle, zeroes after it. */
  ghost predicate Filled(node: Node, depth: int, points: seq<Point>)
  {
    && |node.ranksort| == BufferSize(depth) && node.n <= |node.ranksort|
    && Answers(node.ranksort[..node.n], points, node.rect, |node.ranksort|)
    && forall k :: node.n <= k < |node.ranksort| ==> node.ranksort[k] == Origin
  }

  /** A well-built subtree at `depth`: its buffer is filled, and it is a
      leaf exactly at MAXDEPTH; otherwise it has nine well-built children
      over the child rectangles. */
  ghost predicate NodeOk(node: Node, depth: int, points: seq<Point>)
    decreases MAXDEPTH - depth, 2
  {
    && 0 <= depth <= MAXDEPTH
    && Filled(node, depth, points)
    && (if depth < MAXDEPTH then ChildrenOk(node.children, node.rect, depth + 1, points) else node.children == [])
  }

  /** Nine well-built children at `depth` of a node over `rect`. */
  ghost predicate ChildrenOk(children: seq<Node>, rect: Rect, depth: int, points: seq<Point>)
    decreases MAXDEPTH - depth + 1, 1
  {
    |children| == 9 && forall c :: 0 <= c < 9 ==> Built(children[c], rect, c, depth, points)
  }

  /** `child` is a well-built node at `depth` over the rectangle of child
      c + 1 of `rect`. */
  ghost predicate Built(child: Node, rect: Rect, c: int, depth: int, points: seq<Point>)
    requires 0 <= c < 9
    decreases MAXDEPTH - depth + 1, 0
  {
    0 <= depth <= MAXDEPTH && child.rect == ChildRect(rect, c) && NodeOk(child, depth, points)
  }

  /**
   * `buildNode(sc, xmin, xmax, ymin, ymax, depth, ...)` (gumption.c:354-404):
   * a node over `rect` whose buffer is filled by `searchBinary` with
   * NODERANKSIZE entries above MAXDEPTH and LEAFRANKSIZE at it, with nine
   * children built one level deeper while depth < MAXDEPTH.
   */
  method BuildNode(xs: seq<Point>, ys: seq<Point>, rs: seq<Point>, rect: Rect, depth: int,
                   ghost points: seq<Point>) returns (node: Node)
    requires BuildInputs(xs, ys, rs, points)
    requires 0 <= depth <= MAXDEPTH
    ensures node.rect == rect && NodeOk(node, depth, points)
    decreases MAXDEPTH - depth, 1
  {
    var buf, n := FillBuffer(xs, ys, rs, rect, depth, points);
    var children: seq<Node> := [];
    if depth < MAXDEPTH {
      children := BuildChildren(xs, ys, rs, rect, depth + 1, points);
    }
    NodeOkIntro(rect, buf, n, children, depth, points);
    node := Node(rect, buf, n, children);
  }

  /** The node's buffer: BufferSize(depth) zeroed entries, the first `n`
      of them filled by `searchBinary` with the query's rectangle and
      RANKLIMIT (gumption.c:373-375, 398-400). */
  method FillBuffer(xs: seq<Point>, ys: seq<Point>, rs: seq<Point>, rect: Rect, depth: int,
                    ghost points: seq<Point>) returns (buf: seq<Point>, n: nat)
    requires BuildInputs(xs, ys, rs, points)
    ensures Filled(Node(rect, buf, n, []), depth, points)
  {
    var size := BufferSize(depth);
    var b := new Point[size](_ => Origin);
    n := SearchBinary(xs, ys, rs, rect, size, b, RANKLIMIT, points);
    buf := b[..];
    assert buf[..n] == b[..n];
    assert forall k :: n <= k < size ==> buf[k] == b[n..][k - n] == Origin;
  }

  /** A node is well built when its buffer is filled and its children are
      well built one level deeper, or it is a leaf at MAXDEPTH. */
  lemma NodeOkIntro(rect: Rect, buf: seq<Point>, n: nat, children: seq<Node>, depth: int, points: seq<Point>)
    requires 0 <= depth <= MAXDEPTH && Filled(Node(rect, buf, n, []), depth, points)
    requires depth < MAXDEPTH ==> ChildrenOk(children, rect, depth + 1, points)
    requires depth == MAXDEPTH ==> children == []
    ensures NodeOk(Node(rect, buf, n, children), depth, points)
  {
  }

  /** The nine children of a node over `rect`, at `depth`, built in
      position order 1 to 9. The source builds them in the order
      1, 3, 7, 9, 2, 4, 6, 8, 5 so that later ones can reuse earlier ones'
      children; here nothing is shared, so the order does not matter. */
  method BuildChildren(xs: seq<Point>, ys: seq<Point>, rs: seq<Point>, rect: Rect, depth: int,
                       ghost points: seq<Point>) returns (children: seq<Node>)
    requires BuildInputs(xs, ys, rs, points)
    requires 0 < depth <= MAXDEPTH
    ensures ChildrenOk(children, rect, depth, points)
    decreases MAXDEPTH - depth + 1, 0
  {
    children := [];
    children := AddChild(xs, ys, rs, rect, depth, points, children);
    children := AddChild(xs, ys, rs, rect, depth, points, children);
    children := AddChild(xs, ys, rs, rect, depth, points, children);
    children := AddChild(xs, ys, rs, rect, depth, points, children);
    children := AddChild(xs, ys, rs, rect, depth, points, children);
    children := AddChild(xs, ys, rs, rect, depth, points, children);
    children := AddChild(xs, ys, rs, rect, depth, points, children);
    children := AddChild(xs, ys, rs, rect, depth, points, children);
    children := AddChild(xs, ys, rs, rect, depth, points, children);
  }

  /** The first k children, each well built for its position. */
  ghost predicate BuiltUpTo(children: seq<Node>, rect: Rect, depth: int, points: seq<Point>)
  {
    |children| <= 9 && forall c :: 0 <= c < |children| ==> Built(children[c], rect, c, depth, points)
  }

  /** Builds the next child, over the rectangle of its position. */
  method AddChild(xs: seq<Point>, ys: seq<Point>, rs: seq<Point>, rect: Rect, depth: int,
                  ghost points: seq<Point>, children: seq<Node>) returns (more: seq<Node>)
    requires BuildInputs(xs, ys, rs, points)
    requires 0 < depth <= MAXDEPTH
    requires |children| < 9 && BuiltUpTo(children, rect, depth, points)
    ensures |more| == |children| + 1 && more[..|children|] == children
    ensures BuiltUpTo(more, rect, depth, points)
    decreases MAXDEPTH - depth + 1, -1
  {
    var child := BuildNode(xs, ys, rs, ChildRect(rect, |children|), depth, points);
    more := children + [child];
    assert more[|children|] == child;
  }

  // ---------------------------------------------------------------------
  // The query.

  /** The three branches of `treeHits`. */
  datatype Route = Descend | Scan | Split

  /**
   * The branch `treeHits` takes for the query `rect` at a node over
   * `nrect` (gumption.c:258-265, 276, 279): descend when the query is
   * narrower than half the node and the node is inner, scan when the query
   * is wider and taller than half the node or the node is a leaf, and
   * split otherwise. The height test of the first branch, `h < nh < 2`,
   * compares the boolean `h < nh` with 2 and always holds.
   */
  function RouteOf(rect: Rect, nrect: Rect, leaf: bool): Route
  {
    var w, h := rect.hx - rect.lx, rect.hy - rect.ly;
    var nw, nh := nrect.hx - nrect.lx, nrect.hy - nrect.ly;
    if w < nw / 2.0 && !leaf then Descend
    else if (w > nw / 2.0 && h > nh / 2.0) || leaf then Scan
    else Split
  }

  /** The order in which `treeHits` tries the children: 1, 3, 7, 9, 5, 2,
      4, 6, 8 (gumption.c:267-275). */
  const DescentOrder: seq<int> := [0, 2, 6, 8, 4, 1, 3, 5, 7]

  /** The first child, in descent order from position `from` on, whose
      rectangle contains the query; -1 when none does. */
  function Descent(children: seq<Node>, rect: Rect, from: nat): (c: int)
    requires |children| == 9 && from <= 9
    ensures c == -1 || (0 <= c < 9 && IsRectInside(children[c].rect, rect))
    ensures c == -1 <==> forall j :: from <= j < 9 ==> !IsRectInside(children[DescentOrder[j]].rect, rect)
    decreases 9 - from
  {
    if from == 9 then -1
    else if IsRectInside(children[DescentOrder[from]].rect, rect) then DescentOrder[from]
    else Descent(children, rect, from + 1)
  }

  /** The descent as written: `isRectInside(&rect, child)` asks whether
      the child lies inside the query. */
  function DescentAsWritten(children: seq<Node>, rect: Rect, from: nat): (c: int)
    requires |children| == 9 && from <= 9
    ensures c == -1 || (0 <= c < 9 && IsRectInside(rect, children[c].rect))
    ensures c == -1 <==> forall j :: from <= j < 9 ==> !IsRectInside(rect, children[DescentOrder[j]].rect)
    decreases 9 - from
  {
    if from == 9 then -1
    else if IsRectInside(rect, children[DescentOrder[from]].rect) then DescentOrder[from]
    else DescentAsWritten(children, rect, from + 1)
  }

  /** As written, the descent branch never finds a child: it is only taken
      for a query narrower than half the node, and every child is at least
      half as wide as the node, so none fits inside the query. `treeHits`
      then returns -1 whenever count > 0. */
  lemma NarrowDescentFails(node: Node, rect: Rect)
    requires |node.children| == 9 && node.rect.WellFormed()
    requires forall c :: 0 <= c < 9 ==> node.children[c].rect == ChildRect(node.rect, c)
    requires RouteOf(rect, node.rect, false) == Descend
    ensures DescentAsWritten(node.children, rect, 0) == -1
  {
    forall j | 0 <= j < 9 ensures !IsRectInside(rect, node.children[DescentOrder[j]].rect) {
      ChildGeometry(node.rect, DescentOrder[j], Origin);
    }
  }

  /** With the containment test the right way round, a well-formed query
      inside the node that is narrower and lower than a quarter of it
      always finds a child to descend into. */
  lemma NarrowQueryDescends(node: Node, rect: Rect)
    requires |node.children| == 9 && node.rect.WellFormed() && rect.WellFormed()
    requires forall c :: 0 <= c < 9 ==> node.children[c].rect == ChildRect(node.rect, c)
    requires IsRectInside(node.rect, rect)
    requires 4.0 * (rect.hx - rect.lx) < node.rect.hx - node.rect.lx
    requires 4.0 * (rect.hy - rect.ly) < node.rect.hy - node.rect.ly
    ensures Descent(node.children, rect, 0) >= 0
  {
    var j, c := HoldingChild(node.rect, rect);
    Descends(node.children, rect, j, c);
  }

  /** The position in the descent order of a child rectangle of `r` that
      holds a query inside `r` narrower and lower than a quarter of it. */
  lemma HoldingChild(r: Rect, rect: Rect) returns (j: int, c: int)
    requires r.WellFormed() && rect.WellFormed() && IsRectInside(r, rect)
    requires 4.0 * (rect.hx - rect.lx) < r.hx - r.lx
    requires 4.0 * (rect.hy - rect.ly) < r.hy - r.ly
    ensures 0 <= j < 9 && 0 <= c < 9 && DescentOrder[j] == c
    ensures IsRectInside(ChildRect(r, c), rect)
  {
    var xmed, ymed := Mid(r.lx, r.hx), Mid(r.ly, r.hy);
    if rect.hy <= ymed {
      j, c := if rect.hx <= xmed then 0 else if rect.lx >= xmed then 1 else 5,
              if rect.hx <= xmed then 0 else if rect.lx >= xmed then 2 else 1;
    } else if rect.ly >= ymed {
      j, c := if rect.hx <= xmed then 2 else if rect.lx >= xmed then 3 else 8,
              if rect.hx <= xmed then 6 else if rect.lx >= xmed then 8 else 7;
    } else {
      j, c := 6, 3;
    }
  }

  /** A child at position j of the descent order that holds the query
      makes the descent succeed. */
  lemma Descends(children: seq<Node>, rect: Rect, j: int, c: int)
    requires |children| == 9 && 0 <= j < 9 && DescentOrder[j] == c
    requires IsRectInside(children[c].rect, rect)
    ensures Descent(children, rect, 0) >= 0
  {
  }

  /** A well-built node's own buffer is filled. */
  lemma OwnBuffer(node: Node, depth: int, points: seq<Point>)
    requires NodeOk(node, depth, points)
    ensures Filled(node, depth, points)
  {
  }

  /** An inner node's children are well built one level deeper. */
  lemma ChildOk(node: Node, depth: int, points: seq<Point>)
    requires NodeOk(node, depth, points) && node.children != []
    ensures depth < MAXDEPTH && |node.children| == 9
    ensures forall c :: 0 <= c < 9 ==> NodeOk(node.children[c], depth + 1, points)
  {
    forall c | 0 <= c < 9 ensures NodeOk(node.children[c], depth + 1, points) {
      assert Built(node.children[c], node.rect, c, depth + 1, points);
    }
  }

  /** What `treeHits` promises: the result is `count` or -1; on `count`
      the output holds rank-ascending hits of the query, each one of the
      points, and when `exact` it answers the query. */
  ghost predicate TreeResult(out: seq<Point>, hits: int, exact: bool, rect: Rect, points: seq<Point>, count: nat)
  {
    && (hits == count || hits == -1)
    && (hits == count ==> count <= |out| && Found(out[..count], rect, points))
    && (hits == count && exact ==> count <= |out| && Answers(out[..count], points, rect, count))
  }

  /**
   * `treeHits(sc, rect, node, count, out)` (gumption.c:257-310) with the
   * containment test of the descent the right way round (see
   * `NarrowDescentFails`) and the corrected merge. The result is either
   * `count` or -1: -1 when the chosen branch finds fewer than `count`
   * hits, including a descent that finds no child.
   */
  method TreeHits(rect: Rect, node: Node, depth: int, count: nat, out: array<Point>, ghost points: seq<Point>)
    returns (hits: int, ghost exact: bool)
    requires NodeOk(node, depth, points) && RanksInRange(points)
    requires count <= out.Length && count <= HITSLEN
    modifies out
    ensures TreeResult(out[..], hits, exact, rect, points, count)
    decreases MAXDEPTH - depth, 2
  {
    var leaf := node.children == [];
    var route := RouteOf(rect, node.rect, leaf);
    if route == Descend {
      ChildOk(node, depth, points);
      hits, exact := DescendHits(rect, node.children, depth + 1, count, out, points);
    } else if route == Scan {
      OwnBuffer(node, depth, points);
      hits, exact := ScanHits(rect, node, depth, count, out, points);
    } else {
      hits := SplitHits(rect, node, depth, count, out, points);
      exact := false;
    }
  }

  /** The descent branch (gumption.c:265-275) over the children of an
      inner node at `depth` - 1. */
  method DescendHits(rect: Rect, children: seq<Node>, depth: int, count: nat, out: array<Point>,
                     ghost points: seq<Point>) returns (hits: int, ghost exact: bool)
    requires 0 < depth <= MAXDEPTH && |children| == 9 && RanksInRange(points)
    requires forall c :: 0 <= c < 9 ==> NodeOk(children[c], depth, points)
    requires count <= out.Length && count <= HITSLEN
    modifies out
    ensures TreeResult(out[..], hits, exact, rect, points, count)
    decreases MAXDEPTH - depth + 1, 0
  {
    var c := Descent(children, rect, 0);
    if c >= 0 {
      hits, exact := TreeHits(rect, children[c], depth, count, out, points);
    } else {
      // No child holds the query: `hits` stays 0, a failure unless count is 0.
      hits, exact := if count > 0 then -1 else 0, false;
    }
  }

  /** The scan branch (gumption.c:276-278, 308): `findHitsS` over the
      node's filled buffer, -1 when it finds fewer than `count` hits;
      `exact` says that the node contains the query. */
  method ScanHits(rect: Rect, node: Node, depth: int, count: nat, out: array<Point>, ghost points: seq<Point>)
    returns (hits: int, ghost exact: bool)
    requires Filled(node, depth, points)
    requires count <= out.Length
    modifies out
    ensures TreeResult(out[..], hits, exact, rect, points, count)
  {
    var k := FindHitsS(rect, node.ranksort[..node.n], out, count);
    exact := IsRectInside(node.rect, rect);
    BufferScan(node.ranksort[..node.n], |node.ranksort|, node.rect, points, rect, count);
    hits := if k < count then -1 else k;
  }

  /** The split branch (gumption.c:279-308): the answers of the quadrants
      1, 3, 7 and 9 that overlap the query, merged into `out`; -1 when
      the merge yields fewer than `count` points. */
  method SplitHits(rect: Rect, node: Node, depth: int, count: nat, out: array<Point>, ghost points: seq<Point>)
    returns (hits: int)
    requires NodeOk(node, depth, points) && node.children != [] && RanksInRange(points)
    requires count <= out.Length && count <= HITSLEN
    modifies out
    ensures TreeResult(out[..], hits, false, rect, points, count)
    decreases MAXDEPTH - depth, 1
  {
    ChildOk(node, depth, points);
    var s1 := ChildHits(rect, node.children[0], depth + 1, count, points);
    var s3 := ChildHits(rect, node.children[2], depth + 1, count, points);
    var s7 := ChildHits(rect, node.children[6], depth + 1, count, points);
    var s9 := ChildHits(rect, node.children[8], depth + 1, count, points);
    QuadrantMerge(s1, s3, s7, s9, rect, points, count);
    var k := MergeChildren([s1, s3, s7, s9], count, out);
    hits := if k < count then -1 else k;
  }

  /** One quadrant's answer (gumption.c:282-285): nothing when the child
      does not overlap the query (strict test), otherwise what `treeHits`
      writes into a HITSLEN-entry buffer, a -1 read as nothing. */
  method ChildHits(rect: Rect, child: Node, depth: int, count: nat, ghost points: seq<Point>)
    returns (found: seq<Point>)
    requires NodeOk(child, depth, points) && RanksInRange(points) && count <= HITSLEN
    ensures |found| <= count && Found(found, rect, points)
    decreases MAXDEPTH - depth, 3
  {
    found := [];
    if IsRectOverlap(rect, child.rect) {
      var buf := new Point[HITSLEN](_ => Origin);
      var n;
      ghost var e;
      n, e := TreeHits(rect, child, depth, count, buf, points);
      if n >= 0 {
        found := buf[..n];
        assert buf[..][..n] == found;
      }
    }
  }

  /** The root rectangle `create` builds the tree over (gumption.c:447-450):
      the second smallest and second largest coordinates on each axis. */
  function RootRect(xs: seq<Point>, ys: seq<Point>): Rect
    requires 2 <= |xs| && 2 <= |ys|
  {
    Rect(xs[1].x, xs[|xs| - 2].x, ys[1].y, ys[|ys| - 2].y)
  }

  /**
   * The search context of gumption.c: the x- and y-sorted copies and the
   * tree; the rank-sorted copy only serves the build. Nothing changes
   * after `create`.
   */
  class Context {
    const N: nat
    const xsort: seq<Point>
    const ysort: seq<Point>
    const root: Node
    ghost const points: seq<Point>

    /** The point count, the ranks the merges rely on, and for two or more
        points the sorted copies and a well-built tree over the root
        rectangle. */
    ghost predicate Valid()
    {
      && N == |points| && RanksInRange(points)
      && (N > 0 ==>
            && 2 <= N && |xsort| == N && |ysort| == N && SortedCopies(xsort, ysort, points)
            && root.rect == RootRect(xsort, ysort) && NodeOk(root, 0, points))
    }

    /** `create(points_begin, points_end)` (gumption.c:428-458): nothing
        for an empty input, otherwise the sorted copies and the tree. One
        point is excluded: `create` then reads `xsort[1]`, past the end. */
    constructor Create(input: seq<Point>)
      requires |input| != 1 && RanksInRange(input)
      ensures Valid() && points == input
    {
      if |input| == 0 {
        N, xsort, ysort, root := 0, [], [], Node(Rect(0.0, 0.0, 0.0, 0.0), [], 0, []);
        points := input;
      } else {
        var xa := SortedCopy(input, ByX);
        var ya := SortedCopy(input, ByY);
        var ra := SortedCopy(input, ByRank);
        var xs, ys := xa[..], ya[..];
        CopiesLength(xs, ys, input);
        assert BuildInputs(xs, ys, ra[..], input);
        var t := BuildNode(xs, ys, ra[..], RootRect(xs, ys), 0, input);
        N, xsort, ysort, root := |input|, xs, ys, t;
        points := input;
      }
    }

    /**
     * `searchTree(sc, rect, count, out)` (gumption.c:312-346): no hits for
     * an empty axis slice; the slice scan when the smaller slice is below
     * BINARYLIMIT; otherwise the tree, and the slice scan again when the
     * tree returns -1. The result is never -1. Every path but a
     * successful tree search answers the query (`exact`); a tree search
     * writes `count` rank-ascending hits.
     */
    method SearchTree(rect: Rect, count: nat, out: array<Point>) returns (n: nat, ghost exact: bool)
      requires Valid() && N > 0
      requires count <= out.Length && count <= HITSLEN
      modifies out
      ensures n <= count && Found(out[..n], rect, points)
      ensures exact ==> Answers(out[..n], points, rect, count)
      ensures !exact ==> n == count && Min(AxisCount(xsort, X, rect), AxisCount(ysort, Y, rect)) >= BINARYLIMIT
    {
      var xl, xr := AxisRange(xsort, X, rect.lx, rect.hx);
      var yl, yr := AxisRange(ysort, Y, rect.ly, rect.hy);
      var nx, ny := xr - xl + 1, yr - yl + 1;
      exact := true;
      if nx == 0 || ny == 0 {
        n := 0;
        EmptyAnswers(out[..0], xsort, ysort, points, rect, count, xl, xr, yl, yr);
      } else if Min(nx, ny) < BINARYLIMIT {
        n := SliceScan(xsort, ysort, rect, xl, xr, yl, yr, out, count, points);
      } else {
        var hits;
        hits, exact := TreeHits(rect, root, 0, count, out, points);
        assert out[..][..count] == out[..count];
        if hits == -1 {
          n := SliceScan(xsort, ysort, rect, xl, xr, yl, yr, out, count, points);
          exact := true;
        } else {
          n := hits;
          SliceSize(xsort, X, rect, xl, xr);
          SliceSize(ysort, Y, rect, yl, yr);
        }
      }
      if exact {
        AnswersFound(out[..n], points, rect, count);
      }
    }

    /** `search(sc, rect, count, out)` (gumption.c:460-465): no hits for an
        empty context, otherwise the tree search. */
    method Search(rect: Rect, count: nat, out: array<Point>) returns (n: nat, ghost exact: bool)
      requires Valid()
      requires count <= out.Length && count <= HITSLEN
      modifies out
      ensures n <= count && Found(out[..n], rect, points)
      ensures exact ==> Answers(out[..n], points, rect, count)
      ensures !exact ==> n == count && Min(AxisCount(xsort, X, rect), AxisCount(ysort, Y, rect)) >= BINARYLIMIT
    {
      if N == 0 {
        n, exact := 0, true;
        assert Hits(points, rect, Both) == [];
        return;
      }
      n, exact := SearchTree(rect, count, out);
    }
  }
}

=== FILE: gumptionaire.dfy ===
/**
 * The third search variant (gumptionaire.c): x- and y-sorted copies, a
 * range tree per axis, and a DIVS x DIVS grid over the rank-sorted copy.
 * `searchRange` scans an axis slice when it is small, otherwise consults
 * the grid window when it is a single cell, otherwise the range tree, and
 * when the tree's buffer runs short it compares the window's size with the
 * smaller slice to choose between the grid merge and the slice scan.
 */
module Gumptionaire {
  import opened Geometry
  import opened Ranking
  import opened Sorting
  import opened CoordSearch
  import opened Selector
  import opened Planner
  import opened Merge
  import opened Grid
  import opened RangeTree
  import opened Wrappers

  /** Above this slice size `searchBinary` scans the rank-sorted copy
      (gumptionaire.c:11). */
  const BASELIMIT: int := 10000
  /** Below this slice size `searchRange` scans the slice
      (gumptionaire.c:14). */
  const BINARYLIMIT: int := 1000

  /**
   * `buildRange(sc, l, r, sel, xOrY, lover, rover, depth)`
   * (gumptionaire.c:370-430): a node over the span [l, r] of the copy
   * sorted on axis `a`, whose buffer of Len(depth) entries is filled by
   * `searchBinary` over the span's strip and zero past what it found.
   * Below MAXDEPTH the span is split at the median and quartiles; the
   * left and right children are `lover` and `rover` when given and built
   * otherwise, and the middle child reuses the left child's right child
   * and the right child's left child. Every node of the result is well
   * built.
   */
  method BuildRange(xs: seq<Point>, ys: seq<Point>, rs: seq<Point>, l: int, r: int, a: Axis,
                    lover: Option<Range>, rover: Option<Range>, depth: int, ghost points: seq<Point>)
    returns (node: Range)
    requires SortedCopies(xs, ys, points)
    requires multiset(rs) == multiset(points) && SortedBy(rs, ByRank)
    requires RanksNonNegative(points)
    requires 1 <= depth <= MAXDEPTH && 0 <= l < |xs| && 0 <= r < |xs|
    requires lover.Some? ==> depth < MAXDEPTH && RangeOk(lover.value, depth + 1, xs, ys, a, points)
    requires rover.Some? ==> depth < MAXDEPTH && RangeOk(rover.value, depth + 1, xs, ys, a, points)
    ensures RangeOk(node, depth, xs, ys, a, points)
    ensures node.l == l && node.r == r
    decreases MAXDEPTH - depth, 3
  {
    CopiesLength(xs, ys, points);
    var buf, n := FillBuffer(xs, ys, rs, l, r, a, depth, points);
    if depth == MAXDEPTH {
      node := Range(l, r, buf, n, None, None, None);
      NodeOk(node, depth, xs, ys, a, points);
      return;
    }
    var med, q1, q3 := Split(AxisSorted(xs, ys, a), a, l, r);
    node := Inner(xs, ys, rs, l, r, med, q1, q3, a, buf, n, lover, rover, depth, points);
  }

  /** An inner node over [l, r] with its buffer and its three children. */
  method Inner(xs: seq<Point>, ys: seq<Point>, rs: seq<Point>, l: int, r: int, med: int, q1: int, q3: int,
               a: Axis, buf: seq<Point>, n: nat, lover: Option<Range>, rover: Option<Range>, depth: int,
               ghost points: seq<Point>) returns (node: Range)
    requires SortedCopies(xs, ys, points)
    requires multiset(rs) == multiset(points) && SortedBy(rs, ByRank)
    requires RanksNonNegative(points)
    requires 1 <= depth < MAXDEPTH && |xs| == |ys| && 0 <= l < |xs| && 0 <= r < |xs|
    requires 0 <= med < |xs| && 0 <= q1 < |xs| && 0 <= q3 < |xs|
    requires n <= |buf| == Len(depth)
    requires RankSorted(buf[..n]) && IsTopK(buf[..n], Hits(points, Strip(xs, ys, a, l, r), Both), Len(depth))
    requires forall k :: n <= k < |buf| ==> buf[k] == Origin
    requires lover.Some? ==> RangeOk(lover.value, depth + 1, xs, ys, a, points)
    requires rover.Some? ==> RangeOk(rover.value, depth + 1, xs, ys, a, points)
    ensures RangeOk(node, depth, xs, ys, a, points)
    ensures node.l == l && node.r == r
    decreases MAXDEPTH - depth, 2
  {
    var left, right, mid := BuildChildren(xs, ys, rs, l, r, med, q1, q3, a, lover, rover, depth + 1, points);
    node := Range(l, r, buf, n, Some(left), Some(right), Some(mid));
    NodeOk(node, depth, xs, ys, a, points);
  }

  /** The three children of a node over [l, r] below MAXDEPTH
      (gumptionaire.c:395-427): the span splits at the median `med` and the
      quartiles `q1` and `q3`; the left child over [l, med] is `lover` when
      given, the right child over [med, r] is `rover` when given, and the
      middle child over [q1, q3] is built with the left child's right child
      and the right child's left child as its own outer children. */
  method BuildChildren(xs: seq<Point>, ys: seq<Point>, rs: seq<Point>, l: int, r: int, med: int, q1: int, q3: int,
                       a: Axis,
                       lover: Option<Range>, rover: Option<Range>, depth: int, ghost points: seq<Point>)
    returns (left: Range, right: Range, mid: Range)
    requires SortedCopies(xs, ys, points)
    requires multiset(rs) == multiset(points) && SortedBy(rs, ByRank)
    requires RanksNonNegative(points)
    requires 2 <= depth <= MAXDEPTH && 0 <= l < |xs| && 0 <= r < |xs|
    requires 0 <= med < |xs| && 0 <= q1 < |xs| && 0 <= q3 < |xs|
    requires lover.Some? ==> RangeOk(lover.value, depth, xs, ys, a, points)
    requires rover.Some? ==> RangeOk(rover.value, depth, xs, ys, a, points)
    ensures RangeOk(left, depth, xs, ys, a, points)
    ensures RangeOk(right, depth, xs, ys, a, points)
    ensures RangeOk(mid, depth, xs, ys, a, points)
    decreases MAXDEPTH - depth + 1, 1
  {
    left := Child(xs, ys, rs, l, med, a, lover, depth, points);
    right := Child(xs, ys, rs, med, r, a, rover, depth, points);
    mid := Middle(xs, ys, rs, q1, q3, a, left, right, depth, points);
  }

  /** The middle child over [q1, q3] at `depth`, built with the left
      child's right child and the right child's left child as its outer
      children. */
  method Middle(xs: seq<Point>, ys: seq<Point>, rs: seq<Point>, l: int, r: int, a: Axis,
                left: Range, right: Range, depth: int, ghost points: seq<Point>) returns (c: Range)
    requires SortedCopies(xs, ys, points)
    requires multiset(rs) == multiset(points) && SortedBy(rs, ByRank)
    requires RanksNonNegative(points)
    requires 0 <= l < |xs| && 0 <= r < |xs|
    requires RangeOk(left, depth, xs, ys, a, points) && RangeOk(right, depth, xs, ys, a, points)
    ensures RangeOk(c, depth, xs, ys, a, points)
    decreases MAXDEPTH - depth, 4
  {
    InnerChildren(left, right, depth, xs, ys, a, points);
    c := BuildRange(xs, ys, rs, l, r, a, left.right, right.left, depth, points);
  }

  /** A child over [l, r] at `depth`: the given one, or a new build. */
  method Child(xs: seq<Point>, ys: seq<Point>, rs: seq<Point>, l: int, r: int, a: Axis,
               over: Option<Range>, depth: int, ghost points: seq<Point>) returns (c: Range)
    requires SortedCopies(xs, ys, points)
    requires multiset(rs) == multiset(points) && SortedBy(rs, ByRank)
    requires RanksNonNegative(points)
    requires 1 <= depth <= MAXDEPTH && 0 <= l < |xs| && 0 <= r < |xs|
    requires over.Some? ==> RangeOk(over.value, depth, xs, ys, a, points)
    ensures RangeOk(c, depth, xs, ys, a, points)
    decreases MAXDEPTH - depth, 4
  {
    if over.Some? {
      c := over.value;
    } else {
      c := BuildRange(xs, ys, rs, l, r, a, None, None, depth, points);
    }
  }

  /** The inner children of two well-built nodes are well built one level
      further down. */
  lemma InnerChildren(left: Range, right: Range, depth: int, xs: seq<Point>, ys: seq<Point>, a: Axis,
                      points: seq<Point>)
    requires RangeOk(left, depth, xs, ys, a, points) && RangeOk(right, depth, xs, ys, a, points)
    ensures left.right.Some? ==> depth < MAXDEPTH && RangeOk(left.right.value, depth + 1, xs, ys, a, points)
    ensures right.left.Some? ==> depth < MAXDEPTH && RangeOk(right.left.value, depth + 1, xs, ys, a, points)
  {
  }

  /** A node is well built from its own buffer facts and its children's. */
  lemma NodeOk(node: Range, depth: int, xs: seq<Point>, ys: seq<Point>, a: Axis, points: seq<Point>)
    requires 1 <= depth <= MAXDEPTH && |xs| == |ys| && 0 <= node.l < |xs| && 0 <= node.r < |xs|
    requires node.n <= |node.ranksort| == Len(depth)
    requires RankSorted(node.ranksort[..node.n])
    requires IsTopK(node.ranksort[..node.n], Hits(points, Strip(xs, ys, a, node.l, node.r), Both), Len(depth))
    requires forall k :: node.n <= k < |node.ranksort| ==> node.ranksort[k] == Origin
    requires depth == MAXDEPTH ==> node.left.None? && node.right.None? && node.mid.None?
    requires depth < MAXDEPTH ==> && node.left.Some? && node.right.Some? && node.mid.Some?
                                  && RangeOk(node.left.value, depth + 1, xs, ys, a, points)
                                  && RangeOk(node.right.value, depth + 1, xs, ys, a, points)
                                  && RangeOk(node.mid.value, depth + 1, xs, ys, a, points)
    ensures RangeOk(node, depth, xs, ys, a, points)
  {
  }

  /** The buffer of a node over [l, r] at `depth` (gumptionaire.c:381-390):
      `calloc` of Len(depth) entries, then `searchBinary` over the span's
      strip with Len(depth) as the count. The first `n` entries are the
      strip's lowest-rank points, ascending; the rest stay zero. */
  method FillBuffer(xs: seq<Point>, ys: seq<Point>, rs: seq<Point>, l: int, r: int, a: Axis, depth: int,
                    ghost points: seq<Point>) returns (buf: seq<Point>, n: nat)
    requires SortedCopies(xs, ys, points)
    requires multiset(rs) == multiset(points) && SortedBy(rs, ByRank)
    requires RanksNonNegative(points)
    requires depth <= MAXDEPTH && |xs| == |ys| && 0 <= l < |xs| && 0 <= r < |xs|
    ensures n <= |buf| == Len(depth)
    ensures RankSorted(buf[..n]) && IsTopK(buf[..n], Hits(points, Strip(xs, ys, a, l, r), Both), Len(depth))
    ensures forall k :: n <= k < |buf| ==> buf[k] == Origin
  {
    var len := Len(depth);
    var b := new Point[len](_ => Origin);
    n := SearchBinary(xs, ys, rs, Strip(xs, ys, a, l, r), len, b, BASELIMIT, points);
    assert forall k :: n <= k < len ==> b[k] == b[n..][k - n];
    buf := b[..];
  }

  /** The query clamped to the grid bounds, side by side
      (gumptionaire.c:296-301). */
  function Trim(rect: Rect, bounds: Rect): Rect
  {
    Rect(if rect.lx < bounds.lx then bounds.lx else rect.lx,
         if rect.hx > bounds.hx then bounds.hx else rect.hx,
         if rect.ly < bounds.ly then bounds.ly else rect.ly,
         if rect.hy > bounds.hy then bounds.hy else rect.hy)
  }

  /** Every side of the trimmed query lies within the bounds, and a point
      hits the trimmed query exactly when it hits both the query and the
      bounds. */
  lemma TrimWithin(rect: Rect, bounds: Rect, p: Point)
    ensures bounds.lx <= Trim(rect, bounds).lx && Trim(rect, bounds).hx <= bounds.hx
    ensures bounds.ly <= Trim(rect, bounds).ly && Trim(rect, bounds).hy <= bounds.hy
    ensures IsHit(Trim(rect, bounds), p) <==> IsHit(rect, p) && IsHit(bounds, p)
  {
  }

  /** Every cell of a window is rank-sorted and ranks below RANKMAX when
      every point of the grid's array does: the conditions of the merge. */
  lemma WindowMergeable(g: seq<Point>, cs: seq<seq<int>>, rl: seq<seq<int>>, bounds: Rect,
                        x0: int, y0: int, w: int, h: int)
    requires GridOk(cs, rl, g, bounds)
    requires 0 <= x0 && 0 <= y0 && 0 <= w && 0 <= h && x0 + w <= DIVS && y0 + h <= DIVS
    requires forall k :: 0 <= k < |g| ==> g[k].rank < RANKMAX
    ensures AllSorted(Window(g, cs, rl, bounds, x0, y0, w, h))
    ensures RanksBelowMax(Window(g, cs, rl, bounds, x0, y0, w, h))
  {
    WindowCells(g, cs, rl, bounds, x0, y0, w, h);
  }

  /** Answering over a cell is answering over the 1 x 1 window of it. */
  lemma SingleWindowAnswers(found: seq<Point>, g: seq<Point>, cs: seq<seq<int>>, rl: seq<seq<int>>, bounds: Rect,
                            x0: int, y0: int, rect: Rect, count: nat)
    requires GridOk(cs, rl, g, bounds) && 0 <= x0 < DIVS && 0 <= y0 < DIVS
    requires Answers(found, Cell(g, cs, rl, bounds, x0, y0), rect, count)
    ensures Answers(found, Concat(Window(g, cs, rl, bounds, x0, y0, 1, 1)), rect, count)
  {
    WindowSingle(g, cs, rl, bounds, x0, y0);
    ConcatSingle(Cell(g, cs, rl, bounds, x0, y0));
  }

  /** A permutation of points ranked below RANKMAX ranks below it too. */
  lemma GridRanks(gs: seq<Point>, points: seq<Point>)
    requires multiset(gs) == multiset(points)
    requires forall k :: 0 <= k < |points| ==> points[k].rank < RANKMAX
    ensures forall k :: 0 <= k < |gs| ==> gs[k].rank < RANKMAX
  {
    forall k | 0 <= k < |gs| ensures gs[k].rank < RANKMAX {
      assert gs[k] in multiset(points);
      var j :| 0 <= j < |points| && points[j] == gs[k];
    }
  }

  /** [xl, xr] and [yl, yr] are the query's slices of the two sorted
      copies, as `searchRange` locates them (gumptionaire.c:278-283). */
  ghost predicate Located(xs: seq<Point>, ys: seq<Point>, rect: Rect, xl: int, xr: int, yl: int, yr: int)
  {
    && IsAxisRange(xs, X, rect.lx, rect.hx, xl, xr) && IsAxisRange(ys, Y, rect.ly, rect.hy, yl, yr)
    && (rect.lx <= rect.hx ==> xl <= xr + 1)
    && (rect.ly <= rect.hy ==> yl <= yr + 1)
  }

  /** What the located slices say about the query: a slice of at least
      BINARYLIMIT points is as long as its axis count, a shorter one leaves
      the smaller count below BINARYLIMIT, and for a well-formed query a
      slice is empty exactly when its axis count is zero. */
  lemma SliceCounts(xs: seq<Point>, ys: seq<Point>, rect: Rect, xl: int, xr: int, yl: int, yr: int)
    requires Located(xs, ys, rect, xl, xr, yl, yr)
    ensures Min(xr - xl + 1, yr - yl + 1) >= BINARYLIMIT ==>
      Min(xr - xl + 1, yr - yl + 1) == Min(AxisCount(xs, X, rect), AxisCount(ys, Y, rect))
    ensures Min(xr - xl + 1, yr - yl + 1) < BINARYLIMIT ==>
      Min(AxisCount(xs, X, rect), AxisCount(ys, Y, rect)) < BINARYLIMIT
    ensures rect.WellFormed() ==>
      (xr - xl + 1 == 0 || yr - yl + 1 == 0 <==> AxisCount(xs, X, rect) == 0 || AxisCount(ys, Y, rect) == 0)
  {
    SliceSize(xs, X, rect, xl, xr);
    SliceSize(ys, Y, rect, yl, yr);
  }

  /** The state of the minimum search of `findHitsB` after the slots
      before `upto`: the smallest live front so far, the first cell holding
      it, and the count of used-up cells. */
  ghost predicate MinLoop(win: seq<seq<Point>>, cur: seq<int>, w: int, h: int, upto: int,
                          minrank: int, mini: int, minj: int, fin: int)
  {
    && CursorsOk(win, cur) && 0 <= upto <= |win|
    && minrank == ScanMin(win, cur, upto).0
    && fin == Done(win, cur, upto)
    && (ScanMin(win, cur, upto).1 >= 0 ==>
          0 <= mini < w && 0 <= minj < h && Slot(mini, minj, h) == ScanMin(win, cur, upto).1)
  }

  /** A non-empty context's structures: sorted copies of the points, a
      well-built range tree per axis over the whole of them, and a grid
      over a permutation of them. */
  ghost predicate Structures(n: int, xs: seq<Point>, ys: seq<Point>, xr: Range, yr: Range, gs: seq<Point>,
                             cs: seq<seq<int>>, rl: seq<seq<int>>, bounds: Rect, points: seq<Point>)
  {
    && 2 <= n && SortedCopies(xs, ys, points)
    && RangeOk(xr, 1, xs, ys, X, points) && xr.l == 0 && xr.r == n - 1
    && RangeOk(yr, 1, xs, ys, Y, points) && yr.l == 0 && yr.r == n - 1
    && multiset(gs) == multiset(points) && GridOk(cs, rl, gs, bounds)
  }

  /** The structures `create` builds for two or more points
      (gumptionaire.c:537-550): the sorted copies, the x tree, the y tree,
      then the grid over the rank-sorted copy's array. */
  method BuildAll(input: seq<Point>)
    returns (xs: seq<Point>, ys: seq<Point>, xr: Range, yr: Range, gs: seq<Point>,
             cs: seq<seq<int>>, rl: seq<seq<int>>, bounds: Rect)
    requires 2 <= |input| && RanksNonNegative(input)
    ensures Structures(|input|, xs, ys, xr, yr, gs, cs, rl, bounds, input)
  {
    var xa := SortedCopy(input, ByX);
    var ya := SortedCopy(input, ByY);
    var ra := SortedCopy(input, ByRank);
    xs, ys := xa[..], ya[..];
    CopiesLength(xs, ys, input);
    assert ra.Length == |multiset(ra[..])| == |input|;
    xr := BuildRange(xs, ys, ra[..], 0, |input| - 1, X, None, None, 1, input);
    yr := BuildRange(xs, ys, ra[..], 0, |input| - 1, Y, None, None, 1, input);
    bounds, cs, rl := BuildGrid(xs, ys, ra);
    gs := ra[..];
  }

  /** The state of the merge loop of `findHitsB`: `consumed` is what the
      merge has produced so far, the cursors say what is left, and
      `written` holds the hits among the consumed points. */
  ghost predicate MergeLoop(win: seq<seq<Point>>, cur: seq<int>, consumed: seq<Point>, written: seq<Point>,
                            rect: Rect)
  {
    && CursorsOk(win, cur)
    && Merged(win) == consumed + MergeFrom(win, cur)
    && written == Hits(consumed, rect, Both)
  }

  /**
   * The search context of gumptionaire.c (`GumpSearchContext`): the x-,
   * y- and rank-sorted copies, a range tree per axis, the grid over the
   * copy `gridsort` (which `buildGrid` reorders column by column), its
   * bounds, the cursor array `blocki` of the grid merge and the trimmed
   * query `trim`. Everything but `blocki` and `trim` is fixed once built.
   */
  class Context {
    const N: nat
    const xsort: seq<Point>
    const ysort: seq<Point>
    const xroot: Range
    const yroot: Range
    const gridsort: seq<Point>
    const grid: seq<seq<int>>
    const rlen: seq<seq<int>>
    const bounds: Rect
    const blocki: array<int>
    var trim: Rect
    ghost const points: seq<Point>

    /** The structures of a non-empty context as `create` builds them. */
    ghost predicate Built()
    {
      Structures(N, xsort, ysort, xroot, yroot, gridsort, grid, rlen, bounds, points)
    }

    /** The point count, the ranks the selectors and merges rely on, and
        the built structures when there are points. */
    ghost predicate Valid()
    {
      && N == |points|
      && RanksNonNegative(points) && (forall k :: 0 <= k < |points| ==> points[k].rank < RANKMAX)
      && blocki.Length == (if N == 0 then 0 else DIVS * DIVS)
      && (N > 0 ==> Built())
    }

    /**
     * What `searchRange` (gumptionaire.c:277-359) promises when it writes
     * `found` for the query `rect` by plan `plan`, with the grid window
     * (x0, y0, w, h): plan 0, nothing, exactly when a well-formed query
     * covers no point on some axis; plan 1, the slice scan, when the
     * smaller axis count is below BINARYLIMIT; plans 2 to 5 otherwise:
     * 2, the single-cell scan, exactly for a 1 x 1 window; 3, the range
     * tree, which fills the buffer; 4, the grid merge, when the window
     * holds fewer points than the smaller axis count; 5, the slice scan,
     * when it does not. Plans 2 and 4 answer the query over the window's
     * cells, every other plan over all the points.
     */
    ghost predicate Outcome(rect: Rect, count: nat, x0: int, y0: int, w: int, h: int, found: seq<Point>, plan: int)
      requires Valid() && N > 0
      requires 0 <= x0 && 0 <= y0 && 0 <= w && 0 <= h && x0 + w <= DIVS && y0 + h <= DIVS
    {
      var nx, ny := AxisCount(xsort, X, rect), AxisCount(ysort, Y, rect);
      var total := |Concat(Window(gridsort, grid, rlen, bounds, x0, y0, w, h))|;
      && 0 <= plan <= 5
      && (plan != 2 && plan != 4 ==> Answers(found, points, rect, count))
      && (plan == 2 || plan == 4 ==> Answers(found, Concat(Window(gridsort, grid, rlen, bounds, x0, y0, w, h)), rect, count))
      && (plan == 0 ==> found == [])
      && (rect.WellFormed() ==> (plan == 0 <==> nx == 0 || ny == 0))
      && (plan == 1 ==> Min(nx, ny) < BINARYLIMIT)
      && (plan >= 2 ==> Min(nx, ny) >= BINARYLIMIT && (plan == 2 <==> w == 1 && h == 1))
      && (plan == 3 ==> |found| == count)
      && (plan == 4 ==> total < Min(nx, ny))
      && (plan == 5 ==> total >= Min(nx, ny))
    }

    /**
     * `create(points_begin, points_end)` (gumptionaire.c:532-562): no
     * structures for an empty input; otherwise three sorted copies, the
     * x and y range trees built over the rank-sorted copy, then the grid,
     * which reuses that copy's array.
     */
    constructor Create(input: seq<Point>)
      requires |input| != 1
      requires forall k :: 0 <= k < |input| ==> 0 <= input[k].rank < RANKMAX
      ensures Valid() && points == input
      ensures fresh(blocki)
    {
      var n := |input|;
      if n == 0 {
        var leaf := Range(0, 0, [], 0, None, None, None);
        N, xsort, ysort, xroot, yroot, gridsort := 0, [], [], leaf, leaf, [];
        grid, rlen, bounds := [], [], Rect(0.0, 0.0, 0.0, 0.0);
        blocki := new int[0];
        trim := bounds;
        points := input;
      } else {
        var xs, ys, xr, yr, gs, cs, rl, b := BuildAll(input);
        N, xsort, ysort, xroot, yroot, gridsort := n, xs, ys, xr, yr, gs;
        grid, rlen, bounds := cs, rl, b;
        blocki := new int[DIVS * DIVS];
        trim := b;
        points := input;
      }
    }

    /**
     * One pass of the minimum search of `findHitsB`
     * (gumptionaire.c:195-216) over the w x h window with corner (x0, y0),
     * whose cells are `win`: cells whose cursor has reached their length
     * are counted in `fin`; of the others, the first with the smallest
     * front rank is recorded in (mini, minj), which keep their previous
     * values when no front is found. The cursor of cell (i, j) is
     * blocki[Slot(i, j, h)].
     */
    method FindMin(x0: int, y0: int, w: int, h: int, mini0: int, minj0: int, ghost win: seq<seq<Point>>)
      returns (minrank: int, mini: int, minj: int, fin: int)
      requires WindowLayout(win, gridsort, grid, rlen, x0, y0, w, h)
      requires w * h <= blocki.Length && CursorsOk(win, blocki[..w * h])
      ensures MinLoop(win, blocki[..w * h], w, h, w * h, minrank, mini, minj, fin)
    {
      ghost var cur := blocki[..w * h];
      minrank, mini, minj, fin := RANKMAX, mini0, minj0, 0;
      for i := 0 to w
        invariant MinLoop(win, cur, w, h, i * h, minrank, mini, minj, fin)
      {
        MulMono(i + 1, w, h);
        assert i * h + h == (i + 1) * h;
        for j := 0 to h
          invariant MinLoop(win, cur, w, h, i * h + j, minrank, mini, minj, fin)
        {
          var b := Slot(i, j, h);
          SlotBounds(i, j, w, h);
          assert CellAt(win[b], gridsort, grid, rlen, x0 + i, y0 + j);
          assert cur[b] == blocki[b];
          var bn := rlen[x0 + i][y0 + j];
          if blocki[b] >= bn {
            fin := fin + 1;
          } else {
            var p := gridsort[grid[x0 + i][y0 + j] + blocki[b]];
            assert p == win[b][cur[b]];
            if p.rank < minrank {
              mini, minj, minrank := i, j, p.rank;
            }
          }
        }
      }
    }
  
    /** The cursor reset of `findHitsB` (gumptionaire.c:184-189): the
        cursor of every cell of a w x h window goes back to the cell's
        first point; the cursors past the window are left alone. */
    method ResetCursors(w: int, h: int)
      requires 0 <= w && 0 <= h && w * h <= blocki.Length
      modifies blocki
      ensures forall b :: 0 <= b < w * h ==> blocki[b] == 0
      ensures forall b :: w * h <= b < blocki.Length ==> blocki[b] == old(blocki[b])
    {
      for i := 0 to w
        invariant forall b :: 0 <= b < i * h ==> blocki[b] == 0
        invariant forall b :: i * h <= b < blocki.Length ==> blocki[b] == old(blocki[b])
      {
        MulMono(i + 1, w, h);
        assert i * h + h == (i + 1) * h;
        for j := 0 to h
          invariant forall b :: 0 <= b < i * h + j ==> blocki[b] == 0
          invariant forall b :: i * h + j <= b < blocki.Length ==> blocki[b] == old(blocki[b])
        {
          blocki[Slot(i, j, h)] := 0;
        }
      }
    }

    /**
     * `findHitsB(sc, rect, bx, by, w, h, out, count)`
     * (gumptionaire.c:180-234): merge the rank-sorted cells of the w x h
     * window with corner (x0, y0), whose cells are `win`, testing every
     * merged point against the query and writing the hits, until `count`
     * are written or every cell is used up. What is written is the first
     * `count` hits of the merge.
     */
    method FindHitsB(rect: Rect, x0: int, y0: int, w: int, h: int, out: array<Point>, count: nat,
                     ghost win: seq<seq<Point>>) returns (k: nat)
      requires WindowLayout(win, gridsort, grid, rlen, x0, y0, w, h) && RanksBelowMax(win)
      requires w * h <= blocki.Length && count <= out.Length
      modifies blocki, out
      ensures k <= count
      ensures out[..k] == FirstHits(Merged(win), rect, count)
      ensures out[k..] == old(out[k..])
    {
      ResetCursors(w, h);
      assert blocki[..w * h] == Start(win);
      var mini, minj := -1, -1;
      k := 0;
      ghost var consumed: seq<Point> := [];
      while k < count
        invariant k <= count
        invariant MergeLoop(win, blocki[..w * h], consumed, out[..k], rect)
        invariant forall t :: k <= t < out.Length ==> out[t] == old(out[t])
        decreases |Rest(win, blocki[..w * h])|
      {
        var stop;
        k, mini, minj, stop, consumed := MergeNext(rect, x0, y0, w, h, out, k, mini, minj, win, consumed);
        if stop {
          break;
        }
      }
      MergeHitsDone(win, blocki[..w * h], consumed, out[..k], rect, count);
      assert out[k..] == old(out[k..]);
    }

    /**
     * One iteration of the merge loop of `findHitsB`
     * (gumptionaire.c:195-231): the minimum search; the exit when every
     * cell is used up; otherwise the test of the first cell's smallest
     * front against the query, its write when it hits, and the advance of
     * that cell's cursor.
     */
    method MergeNext(rect: Rect, x0: int, y0: int, w: int, h: int, out: array<Point>, k: nat,
                     mini0: int, minj0: int, ghost win: seq<seq<Point>>, ghost consumed: seq<Point>)
      returns (k': nat, mini: int, minj: int, stop: bool, ghost consumed': seq<Point>)
      requires WindowLayout(win, gridsort, grid, rlen, x0, y0, w, h) && RanksBelowMax(win)
      requires w * h <= blocki.Length && k < out.Length
      requires MergeLoop(win, blocki[..w * h], consumed, out[..k], rect)
      modifies blocki, out
      ensures k <= k' <= k + 1
      ensures MergeLoop(win, blocki[..w * h], consumed', out[..k'], rect)
      ensures stop ==> k' == k && Pick(win, blocki[..w * h]) < 0
      ensures !stop ==> |Rest(win, blocki[..w * h])| < |Rest(win, old(blocki[..w * h]))|
      ensures forall t :: k' <= t < out.Length ==> out[t] == old(out[t])
    {
      var minrank, fin;
      minrank, mini, minj, fin := FindMin(x0, y0, w, h, mini0, minj0, win);
      ghost var cur := blocki[..w * h];
      PickNone(win, cur);
      if fin == w * h {
        k', stop, consumed' := k, true, consumed;
        return;
      }
      var bestb := Slot(mini, minj, h);
      assert CellAt(win[bestb], gridsort, grid, rlen, x0 + mini, y0 + minj);
      var bestp := gridsort[grid[x0 + mini][y0 + minj] + blocki[bestb]];
      assert bestp == win[bestb][cur[bestb]];
      MergeAdvance(win, cur, bestb, consumed);
      HitsAppend(consumed, [bestp], rect, Both);
      k' := k;
      if IsHit(rect, bestp) {
        k' := Emit(out, k, bestp);
      }
      blocki[bestb] := blocki[bestb] + 1;
      assert blocki[..w * h] == Advance(win, cur, bestb);
      stop, consumed' := false, consumed + [bestp];
    }

    /** The `maxtests` sum of `searchRange` (gumptionaire.c:325-332): the
        number of points in the cells of the w x h window with corner
        (x0, y0), that is, the length of the window laid end to end. */
    method MaxTests(x0: int, y0: int, w: int, h: int, ghost win: seq<seq<Point>>) returns (m: int)
      requires WindowLayout(win, gridsort, grid, rlen, x0, y0, w, h)
      ensures m == |Concat(win)|
    {
      m := 0;
      for a := 0 to w
        invariant m == TotalLen(win, a * h)
      {
        MulMono(a + 1, w, h);
        assert a * h + h == (a + 1) * h;
        for b := 0 to h
          invariant m == TotalLen(win, a * h + b)
        {
          SlotBounds(a, b, w, h);
          assert CellAt(win[Slot(a, b, h)], gridsort, grid, rlen, x0 + a, y0 + b);
          m := m + rlen[x0 + a][y0 + b];
        }
      }
      ConcatLength(win);
    }

    /** The slice scan of plans 1 and 5 of `searchRange`
        (gumptionaire.c:293-294 and 343-344): the selector over the
        smaller axis slice with the other axis's test. */
    method ScanSmaller(rect: Rect, count: nat, out: array<Point>, xl: int, xr: int, yl: int, yr: int)
      returns (n: nat)
      requires SortedCopies(xsort, ysort, points) && RanksNonNegative(points)
      requires IsAxisRange(xsort, X, rect.lx, rect.hx, xl, xr) && IsAxisRange(ysort, Y, rect.ly, rect.hy, yl, yr)
      requires count <= out.Length
      modifies out
      ensures n <= count
      ensures Answers(out[..n], points, rect, count)
      ensures out[n..] == old(out[n..])
    {
      if xr - xl + 1 < yr - yl + 1 {
        n := ScanSlice(xsort, X, rect, xl, xr, out, count, points);
      } else {
        n := ScanSlice(ysort, Y, rect, yl, yr, out, count, points);
      }
    }

    /** Plan 3 of `searchRange` (gumptionaire.c:319-321): `rangeHits` from
        the root of the tree over the axis with the smaller slice. */
    method TreeSearch(rect: Rect, count: nat, out: array<Point>, xl: int, xr: int, yl: int, yr: int)
      returns (hits: int)
      requires SortedCopies(xsort, ysort, points) && |points| == N
      requires RangeOk(xroot, 1, xsort, ysort, X, points) && xroot.l == 0 && xroot.r == N - 1
      requires RangeOk(yroot, 1, xsort, ysort, Y, points) && yroot.l == 0 && yroot.r == N - 1
      requires IsAxisRange(xsort, X, rect.lx, rect.hx, xl, xr) && IsAxisRange(ysort, Y, rect.ly, rect.hy, yl, yr)
      requires count <= out.Length
      modifies out
      ensures hits == count || hits < 0
      ensures hits == count ==> Answers(out[..count], points, rect, count)
    {
      CopiesLength(xsort, ysort, points);
      if xr - xl + 1 < yr - yl + 1 {
        hits := RangeHits(rect, xroot, xl, xr, count, out, 1, xsort, ysort, X, points);
      } else {
        hits := RangeHits(rect, yroot, yl, yr, count, out, 1, xsort, ysort, Y, points);
      }
    }

    /** Plan 2 of `searchRange` (gumptionaire.c:312-317): the window is
        the single cell (x0, y0), scanned in rank order with the query. The
        result answers the query over that cell. */
    method CellSearch(rect: Rect, count: nat, out: array<Point>, x0: int, y0: int) returns (n: nat)
      requires GridOk(grid, rlen, gridsort, bounds) && 0 <= x0 < DIVS && 0 <= y0 < DIVS
      requires count <= out.Length
      modifies out
      ensures n <= count
      ensures Answers(out[..n], Concat(Window(gridsort, grid, rlen, bounds, x0, y0, 1, 1)), rect, count)
      ensures out[n..] == old(out[n..])
    {
      var cell := Cell(gridsort, grid, rlen, bounds, x0, y0);
      n := FindHitsS(rect, cell, out, count);
      FindHitsSOfSortedAnswers(cell, rect, count, out[..n]);
      SingleWindowAnswers(out[..n], gridsort, grid, rlen, bounds, x0, y0, rect, count);
    }

    /** Plan 4 of `searchRange` (gumptionaire.c:335-340): the grid merge
        over the w x h window with corner (x0, y0). The result answers the
        query over the window's cells. */
    method WindowSearch(rect: Rect, count: nat, out: array<Point>, x0: int, y0: int, w: int, h: int)
      returns (n: nat)
      requires GridOk(grid, rlen, gridsort, bounds)
      requires 0 <= x0 && 0 <= y0 && 0 <= w && 0 <= h && x0 + w <= DIVS && y0 + h <= DIVS
      requires forall k :: 0 <= k < |gridsort| ==> gridsort[k].rank < RANKMAX
      requires blocki.Length == DIVS * DIVS && count <= out.Length
      modifies blocki, out
      ensures n <= count
      ensures Answers(out[..n], Concat(Window(gridsort, grid, rlen, bounds, x0, y0, w, h)), rect, count)
      ensures out[n..] == old(out[n..])
    {
      ghost var win := Window(gridsort, grid, rlen, bounds, x0, y0, w, h);
      WindowLayoutOk(gridsort, grid, rlen, bounds, x0, y0, w, h);
      WindowMergeable(gridsort, grid, rlen, bounds, x0, y0, w, h);
      MulMono(w, DIVS, h);
      MulMono(h, DIVS, DIVS);
      n := FindHitsB(rect, x0, y0, w, h, out, count, win);
      MergedAnswers(win, rect, count);
    }

    /**
     * `searchRange(sc, rect, count, out)` (gumptionaire.c:277-359), with
     * the grid window that lines 303-310 compute from the trimmed query
     * given as the corner (x0, y0) and the size w x h: the axis slices
     * are located, then the plan is chosen as Outcome describes, and the
     * query is trimmed to the grid bounds before plans 2 to 5.
     */
    method SearchRange(rect: Rect, count: nat, out: array<Point>, x0: int, y0: int, w: int, h: int)
      returns (n: nat, ghost plan: int)
      requires Valid() && N > 0
      requires 0 <= x0 && 0 <= y0 && 0 <= w && 0 <= h && x0 + w <= DIVS && y0 + h <= DIVS
      requires count <= out.Length
      modifies this`trim, blocki, out
      ensures n <= count && Outcome(rect, count, x0, y0, w, h, out[..n], plan)
      ensures plan >= 2 ==> trim == Trim(rect, bounds)
      ensures plan < 2 ==> trim == old(trim)
    {
      var xl, xr := AxisRange(xsort, X, rect.lx, rect.hx);
      var yl, yr := AxisRange(ysort, Y, rect.ly, rect.hy);
      if xr - xl + 1 == 0 || yr - yl + 1 == 0 || Min(xr - xl + 1, yr - yl + 1) < BINARYLIMIT {
        n, plan := SlicePlans(rect, count, out, x0, y0, w, h, xl, xr, yl, yr);
      } else {
        n, plan := GridPlans(rect, count, out, x0, y0, w, h, xl, xr, yl, yr);
      }
    }

    /** Plans 0 and 1 of `searchRange` (gumptionaire.c:285-294): no hits
        when an axis slice is empty, otherwise the slice scan. */
    method SlicePlans(rect: Rect, count: nat, out: array<Point>, x0: int, y0: int, w: int, h: int,
                      xl: int, xr: int, yl: int, yr: int)
      returns (n: nat, ghost plan: int)
      requires Valid() && N > 0
      requires 0 <= x0 && 0 <= y0 && 0 <= w && 0 <= h && x0 + w <= DIVS && y0 + h <= DIVS
      requires Located(xsort, ysort, rect, xl, xr, yl, yr)
      requires xr - xl + 1 == 0 || yr - yl + 1 == 0 || Min(xr - xl + 1, yr - yl + 1) < BINARYLIMIT
      requires count <= out.Length
      modifies out
      ensures plan < 2 && n <= count && Outcome(rect, count, x0, y0, w, h, out[..n], plan)
    {
      SliceCounts(xsort, ysort, rect, xl, xr, yl, yr);
      if xr - xl + 1 == 0 || yr - yl + 1 == 0 {
        n, plan := 0, 0;
        EmptyAnswers(out[..0], xsort, ysort, points, rect, count, xl, xr, yl, yr);
      } else {
        plan := 1;
        n := ScanSmaller(rect, count, out, xl, xr, yl, yr);
      }
    }

    /** Plans 2 to 5 of `searchRange` (gumptionaire.c:312-345), taken when
        both axis slices hold at least BINARYLIMIT points: the single-cell
        scan for a 1 x 1 window, otherwise the range tree, and when its
        buffer runs short the grid merge or the slice scan. */
    method GridPlans(rect: Rect, count: nat, out: array<Point>, x0: int, y0: int, w: int, h: int,
                     xl: int, xr: int, yl: int, yr: int) returns (n: nat, ghost plan: int)
      requires Valid() && N > 0
      requires 0 <= x0 && 0 <= y0 && 0 <= w && 0 <= h && x0 + w <= DIVS && y0 + h <= DIVS
      requires Located(xsort, ysort, rect, xl, xr, yl, yr)
      requires Min(xr - xl + 1, yr - yl + 1) >= BINARYLIMIT
      requires count <= out.Length
      modifies this`trim, blocki, out
      ensures 2 <= plan && n <= count && Outcome(rect, count, x0, y0, w, h, out[..n], plan)
      ensures trim == Trim(rect, bounds)
    {
      SliceCounts(xsort, ysort, rect, xl, xr, yl, yr);
      trim := Trim(rect, bounds);
      if w == 1 && h == 1 {
        plan := 2;
        n := CellSearch(rect, count, out, x0, y0);
        return;
      }
      plan := 3;
      var hits := TreeSearch(rect, count, out, xl, xr, yl, yr);
      if hits >= 0 {
        n := count;
        return;
      }
      n, plan := Fallback(rect, count, out, x0, y0, w, h, xl, xr, yl, yr);
    }

    /** Plans 4 and 5 of `searchRange` (gumptionaire.c:323-345), taken when
        the tree's buffer runs short: the grid merge when the window holds
        fewer points than the smaller slice, the slice scan otherwise. */
    method Fallback(rect: Rect, count: nat, out: array<Point>, x0: int, y0: int, w: int, h: int,
                    xl: int, xr: int, yl: int, yr: int) returns (n: nat, ghost plan: int)
      requires Valid() && N > 0
      requires 0 <= x0 && 0 <= y0 && 0 <= w && 0 <= h && x0 + w <= DIVS && y0 + h <= DIVS
      requires IsAxisRange(xsort, X, rect.lx, rect.hx, xl, xr) && IsAxisRange(ysort, Y, rect.ly, rect.hy, yl, yr)
      requires count <= out.Length
      modifies blocki, out
      ensures (plan == 4 || plan == 5) && n <= count
      ensures plan == 4 ==> Answers(out[..n], Concat(Window(gridsort, grid, rlen, bounds, x0, y0, w, h)), rect, count)
      ensures plan == 5 ==> Answers(out[..n], points, rect, count)
      ensures plan == 4 <==> |Concat(Window(gridsort, grid, rlen, bounds, x0, y0, w, h))| < Min(xr - xl + 1, yr - yl + 1)
    {
      ghost var win := Window(gridsort, grid, rlen, bounds, x0, y0, w, h);
      WindowLayoutOk(gridsort, grid, rlen, bounds, x0, y0, w, h);
      var maxtests := MaxTests(x0, y0, w, h, win);
      if maxtests < Min(xr - xl + 1, yr - yl + 1) {
        plan := 4;
        GridRanks(gridsort, points);
        n := WindowSearch(rect, count, out, x0, y0, w, h);
      } else {
        plan := 5;
        n := ScanSmaller(rect, count, out, xl, xr, yl, yr);
      }
    }

    /**
     * `search(sc, rect, count, out)` (gumptionaire.c:564-571): no hits
     * from an empty context, otherwise `searchRange` over the window
     * (x0, y0, w, h).
     */
    method Search(rect: Rect, count: nat, out: array<Point>, x0: int, y0: int, w: int, h: int)
      returns (n: nat, ghost plan: int)
      requires Valid()
      requires 0 <= x0 && 0 <= y0 && 0 <= w && 0 <= h && x0 + w <= DIVS && y0 + h <= DIVS
      requires count <= out.Length
      modifies this`trim, blocki, out
      ensures n <= count
      ensures N == 0 ==> n == 0 && plan == 0
      ensures plan != 2 && plan != 4 ==> Answers(out[..n], points, rect, count)
      ensures N > 0 && (plan == 2 || plan == 4) ==>
        Answers(out[..n], Concat(Window(gridsort, grid, rlen, bounds, x0, y0, w, h)), rect, count)
    {
      if N == 0 {
        n, plan := 0, 0;
        assert Hits(points, rect, Both) == [];
        return;
      }
      n, plan := SearchRange(rect, count, out, x0, y0, w, h);
    }
}

}

=== FILE: intersect.dfy ===
/**
 * `intersect` (gump.c:90-106; old.c:20-36 is the same code): sort two
 * candidate buffers by rank in place, then walk them with two cursors and
 * emit the points of the first buffer whose rank also occurs in the second.
 */
module RankIntersect {
  import opened Geometry
  import opened Ranking
  import opened Sorting

  /** The rank-intersection of a[i..] and b[j..] for rank-sorted sequences,
      as the two-cursor walk finds it from cursors i and j: equal ranks emit
      the point of `a` and advance both cursors, otherwise the cursor at the
      smaller rank advances. */
  function CommonFrom(a: seq<Point>, b: seq<Point>, i: nat, j: nat): seq<Point>
    requires i <= |a| && j <= |b|
    decreases |a| - i + |b| - j
  {
    if i == |a| || j == |b| then []
    else if a[i].rank < b[j].rank then CommonFrom(a, b, i + 1, j)
    else if b[j].rank < a[i].rank then CommonFrom(a, b, i, j + 1)
    else [a[i]] + CommonFrom(a, b, i + 1, j + 1)
  }

  /** The rank-intersection of two whole sequences. */
  function Common(a: seq<Point>, b: seq<Point>): seq<Point>
  {
    CommonFrom(a, b, 0, 0)
  }

  /** Some point of s[from..] has rank `r`. */
  predicate HasRankFrom(s: seq<Point>, from: nat, r: int)
  {
    exists k :: from <= k < |s| && s[k].rank == r
  }

  /** Some point of `s` has rank `r`. */
  predicate HasRank(s: seq<Point>, r: int)
  {
    HasRankFrom(s, 0, r)
  }

  lemma {:induction false} CommonFromLength(a: seq<Point>, b: seq<Point>, i: nat, j: nat)
    requires i <= |a| && j <= |b|
    ensures |CommonFrom(a, b, i, j)| <= Min(|a| - i, |b| - j)
    decreases |a| - i + |b| - j
  {
    if i == |a| || j == |b| {
    } else if a[i].rank < b[j].rank {
      CommonFromLength(a, b, i + 1, j);
    } else if b[j].rank < a[i].rank {
      CommonFromLength(a, b, i, j + 1);
    } else {
      CommonFromLength(a, b, i + 1, j + 1);
    }
  }

  /** The intersection is no longer than either input. */
  lemma CommonLength(a: seq<Point>, b: seq<Point>)
    ensures |Common(a, b)| <= Min(|a|, |b|)
  {
    CommonFromLength(a, b, 0, 0);
  }

  lemma {:induction false} CommonFromSound(a: seq<Point>, b: seq<Point>, i: nat, j: nat, x: Point)
    requires i <= |a| && j <= |b|
    requires x in CommonFrom(a, b, i, j)
    ensures x in a[i..] && HasRankFrom(b, j, x.rank)
    decreases |a| - i + |b| - j
  {
    if i == |a| || j == |b| {
    } else if a[i].rank < b[j].rank {
      CommonFromSound(a, b, i + 1, j, x);
      assert a[i + 1..] == a[i..][1..];
    } else if b[j].rank < a[i].rank {
      CommonFromSound(a, b, i, j + 1, x);
    } else if x != a[i] {
      CommonFromSound(a, b, i + 1, j + 1, x);
      assert a[i + 1..] == a[i..][1..];
    } else {
      assert a[i..][0] == x;
    }
  }

  /** Every emitted point comes from the first input, and its rank also
      occurs in the second. */
  lemma CommonSound(a: seq<Point>, b: seq<Point>, x: Point)
    requires x in Common(a, b)
    ensures x in a && HasRank(b, x.rank)
  {
    CommonFromSound(a, b, 0, 0, x);
    assert a[0..] == a;
  }

  lemma {:induction false} CommonFromComplete(a: seq<Point>, b: seq<Point>, i: nat, j: nat, r: int)
    requires i <= |a| && j <= |b|
    requires RankSorted(a) && RankSorted(b)
    requires HasRankFrom(a, i, r) && HasRankFrom(b, j, r)
    ensures HasRank(CommonFrom(a, b, i, j), r)
    decreases |a| - i + |b| - j
  {
    var k :| i <= k < |a| && a[k].rank == r;
    var m :| j <= m < |b| && b[m].rank == r;
    if a[i].rank < b[j].rank {
      assert k > i;
      CommonFromComplete(a, b, i + 1, j, r);
    } else if b[j].rank < a[i].rank {
      assert m > j;
      CommonFromComplete(a, b, i, j + 1, r);
    } else if a[i].rank == r {
      assert CommonFrom(a, b, i, j)[0].rank == r;
    } else {
      assert k > i && m > j;
      CommonFromComplete(a, b, i + 1, j + 1, r);
      var rest := CommonFrom(a, b, i + 1, j + 1);
      var t :| 0 <= t < |rest| && rest[t].rank == r;
      assert CommonFrom(a, b, i, j)[t + 1].rank == r;
    }
  }

  /** On rank-sorted inputs, every rank occurring in both inputs is emitted. */
  lemma CommonComplete(a: seq<Point>, b: seq<Point>, r: int)
    requires RankSorted(a) && RankSorted(b)
    requires HasRank(a, r) && HasRank(b, r)
    ensures HasRank(Common(a, b), r)
  {
    CommonFromComplete(a, b, 0, 0, r);
  }

  /** From cursors i and j the walk emits ranks in ascending order, none
      below the rank under cursor i. */
  lemma {:induction false} CommonFromSorted(a: seq<Point>, b: seq<Point>, i: nat, j: nat)
    requires i <= |a| && j <= |b|
    requires RankSorted(a) && RankSorted(b)
    ensures RankSorted(CommonFrom(a, b, i, j))
    ensures i < |a| ==> forall x :: x in CommonFrom(a, b, i, j) ==> a[i].rank <= x.rank
    decreases |a| - i + |b| - j
  {
    if i == |a| || j == |b| {
    } else if a[i].rank < b[j].rank {
      CommonFromSorted(a, b, i + 1, j);
      if i + 1 < |a| {
        assert a[i].rank <= a[i + 1].rank;
      }
    } else if b[j].rank < a[i].rank {
      CommonFromSorted(a, b, i, j + 1);
    } else {
      var rest := CommonFrom(a, b, i + 1, j + 1);
      CommonFromSorted(a, b, i + 1, j + 1);
      if i + 1 < |a| {
        assert a[i].rank <= a[i + 1].rank;
      }
      forall x | x in rest ensures a[i].rank <= x.rank {
        CommonFromSound(a, b, i + 1, j + 1, x);
      }
      var c := CommonFrom(a, b, i, j);
      forall t, u | 0 <= t < u < |c| ensures c[t].rank <= c[u].rank {
        assert c[u] == rest[u - 1];
        if t > 0 {
          assert c[t] == rest[t - 1];
        }
      }
    }
  }

  /** On rank-sorted inputs the emitted points ascend by rank. */
  lemma CommonSorted(a: seq<Point>, b: seq<Point>)
    requires RankSorted(a) && RankSorted(b)
    ensures RankSorted(Common(a, b))
  {
    CommonFromSorted(a, b, 0, 0);
  }

  /** How many points `intersect` emits before stopping: `max` of them, but
      the test `n >= max` comes after a write, so a `max` of zero or less
      still lets the first common point through. */
  function Cap(max: int): nat
  {
    if max >= 1 then max else 1
  }

  /**
   * `intersect(p1, p2, n1, n2, max, out)`. Both input prefixes are left
   * sorted by rank; the output is the rank-intersection, cut after
   * Cap(max) points; nothing past it in `out` is touched.
   */
  method Intersect(p1: array<Point>, p2: array<Point>, n1: nat, n2: nat, max: int, out: array<Point>)
    returns (n: nat)
    requires n1 <= p1.Length && n2 <= p2.Length
    requires Min(n1, n2) <= out.Length
    requires p1 != p2 && p1 != out && p2 != out
    modifies p1, p2, out
    ensures n <= Min(n1, n2)
    ensures p1[..n1] == Sort(old(p1[..n1]), ByRank) && p1[n1..] == old(p1[n1..])
    ensures p2[..n2] == Sort(old(p2[..n2]), ByRank) && p2[n2..] == old(p2[n2..])
    ensures out[..n] == Take(Common(p1[..n1], p2[..n2]), Cap(max))
    ensures out[n..] == old(out[n..])
  {
    SortSegment(p1, 0, n1, ByRank);
    ghost var sorted1 := p1[..];
    SortSegment(p2, 0, n2, ByRank);
    assert p1[..] == sorted1;
    n := Walk(p1, p2, n1, n2, max, out);
  }

  /** The two-cursor walk of `intersect` over the sorted prefixes. */
  method Walk(p1: array<Point>, p2: array<Point>, n1: nat, n2: nat, max: int, out: array<Point>)
    returns (n: nat)
    requires n1 <= p1.Length && n2 <= p2.Length
    requires Min(n1, n2) <= out.Length
    requires p1 != out && p2 != out
    modifies out
    ensures n <= Min(n1, n2)
    ensures out[..n] == Take(Common(p1[..n1], p2[..n2]), Cap(max))
    ensures out[n..] == old(out[n..])
  {
    ghost var a, b := p1[..n1], p2[..n2];
    var i, j := 0, 0;
    n := 0;
    while i < n1 && j < n2
      invariant 0 <= i <= n1 && 0 <= j <= n2
      invariant n < Cap(max) && n <= Min(i, j)
      invariant Common(a, b) == out[..n] + CommonFrom(a, b, i, j)
      invariant forall k :: n <= k < out.Length ==> out[k] == old(out[k])
      decreases n1 - i + n2 - j
    {
      var p, q := p1[i], p2[j];
      if p.rank < q.rank {
        i := i + 1;
      } else if q.rank < p.rank {
        j := j + 1;
      } else {
        ghost var emitted := out[..n];
        out[n] := p;
        assert out[..n + 1] == emitted + [p];
        i, j, n := i + 1, j + 1, n + 1;
        if n >= max {
          TakeDone(out[..n], CommonFrom(a, b, i, j), Cap(max));
          assert out[n..] == old(out[n..]);
          return;
        }
      }
    }
    TakeDone(out[..n], CommonFrom(a, b, i, j), Cap(max));
    assert out[n..] == old(out[n..]);
  }
}

=== FILE: merge.dfy ===
/**
 * The rank merges: several rank-sorted candidate buffers, one cursor each,
 * emitting the smallest front rank at every step. `findHitsB`
 * (gumptionaire.c:195-231) takes the FIRST buffer holding the smallest
 * front; the tree merges (gumption.c:289-305, old.c:63-84 and
 * old.c:157-178) only take a buffer whose front is STRICTLY smaller than
 * every other front. An exhausted buffer reads as the sentinel RANKMAX.
 */
module Merge {
  import opened Geometry
  import opened Ranking
  import opened Wrappers

  /** The sentinel rank of an exhausted buffer (gumption.c:12,
      gumptionaire.c:22); real ranks are assumed to lie below it. */
  const RANKMAX: int := 100000000

  /** One cursor per buffer, each within its buffer. */
  predicate CursorsOk(src: seq<seq<Point>>, cur: seq<int>)
  {
    |cur| == |src| && forall s :: 0 <= s < |src| ==> 0 <= cur[s] <= |src[s]|
  }

  /** Every buffer is rank-sorted. */
  predicate AllSorted(src: seq<seq<Point>>)
  {
    forall s :: 0 <= s < |src| ==> RankSorted(src[s])
  }

  /** Every rank lies below the sentinel. */
  predicate RanksBelowMax(src: seq<seq<Point>>)
  {
    forall s, k :: 0 <= s < |src| && 0 <= k < |src[s]| ==> src[s][k].rank < RANKMAX
  }

  /** The rank under cursor `s`, or RANKMAX once the buffer is used up. */
  function Front(src: seq<seq<Point>>, cur: seq<int>, s: int): int
    requires CursorsOk(src, cur) && 0 <= s < |src|
  {
    if cur[s] < |src[s]| then src[s][cur[s]].rank else RANKMAX
  }

  /**
   * The minimum search of `findHitsB` (gumptionaire.c:200-216) over the
   * buffers before `upto`: the pair (minrank, index) after skipping used-up
   * buffers and replacing the minimum only on a strictly smaller rank. The
   * index is the FIRST buffer holding the smallest front, or -1 when no
   * front lies below RANKMAX.
   */
  function ScanMin(src: seq<seq<Point>>, cur: seq<int>, upto: nat): (r: (int, int))
    requires CursorsOk(src, cur) && upto <= |src|
    ensures -1 <= r.1 < upto
    ensures r.1 == -1 ==> r.0 == RANKMAX
    ensures r.1 >= 0 ==> cur[r.1] < |src[r.1]| && r.0 == src[r.1][cur[r.1]].rank < RANKMAX
  {
    if upto == 0 then (RANKMAX, -1)
    else
      var prev := ScanMin(src, cur, upto - 1);
      var s := upto - 1;
      if cur[s] < |src[s]| && src[s][cur[s]].rank < prev.0 then (src[s][cur[s]].rank, s) else prev
  }

  /** What the scan finds: no live front below RANKMAX when it finds
      nothing; otherwise a front no larger than any other live front and
      strictly smaller than every live front before it. */
  lemma {:induction false} ScanMinSpec(src: seq<seq<Point>>, cur: seq<int>, upto: nat)
    requires CursorsOk(src, cur) && upto <= |src|
    ensures ScanMin(src, cur, upto).1 == -1 ==>
      forall s :: 0 <= s < upto && cur[s] < |src[s]| ==> src[s][cur[s]].rank >= RANKMAX
    ensures forall s :: 0 <= s < upto && cur[s] < |src[s]| ==> ScanMin(src, cur, upto).0 <= src[s][cur[s]].rank
    ensures forall s :: 0 <= s < ScanMin(src, cur, upto).1 && cur[s] < |src[s]| ==>
      ScanMin(src, cur, upto).0 < src[s][cur[s]].rank
  {
    if upto > 0 {
      ScanMinSpec(src, cur, upto - 1);
    }
  }

  /** The buffer the first-minimum rule advances, or -1 when none is left. */
  function Pick(src: seq<seq<Point>>, cur: seq<int>): int
    requires CursorsOk(src, cur)
  {
    ScanMin(src, cur, |src|).1
  }

  /** What is left in buffers s, s+1, ... from their cursors on. */
  function RestFrom(src: seq<seq<Point>>, cur: seq<int>, s: nat): seq<Point>
    requires CursorsOk(src, cur) && s <= |src|
    decreases |src| - s
  {
    if s == |src| then [] else src[s][cur[s]..] + RestFrom(src, cur, s + 1)
  }

  /** What is left in all buffers. */
  function Rest(src: seq<seq<Point>>, cur: seq<int>): seq<Point>
    requires CursorsOk(src, cur)
  {
    RestFrom(src, cur, 0)
  }

  /** Cursors at the start of every buffer. */
  function Start(src: seq<seq<Point>>): (cur: seq<int>)
    ensures CursorsOk(src, cur)
  {
    seq(|src|, _ => 0)
  }

  /** All buffers laid end to end. */
  function Concat(src: seq<seq<Point>>): seq<Point>
  {
    Rest(src, Start(src))
  }

  /** Advancing buffer m's cursor. */
  function Advance(src: seq<seq<Point>>, cur: seq<int>, m: int): (cur': seq<int>)
    requires CursorsOk(src, cur) && 0 <= m < |src| && cur[m] < |src[m]|
    ensures CursorsOk(src, cur')
  {
    cur[m := cur[m] + 1]
  }

  /** What is left from buffer `s` on, split at buffer `s`. */
  lemma RestFromUnfold(src: seq<seq<Point>>, cur: seq<int>, s: nat)
    requires CursorsOk(src, cur) && s < |src|
    ensures RestFrom(src, cur, s) == src[s][cur[s]..] + RestFrom(src, cur, s + 1)
  {
  }

  lemma {:induction false} RestFromAdvanceLength(src: seq<seq<Point>>, cur: seq<int>, m: int, s: nat)
    requires CursorsOk(src, cur) && 0 <= m < |src| && cur[m] < |src[m]| && s <= |src|
    ensures |RestFrom(src, Advance(src, cur, m), s)| == |RestFrom(src, cur, s)| - (if s <= m then 1 else 0)
    decreases |src| - s
  {
    if s < |src| {
      var cur' := Advance(src, cur, m);
      RestFromAdvanceLength(src, cur, m, s + 1);
      RestFromUnfold(src, cur, s);
      RestFromUnfold(src, cur', s);
    }
  }

  /** Buffers past m are unaffected by advancing cursor m. */
  lemma {:induction false} RestFromAfter(src: seq<seq<Point>>, cur: seq<int>, m: int, s: nat)
    requires CursorsOk(src, cur) && 0 <= m < |src| && cur[m] < |src[m]| && m < s <= |src|
    ensures RestFrom(src, Advance(src, cur, m), s) == RestFrom(src, cur, s)
    decreases |src| - s
  {
    if s < |src| {
      RestFromAfter(src, cur, m, s + 1);
      RestFromUnfold(src, cur, s);
      RestFromUnfold(src, Advance(src, cur, m), s);
    }
  }

  /** At buffer m itself, advancing moves the front point out. */
  lemma RestFromAdvanceAt(src: seq<seq<Point>>, cur: seq<int>, m: int)
    requires CursorsOk(src, cur) && 0 <= m < |src| && cur[m] < |src[m]|
    ensures RestFrom(src, cur, m) == [src[m][cur[m]]] + RestFrom(src, Advance(src, cur, m), m)
  {
    var cur' := Advance(src, cur, m);
    RestFromUnfold(src, cur, m);
    RestFromUnfold(src, cur', m);
    RestFromAfter(src, cur, m, m + 1);
    assert src[m][cur[m]..] == [src[m][cur[m]]] + src[m][cur'[m]..];
  }

  lemma {:induction false} RestFromAdvance(src: seq<seq<Point>>, cur: seq<int>, m: int, s: nat)
    requires CursorsOk(src, cur) && 0 <= m < |src| && cur[m] < |src[m]| && s <= m
    ensures multiset(RestFrom(src, cur, s)) == multiset(RestFrom(src, Advance(src, cur, m), s)) + multiset{src[m][cur[m]]}
    decreases |src| - s
  {
    if s == m {
      RestFromAdvanceAt(src, cur, m);
    } else {
      var cur' := Advance(src, cur, m);
      RestFromAdvance(src, cur, m, s + 1);
      RestFromUnfold(src, cur, s);
      RestFromUnfold(src, cur', s);
      assert cur'[s] == cur[s];
    }
  }

  /** Advancing a cursor moves exactly the point under it out of what is
      left. */
  lemma RestAdvance(src: seq<seq<Point>>, cur: seq<int>, m: int)
    requires CursorsOk(src, cur) && 0 <= m < |src| && cur[m] < |src[m]|
    ensures |Rest(src, Advance(src, cur, m))| == |Rest(src, cur)| - 1
    ensures multiset(Rest(src, cur)) == multiset(Rest(src, Advance(src, cur, m))) + multiset{src[m][cur[m]]}
  {
    RestFromAdvanceLength(src, cur, m, 0);
    RestFromAdvance(src, cur, m, 0);
  }

  /**
   * The sequence the first-minimum merge emits from cursors `cur` on: the
   * point under the picked cursor, then the merge after advancing it,
   * until no buffer has a front below RANKMAX.
   */
  function MergeFrom(src: seq<seq<Point>>, cur: seq<int>): seq<Point>
    requires CursorsOk(src, cur)
    decreases |Rest(src, cur)|
  {
    var m := Pick(src, cur);
    if m < 0 then []
    else
      RestAdvance(src, cur, m);
      [src[m][cur[m]]] + MergeFrom(src, Advance(src, cur, m))
  }

  /** The whole first-minimum merge. */
  function Merged(src: seq<seq<Point>>): seq<Point>
  {
    MergeFrom(src, Start(src))
  }

  /** With every rank below RANKMAX, the scan finds nothing only when every
      buffer is used up, and then nothing is left. */
  lemma {:induction false} NothingLeft(src: seq<seq<Point>>, cur: seq<int>, s: nat)
    requires CursorsOk(src, cur) && RanksBelowMax(src) && s <= |src|
    requires Pick(src, cur) < 0
    ensures RestFrom(src, cur, s) == []
    decreases |src| - s
  {
    ScanMinSpec(src, cur, |src|);
    if s < |src| {
      NothingLeft(src, cur, s + 1);
    }
  }

  /** The merge emits every point left in the buffers, each exactly as
      often as it occurs there. */
  lemma {:induction false} MergePermutation(src: seq<seq<Point>>, cur: seq<int>)
    requires CursorsOk(src, cur) && RanksBelowMax(src)
    ensures multiset(MergeFrom(src, cur)) == multiset(Rest(src, cur))
    decreases |Rest(src, cur)|
  {
    var m := Pick(src, cur);
    if m < 0 {
      NothingLeft(src, cur, 0);
    } else {
      RestAdvance(src, cur, m);
      MergePermutation(src, Advance(src, cur, m));
    }
  }

  /** Nothing left in a sorted buffer ranks below its front. */
  lemma {:induction false} RestAboveFronts(src: seq<seq<Point>>, cur: seq<int>, s: nat, r: int)
    requires CursorsOk(src, cur) && AllSorted(src) && s <= |src|
    requires forall t :: s <= t < |src| && cur[t] < |src[t]| ==> r <= src[t][cur[t]].rank
    ensures forall x :: x in RestFrom(src, cur, s) ==> r <= x.rank
    decreases |src| - s
  {
    if s < |src| {
      RestAboveFronts(src, cur, s + 1, r);
      forall x | x in src[s][cur[s]..] ensures r <= x.rank {
        var k :| cur[s] <= k < |src[s]| && src[s][k] == x;
        assert src[s][cur[s]].rank <= src[s][k].rank;
      }
    }
  }

  /** Everything the merge emits was left in the buffers. */
  lemma {:induction false} MergeFromRest(src: seq<seq<Point>>, cur: seq<int>, x: Point)
    requires CursorsOk(src, cur)
    requires x in MergeFrom(src, cur)
    ensures x in Rest(src, cur)
    decreases |Rest(src, cur)|
  {
    var m := Pick(src, cur);
    RestAdvance(src, cur, m);
    var cur' := Advance(src, cur, m);
    if x == src[m][cur[m]] {
      assert x in multiset(Rest(src, cur));
    } else {
      MergeFromRest(src, cur', x);
      assert x in multiset(Rest(src, cur'));
      assert x in multiset(Rest(src, cur));
    }
  }

  /** Over rank-sorted buffers the merge emits ranks in ascending order. */
  lemma {:induction false} MergeSorted(src: seq<seq<Point>>, cur: seq<int>)
    requires CursorsOk(src, cur) && AllSorted(src)
    ensures RankSorted(MergeFrom(src, cur))
    decreases |Rest(src, cur)|
  {
    var m := Pick(src, cur);
    if m >= 0 {
      var head := src[m][cur[m]];
      var cur' := Advance(src, cur, m);
      RestAdvance(src, cur, m);
      ScanMinSpec(src, cur, |src|);
      MergeSorted(src, cur');
      var tail := MergeFrom(src, cur');
      assert forall t :: 0 <= t < |src| && cur'[t] < |src[t]| ==> head.rank <= src[t][cur'[t]].rank by {
        forall t | 0 <= t < |src| && cur'[t] < |src[t]| ensures head.rank <= src[t][cur'[t]].rank {
          if t == m {
            assert src[m][cur[m]].rank <= src[m][cur[m] + 1].rank;
          }
        }
      }
      RestAboveFronts(src, cur', 0, head.rank);
      forall x | x in tail ensures head.rank <= x.rank {
        MergeFromRest(src, cur', x);
      }
      assert MergeFrom(src, cur) == [head] + tail;
    }
  }

  /** The first-minimum merge of rank-sorted buffers is their union in
      ascending rank order. */
  lemma MergedIsSortedUnion(src: seq<seq<Point>>)
    requires AllSorted(src) && RanksBelowMax(src)
    ensures RankSorted(Merged(src))
    ensures multiset(Merged(src)) == multiset(Concat(src))
  {
    MergeSorted(src, Start(src));
    MergePermutation(src, Start(src));
  }

  /** How many buffers before `upto` are used up: the `fin` count of
      `findHitsB` (gumptionaire.c:206, 219). */
  function Done(src: seq<seq<Point>>, cur: seq<int>, upto: nat): (d: nat)
    requires CursorsOk(src, cur) && upto <= |src|
    ensures d <= upto
  {
    if upto == 0 then 0
    else Done(src, cur, upto - 1) + (if cur[upto - 1] >= |src[upto - 1]| then 1 else 0)
  }

  /** The count reaches `upto` exactly when every buffer before it is used up. */
  lemma {:induction false} DoneAll(src: seq<seq<Point>>, cur: seq<int>, upto: nat)
    requires CursorsOk(src, cur) && upto <= |src|
    ensures Done(src, cur, upto) == upto <==> forall s :: 0 <= s < upto ==> cur[s] == |src[s]|
  {
    if upto > 0 {
      DoneAll(src, cur, upto - 1);
    }
  }

  /** With every rank below RANKMAX, the minimum search finds nothing
      exactly when every buffer is used up: the exit test `fin == w*h` of
      `findHitsB` is the test that nothing is left to pick. */
  lemma PickNone(src: seq<seq<Point>>, cur: seq<int>)
    requires CursorsOk(src, cur) && RanksBelowMax(src)
    ensures Pick(src, cur) < 0 <==> Done(src, cur, |src|) == |src|
  {
    ScanMinSpec(src, cur, |src|);
    DoneAll(src, cur, |src|);
  }

  /** The total length of the buffers before `upto`. */
  function TotalLen(src: seq<seq<Point>>, upto: nat): nat
    requires upto <= |src|
  {
    if upto == 0 then 0 else TotalLen(src, upto - 1) + |src[upto - 1]|
  }

  lemma {:induction false} RestFromLength(src: seq<seq<Point>>, s: nat)
    requires s <= |src|
    ensures |RestFrom(src, Start(src), s)| + TotalLen(src, s) == TotalLen(src, |src|)
    decreases |src| - s
  {
    if s < |src| {
      RestFromLength(src, s + 1);
      assert Start(src)[s] == 0;
    }
  }

  /** The buffers laid end to end hold as many points as their lengths add
      up to. */
  lemma ConcatLength(src: seq<seq<Point>>)
    ensures |Concat(src)| == TotalLen(src, |src|)
  {
    RestFromLength(src, 0);
  }

  /** A single buffer laid end to end is itself. */
  lemma ConcatSingle(c: seq<Point>)
    ensures Concat([c]) == c
  {
    assert Start([c])[0] == 0;
    assert RestFrom([c], Start([c]), 1) == [];
    assert c[0..] == c;
  }

  // ---------------------------------------------------------------------
  // The tree merges as written: strict comparison against every other front.

  /** The buffer whose front is strictly below every other front, searched
      from `s` on (the if/else-if chain at gumption.c:299-302); -1 when two
      or more buffers tie for the smallest front. */
  function StrictPickFrom(src: seq<seq<Point>>, cur: seq<int>, s: nat): (m: int)
    requires CursorsOk(src, cur) && s <= |src|
    ensures m == -1 || s <= m < |src|
    decreases |src| - s
  {
    if s == |src| then -1
    else if forall t :: 0 <= t < |src| && t != s ==> Front(src, cur, s) < Front(src, cur, t) then s
    else StrictPickFrom(src, cur, s + 1)
  }

  /** Every buffer reads RANKMAX: the loop's `break`. */
  predicate AllDone(src: seq<seq<Point>>, cur: seq<int>)
    requires CursorsOk(src, cur)
  {
    forall s :: 0 <= s < |src| ==> Front(src, cur, s) == RANKMAX
  }

  /**
   * The merge loop of `treeHits` (gumption.c:289-305) as written, with
   * `room` iterations left before `hits` reaches `count`: each iteration
   * counts one output slot; it holds Some(p) when a buffer's front was
   * strictly smallest (and that cursor advanced) and None when the
   * smallest front was tied, in which case nothing is written and no
   * cursor moves.
   */
  function StrictMerge(src: seq<seq<Point>>, cur: seq<int>, room: nat): seq<Option<Point>>
    requires CursorsOk(src, cur)
    decreases room
  {
    if room == 0 || AllDone(src, cur) then []
    else
      var m := StrictPickFrom(src, cur, 0);
      if m < 0 then [None] + StrictMerge(src, cur, room - 1)
      else if cur[m] < |src[m]| then [Some(src[m][cur[m]])] + StrictMerge(src, Advance(src, cur, m), room - 1)
      else [None] + StrictMerge(src, cur, room - 1)
  }

  /** When no other front ties the smallest one, the strict rule picks the
      same buffer as the first-minimum rule: with pairwise-distinct fronts
      each step copies the minimum and advances only that cursor. */
  lemma StrictPicksMinimum(src: seq<seq<Point>>, cur: seq<int>)
    requires CursorsOk(src, cur) && RanksBelowMax(src)
    requires Pick(src, cur) >= 0
    requires forall t :: 0 <= t < |src| && t != Pick(src, cur) ==> Front(src, cur, Pick(src, cur)) < Front(src, cur, t)
    ensures StrictPickFrom(src, cur, 0) == Pick(src, cur)
  {
    var m := Pick(src, cur);
    StrictPickSkips(src, cur, 0, m);
  }

  lemma {:induction false} StrictPickSkips(src: seq<seq<Point>>, cur: seq<int>, s: nat, m: int)
    requires CursorsOk(src, cur) && s <= m < |src|
    requires forall t :: 0 <= t < |src| && t != m ==> Front(src, cur, m) < Front(src, cur, t)
    ensures StrictPickFrom(src, cur, s) == m
    decreases m - s
  {
    if s < m {
      assert Front(src, cur, m) < Front(src, cur, s);
      StrictPickSkips(src, cur, s + 1, m);
    }
  }

  /** Four child buffers of which the first two have fronts of equal rank:
      the same point on the line between two corner children of
      gumption.c:385-388 (q == q'), or two points of equal rank in two
      quadrants of old.c:289-292. The tie is never broken, so with count 2
      both slots are counted and neither is written, where the
      first-minimum merge emits both fronts. */
  lemma StrictMergeTie(q: Point, q': Point)
    requires 0 <= q.rank < RANKMAX && q'.rank == q.rank
    ensures StrictMerge([[q], [q'], [], []], [0, 0, 0, 0], 2) == [None, None]
    ensures Merged([[q], [q'], [], []]) == [q, q']
  {
    var src := [[q], [q'], [], []];
    var cur := [0, 0, 0, 0];
    assert Front(src, cur, 0) == Front(src, cur, 1) == q.rank;
    assert Front(src, cur, 2) == Front(src, cur, 3) == RANKMAX;
    assert StrictPickFrom(src, cur, 4) == -1;
    assert StrictPickFrom(src, cur, 3) == -1;
    assert StrictPickFrom(src, cur, 2) == -1;
    assert StrictPickFrom(src, cur, 1) == -1;
    assert StrictPickFrom(src, cur, 0) == -1;
    assert !AllDone(src, cur);
    assert StrictMerge(src, cur, 0) == [];
    assert StrictMerge(src, cur, 1) == [None];
    var c1 := [1, 0, 0, 0];
    var c2 := [1, 1, 0, 0];
    assert Start(src) == cur;
    assert ScanMin(src, cur, 1) == (q.rank, 0);
    assert ScanMin(src, cur, 2) == (q.rank, 0);
    assert ScanMin(src, cur, 3) == (q.rank, 0);
    assert Pick(src, cur) == 0;
    assert Advance(src, cur, 0) == c1;
    assert ScanMin(src, c1, 1) == (RANKMAX, -1);
    assert ScanMin(src, c1, 2) == (q.rank, 1);
    assert ScanMin(src, c1, 3) == (q.rank, 1);
    assert Pick(src, c1) == 1;
    assert Advance(src, c1, 1) == c2;
    assert ScanMin(src, c2, 1) == (RANKMAX, -1);
    assert ScanMin(src, c2, 2) == (RANKMAX, -1);
    assert ScanMin(src, c2, 3) == (RANKMAX, -1);
    assert Pick(src, c2) == -1;
    assert MergeFrom(src, c2) == [];
    assert MergeFrom(src, c1) == [q'];
    assert MergeFrom(src, cur) == [q, q'];
  }

  /** Once the smallest front is tied, the strict chain never breaks the
      tie: no cursor moves, so every remaining iteration counts a slot and
      writes nothing. The loops of old.c:70-84 and old.c:160-176 run on this
      way until MAXRESLEN slots are counted. */
  lemma {:induction false} StrictMergeStalls(src: seq<seq<Point>>, cur: seq<int>, room: nat)
    requires CursorsOk(src, cur) && !AllDone(src, cur) && StrictPickFrom(src, cur, 0) == -1
    ensures |StrictMerge(src, cur, room)| == room
    ensures forall k :: 0 <= k < room ==> StrictMerge(src, cur, room)[k] == None
  {
    if room > 0 {
      StrictMergeStalls(src, cur, room - 1);
    }
  }

  /** The five-way merge of `searchTreeA` (old.c:160-176) when a point q of
      the tree's result and a point q' of the left leftover buffer have the
      same rank: every one of the `room` slots is counted and none is
      written, where the first-minimum merge emits both and the
      repeated-rank skip keeps q. */
  lemma StrictTreeTie(q: Point, q': Point, room: nat)
    requires 0 <= q.rank < RANKMAX && q'.rank == q.rank
    ensures |StrictMerge([[q], [q'], [], [], []], [0, 0, 0, 0, 0], room)| == room
    ensures forall k :: 0 <= k < room ==> StrictMerge([[q], [q'], [], [], []], [0, 0, 0, 0, 0], room)[k] == None
    ensures Merged([[q], [q'], [], [], []]) == [q, q']
    ensures Dedup(Merged([[q], [q'], [], [], []])) == [q]
  {
    var src := [[q], [q'], [], [], []];
    var cur := [0, 0, 0, 0, 0];
    assert Front(src, cur, 0) == Front(src, cur, 1) == q.rank;
    assert Front(src, cur, 2) == Front(src, cur, 3) == Front(src, cur, 4) == RANKMAX;
    assert StrictPickFrom(src, cur, 5) == -1;
    assert StrictPickFrom(src, cur, 4) == -1;
    assert StrictPickFrom(src, cur, 3) == -1;
    assert StrictPickFrom(src, cur, 2) == -1;
    assert StrictPickFrom(src, cur, 1) == -1;
    assert StrictPickFrom(src, cur, 0) == -1;
    assert !AllDone(src, cur);
    StrictMergeStalls(src, cur, room);
    var c1 := [1, 0, 0, 0, 0];
    var c2 := [1, 1, 0, 0, 0];
    assert Start(src) == cur;
    assert ScanMin(src, cur, 1) == (q.rank, 0);
    assert ScanMin(src, cur, 2) == (q.rank, 0);
    assert ScanMin(src, cur, 3) == (q.rank, 0);
    assert ScanMin(src, cur, 4) == (q.rank, 0);
    assert Pick(src, cur) == 0;
    assert Advance(src, cur, 0) == c1;
    assert ScanMin(src, c1, 1) == (RANKMAX, -1);
    assert ScanMin(src, c1, 2) == (q.rank, 1);
    assert ScanMin(src, c1, 3) == (q.rank, 1);
    assert ScanMin(src, c1, 4) == (q.rank, 1);
    assert Pick(src, c1) == 1;
    assert Advance(src, c1, 1) == c2;
    assert ScanMin(src, c2, 1) == (RANKMAX, -1);
    assert ScanMin(src, c2, 2) == (RANKMAX, -1);
    assert ScanMin(src, c2, 3) == (RANKMAX, -1);
    assert ScanMin(src, c2, 4) == (RANKMAX, -1);
    assert Pick(src, c2) == -1;
    assert MergeFrom(src, c2) == [];
    assert MergeFrom(src, c1) == [q'];
    assert MergeFrom(src, cur) == [q, q'];
    assert DedupUpTo([q, q'], 1) == [q];
    assert DedupUpTo([q, q'], 2) == [q];
  }

  // ---------------------------------------------------------------------
  // Dropping repeated ranks from a merged stream.

  /** s[..n] with every element whose rank repeats the one before it
      dropped. */
  function DedupUpTo(s: seq<Point>, n: nat): (d: seq<Point>)
    requires n <= |s|
    ensures |d| <= n
  {
    if n == 0 then []
    else DedupUpTo(s, n - 1) + (if n == 1 || s[n - 1].rank != s[n - 2].rank then [s[n - 1]] else [])
  }

  function Dedup(s: seq<Point>): (d: seq<Point>)
    ensures |d| <= |s|
  {
    DedupUpTo(s, |s|)
  }

  lemma {:induction false} DedupUpToAgree(s: seq<Point>, u: seq<Point>, n: nat)
    requires n <= |s| && n <= |u| && s[..n] == u[..n]
    ensures DedupUpTo(s, n) == DedupUpTo(u, n)
  {
    if n > 0 {
      assert s[..n - 1] == s[..n][..n - 1] && u[..n - 1] == u[..n][..n - 1];
      assert s[n - 1] == s[..n][n - 1] && u[n - 1] == u[..n][n - 1];
      if n > 1 {
        assert s[n - 2] == s[..n][n - 2] && u[n - 2] == u[..n][n - 2];
      }
      DedupUpToAgree(s, u, n - 1);
    }
  }

  /** Extending the stream by one point extends the deduplicated stream by
      that point unless its rank repeats the last one. */
  lemma DedupAppend(s: seq<Point>, p: Point)
    ensures Dedup(s + [p]) == Dedup(s) + (if s == [] || p.rank != s[|s| - 1].rank then [p] else [])
  {
    DedupUpToAgree(s + [p], s, |s|);
    assert (s + [p])[|s|] == p;
    if s != [] {
      assert (s + [p])[|s| - 1] == s[|s| - 1];
    }
  }

  /** The deduplicated stream of a prefix is a prefix of the deduplicated
      stream. */
  lemma {:induction false} DedupPrefix(s: seq<Point>, t: seq<Point>)
    ensures Dedup(s) <= Dedup(s + t)
    decreases |t|
  {
    if t == [] {
      assert s + t == s;
    } else {
      var w := t[..|t| - 1];
      var p := t[|t| - 1];
      assert s + t == (s + w) + [p];
      DedupPrefix(s, w);
      DedupAppend(s + w, p);
    }
  }

  /** Every kept element comes from the stream. */
  lemma {:induction false} DedupMember(s: seq<Point>, n: nat, x: Point)
    requires n <= |s| && x in DedupUpTo(s, n)
    ensures x in s[..n]
  {
    if x !in DedupUpTo(s, n - 1) {
      assert x == s[n - 1];
    } else {
      DedupMember(s, n - 1, x);
      assert s[..n - 1] == s[..n][..n - 1];
    }
  }

  /** Deduplicating a rank-sorted stream leaves strictly ascending ranks,
      the last of them the rank of the stream's last element. */
  lemma {:induction false} DedupAscending(s: seq<Point>, n: nat)
    requires n <= |s| && RankSorted(s)
    ensures forall i, j :: 0 <= i < j < |DedupUpTo(s, n)| ==> DedupUpTo(s, n)[i].rank < DedupUpTo(s, n)[j].rank
    ensures n > 0 ==> |DedupUpTo(s, n)| > 0 && DedupUpTo(s, n)[|DedupUpTo(s, n)| - 1].rank == s[n - 1].rank
  {
    if n > 0 {
      DedupAscending(s, n - 1);
      var d := DedupUpTo(s, n - 1);
      if n > 1 && s[n - 1].rank != s[n - 2].rank {
        assert s[n - 2].rank < s[n - 1].rank;
        forall x | x in d ensures x.rank < s[n - 1].rank {
          DedupMember(s, n - 1, x);
          var k :| 0 <= k < n - 1 && s[..n - 1][k] == x;
          assert s[k].rank <= s[n - 2].rank;
        }
      }
    }
  }

  /** Every rank of the stream survives deduplication. */
  lemma {:induction false} DedupKeepsRanks(s: seq<Point>, n: nat, k: nat)
    requires k < n <= |s|
    ensures exists i :: 0 <= i < |DedupUpTo(s, n)| && DedupUpTo(s, n)[i].rank == s[k].rank
  {
    if k == n - 1 {
      if n == 1 || s[n - 1].rank != s[n - 2].rank {
        assert DedupUpTo(s, n)[|DedupUpTo(s, n)| - 1] == s[k];
      } else {
        DedupKeepsRanks(s, n - 1, n - 2);
        var i :| 0 <= i < |DedupUpTo(s, n - 1)| && DedupUpTo(s, n - 1)[i].rank == s[n - 2].rank;
        assert DedupUpTo(s, n)[i] == DedupUpTo(s, n - 1)[i];
      }
    } else {
      DedupKeepsRanks(s, n - 1, k);
      var i :| 0 <= i < |DedupUpTo(s, n - 1)| && DedupUpTo(s, n - 1)[i].rank == s[k].rank;
      assert DedupUpTo(s, n)[i] == DedupUpTo(s, n - 1)[i];
    }
  }

  // ---------------------------------------------------------------------
  // The corrected merge loop.

  /** Before the merge has consumed anything, all of it is still ahead. */
  lemma MergedStart(src: seq<seq<Point>>)
    ensures Merged(src) == [] + MergeFrom(src, Start(src))
  {
  }

  /**
   * The child-result merge with the first-minimum rule of `findHitsB` and
   * a repeated-rank skip: each iteration takes the first buffer with the
   * smallest front, writes its point unless its rank equals the rank
   * written last, and stops after `room` writes or when every buffer is
   * used up. The skip is needed because the corner children of
   * gumption.c:385-388 share the closed median edges, so a point on a
   * median line reaches the merge from two buffers. It replaces the strict
   * comparison chains of gumption.c:289-305, old.c:63-84 and
   * old.c:157-178 (see `StrictMergeTie`, `StrictMergeStalls` and
   * `StrictTreeTie`).
   */
  method MergeChildren(src: seq<seq<Point>>, room: nat, out: array<Point>) returns (n: nat)
    requires RanksBelowMax(src)
    requires forall s, k :: 0 <= s < |src| && 0 <= k < |src[s]| ==> src[s][k].rank >= 0
    requires room <= out.Length
    modifies out
    ensures n <= room
    ensures out[..n] == Take(Dedup(Merged(src)), room)
    ensures out[n..] == old(out[n..])
  {
    var cur := Start(src);
    var last := -1;
    n := 0;
    ghost var consumed: seq<Point> := [];
    MergedStart(src);
    while n < room
      invariant CursorsOk(src, cur) && n <= room
      invariant Merged(src) == consumed + MergeFrom(src, cur)
      invariant out[..n] == Dedup(consumed)
      invariant last == if consumed == [] then -1 else consumed[|consumed| - 1].rank
      invariant forall k :: n <= k < out.Length ==> out[k] == old(out[k])
      decreases |Rest(src, cur)|
    {
      var m := Pick(src, cur);
      if m < 0 {
        break;
      }
      var p := src[m][cur[m]];
      MergeStep(src, cur, m, consumed);
      if p.rank != last {
        n := Emit(out, n, p);
      }
      last := p.rank;
      consumed := consumed + [p];
      cur := Advance(src, cur, m);
    }
    MergeDone(src, cur, consumed, out[..n], room);
    assert out[n..] == old(out[n..]);
  }

  /** `out[n] = p; n++`. */
  method Emit(out: array<Point>, n: nat, p: Point) returns (n': nat)
    requires n < out.Length
    modifies out
    ensures n' == n + 1
    ensures out[..n'] == old(out[..n]) + [p]
    ensures forall k :: n' <= k < out.Length ==> out[k] == old(out[k])
  {
    out[n] := p;
    n' := n + 1;
    assert out[..n'] == old(out[..n]) + [p];
  }

  /** One step of the merge loop: the picked point moves from what is
      ahead to what has been consumed, and the deduplicated stream keeps
      it exactly when its rank differs from the last consumed one. */
  lemma MergeStep(src: seq<seq<Point>>, cur: seq<int>, m: int, consumed: seq<Point>)
    requires CursorsOk(src, cur) && m == Pick(src, cur) && m >= 0
    requires forall s, k :: 0 <= s < |src| && 0 <= k < |src[s]| ==> src[s][k].rank >= 0
    requires Merged(src) == consumed + MergeFrom(src, cur)
    ensures Merged(src) == (consumed + [src[m][cur[m]]]) + MergeFrom(src, Advance(src, cur, m))
    ensures |Rest(src, Advance(src, cur, m))| < |Rest(src, cur)|
    ensures Dedup(consumed + [src[m][cur[m]]]) == Dedup(consumed) +
      (if src[m][cur[m]].rank != (if consumed == [] then -1 else consumed[|consumed| - 1].rank) then [src[m][cur[m]]] else [])
  {
    MergeAdvance(src, cur, m, consumed);
    DedupAppend(consumed, src[m][cur[m]]);
  }

  /** When the loop stops, what it wrote is the bounded deduplicated merge. */
  lemma MergeDone(src: seq<seq<Point>>, cur: seq<int>, consumed: seq<Point>, written: seq<Point>, room: nat)
    requires CursorsOk(src, cur)
    requires Merged(src) == consumed + MergeFrom(src, cur)
    requires written == Dedup(consumed)
    requires |written| == room || (|written| <= room && Pick(src, cur) < 0)
    ensures written == Take(Dedup(Merged(src)), room)
  {
    DedupPrefix(consumed, MergeFrom(src, cur));
    var whole := Dedup(Merged(src));
    assert whole == written + whole[|written|..];
    if |written| != room {
      assert MergeFrom(src, cur) == [];
      assert consumed + [] == consumed;
    }
    TakeDone(written, whole[|written|..], room);
  }


  // ---------------------------------------------------------------------
  // The grid merge of findHitsB: every merged point is tested, none skipped.

  /** One step of the first-minimum merge: the picked point moves from what
      is ahead to what has been consumed, and less is left. */
  lemma MergeAdvance(src: seq<seq<Point>>, cur: seq<int>, m: int, consumed: seq<Point>)
    requires CursorsOk(src, cur) && m == Pick(src, cur) && m >= 0
    requires Merged(src) == consumed + MergeFrom(src, cur)
    ensures Merged(src) == (consumed + [src[m][cur[m]]]) + MergeFrom(src, Advance(src, cur, m))
    ensures |Rest(src, Advance(src, cur, m))| < |Rest(src, cur)|
  {
    RestAdvance(src, cur, m);
    assert MergeFrom(src, cur) == [src[m][cur[m]]] + MergeFrom(src, Advance(src, cur, m));
  }

  /** When the test-every-point loop stops, with `count` hits or with
      nothing left to pick, what it wrote is the first `count` hits of the
      merge. */
  lemma MergeHitsDone(src: seq<seq<Point>>, cur: seq<int>, consumed: seq<Point>, written: seq<Point>,
                      rect: Rect, count: nat)
    requires CursorsOk(src, cur)
    requires Merged(src) == consumed + MergeFrom(src, cur)
    requires written == Hits(consumed, rect, Both)
    requires |written| == count || (|written| <= count && Pick(src, cur) < 0)
    ensures written == FirstHits(Merged(src), rect, count)
  {
    HitsAppend(consumed, MergeFrom(src, cur), rect, Both);
    if |written| != count {
      assert MergeFrom(src, cur) == [];
    }
    TakeDone(written, Hits(MergeFrom(src, cur), rect, Both), count);
  }

  /** The first `count` hits of the merge of rank-sorted buffers answer
      the query over all the buffers' points. */
  lemma MergedAnswers(src: seq<seq<Point>>, rect: Rect, count: nat)
    requires AllSorted(src) && RanksBelowMax(src)
    ensures Answers(FirstHits(Merged(src), rect, count), Concat(src), rect, count)
  {
    MergedIsSortedUnion(src);
    FirstHitsOfSortedAnswer(Merged(src), rect, count);
    AnswersPermutation(FirstHits(Merged(src), rect, count), Merged(src), Concat(src), rect, count);
  }

  /** Every point left in buffers s, s+1, ... lies in one of them. */
  lemma {:induction false} RestFromMember(src: seq<seq<Point>>, cur: seq<int>, s: nat, x: Point)
    requires CursorsOk(src, cur) && s <= |src| && x in RestFrom(src, cur, s)
    ensures exists t :: s <= t < |src| && x in src[t]
    decreases |src| - s
  {
    if x in src[s][cur[s]..] {
      var i :| 0 <= i < |src[s][cur[s]..]| && src[s][cur[s]..][i] == x;
      assert src[s][cur[s] + i] == x;
    } else {
      RestFromMember(src, cur, s + 1, x);
    }
  }

  /** What the corrected merge writes (see `MergeChildren`) comes from the
      buffers, in strictly ascending rank: it invents no point and repeats
      no rank. */
  lemma MergeChildrenOutput(src: seq<seq<Point>>, room: nat)
    requires AllSorted(src) && RanksBelowMax(src)
    ensures forall i, j :: 0 <= i < j < |Take(Dedup(Merged(src)), room)| ==>
              Take(Dedup(Merged(src)), room)[i].rank < Take(Dedup(Merged(src)), room)[j].rank
    ensures forall x :: x in Take(Dedup(Merged(src)), room) ==> exists s :: 0 <= s < |src| && x in src[s]
  {
    var m := Merged(src);
    var d := Dedup(m);
    MergedIsSortedUnion(src);
    DedupAscending(m, |m|);
    forall x | x in Take(d, room) ensures exists s :: 0 <= s < |src| && x in src[s] {
      DedupMember(m, |m|, x);
      assert m[..|m|] == m;
      assert x in multiset(Concat(src));
      RestFromMember(src, Start(src), 0, x);
    }
  }

  /** Ranks the merges can handle: non-negative and below their sentinel. */
  ghost predicate RanksInRange(points: seq<Point>)
  {
    forall k :: 0 <= k < |points| ==> 0 <= points[k].rank < RANKMAX
  }

  /** Buffers of rank-ascending hits of one query, drawn from points with
      ranks in range, satisfy what the corrected merge needs, and its
      output is again such a buffer. */
  lemma MergeFound(src: seq<seq<Point>>, rect: Rect, points: seq<Point>, room: nat)
    requires RanksInRange(points)
    requires forall s :: 0 <= s < |src| ==> Found(src[s], rect, points)
    ensures RanksBelowMax(src)
    ensures forall s, k :: 0 <= s < |src| && 0 <= k < |src[s]| ==> src[s][k].rank >= 0
    ensures Found(Take(Dedup(Merged(src)), room), rect, points)
  {
    forall s, k | 0 <= s < |src| && 0 <= k < |src[s]| ensures 0 <= src[s][k].rank < RANKMAX {
      assert src[s][k] in points;
    }
    MergeChildrenOutput(src, room);
    var out := Take(Dedup(Merged(src)), room);
    forall k | 0 <= k < |out| ensures IsHit(rect, out[k]) && out[k] in points {
      assert out[k] in out;
      var s :| 0 <= s < |src| && out[k] in src[s];
      var i :| 0 <= i < |src[s]| && src[s][i] == out[k];
    }
  }

  /** The four-buffer case of `MergeFound`, for the quadrant merges of
      gumption.c:289-305 and old.c:63-84. */
  lemma QuadrantMerge(c0: seq<Point>, c1: seq<Point>, c2: seq<Point>, c3: seq<Point>, rect: Rect,
                      points: seq<Point>, room: nat)
    requires RanksInRange(points)
    requires Found(c0, rect, points) && Found(c1, rect, points) && Found(c2, rect, points) && Found(c3, rect, points)
    ensures RanksBelowMax([c0, c1, c2, c3])
    ensures forall s, k :: 0 <= s < 4 && 0 <= k < |[c0, c1, c2, c3][s]| ==> [c0, c1, c2, c3][s][k].rank >= 0
    ensures Found(Take(Dedup(Merged([c0, c1, c2, c3])), room), rect, points)
  {
    var src := [c0, c1, c2, c3];
    forall s | 0 <= s < 4 ensures Found(src[s], rect, points) {
      if s == 0 { assert src[s] == c0; }
      else if s == 1 { assert src[s] == c1; }
      else if s == 2 { assert src[s] == c2; }
      else { assert src[s] == c3; }
    }
    MergeFound(src, rect, points, room);
  }
}

=== FILE: old.dfy ===
/**
 * The quadtree search of old.c, an earlier version kept beside the others.
 * Every node covers a box of indices into the x- and y-sorted copies and
 * the rectangle those indices span, stores the lowest-rank points of that
 * rectangle, and splits its box at the (run-adjusted) medians of both axes
 * into four quadrants. `searchTreeA` merges the stored answers of the
 * nodes its query contains; `searchTreeB` descends to the smallest node
 * that contains its query and scans that node's buffer.
 */
module OldTree {
  import opened Geometry
  import opened Ranking
  import opened Sorting
  import opened CoordSearch
  import opened Selector
  import opened Planner
  import opened Merge

  /** A box spanning fewer indices than this on either axis is a leaf
      (old.c:267-268). */
  const MINBOX: int := 100
  /** The smaller slice count above which `searchBinary` scans the
      rank-sorted copy (gumptionaire.c:11, 258). */
  const BASELIMIT: int := 10000

  /** Index bounds into the x- and y-sorted copies: a node's `ximin` ..
      `yimax`, and the context's `treeximin` .. `treeyimax`. */
  datatype Box = Box(ximin: int, ximax: int, yimin: int, yimax: int)

  /** The context's tree bounds before a node is found: -1 is "unset"
      (old.c:105-108). */
  const Unset: Box := Box(-1, -1, -1, -1)

  /** The number of x indices and of y indices a box spans (old.c:246-247). */
  function Nx(b: Box): int { b.ximax - b.ximin + 1 }
  function Ny(b: Box): int { b.yimax - b.yimin + 1 }

  /** A box of the tree over n points: the maxima are indices of the
      arrays, and each minimum is at most one past its maximum, so an empty
      span starts at most one past the end. */
  predicate BoxOk(b: Box, n: int)
  {
    0 <= b.ximin <= b.ximax + 1 && 0 <= b.ximax < n && 0 <= b.yimin <= b.yimax + 1 && 0 <= b.yimax < n
  }

  /** The pair of an x index i and a y index j lies in the box. */
  predicate InBox(b: Box, i: int, j: int)
  {
    b.ximin <= i <= b.ximax && b.yimin <= j <= b.yimax
  }

  /** The children's boxes, in the source's order tr, tl, bl, br, for the
      split indices xm and ym (old.c:289-292). */
  function Quadrants(b: Box, xm: int, ym: int): (q: seq<Box>)
    ensures |q| == 4
  {
    [Box(xm + 1, b.ximax, ym + 1, b.yimax),
     Box(b.ximin, xm, ym + 1, b.yimax),
     Box(b.ximin, xm, b.yimin, ym),
     Box(xm + 1, b.ximax, b.yimin, ym)]
  }

  /** The position of the quadrant that holds the pair (i, j). */
  function QuadrantOf(xm: int, ym: int, i: int, j: int): int
  {
    if i > xm then (if j > ym then 0 else 3) else (if j > ym then 1 else 2)
  }

  /** For split indices within the box, the quadrants partition it: a pair
      lies in a quadrant exactly when it lies in the box and that quadrant
      is the one QuadrantOf names. */
  lemma QuadrantsPartition(b: Box, xm: int, ym: int, i: int, j: int)
    requires b.ximin <= xm <= b.ximax && b.yimin <= ym <= b.yimax
    ensures forall c :: 0 <= c < 4 ==>
      (InBox(Quadrants(b, xm, ym)[c], i, j) <==> InBox(b, i, j) && c == QuadrantOf(xm, ym, i, j))
  {
  }

  /** The quadrants are boxes of the same tree, no wider and no taller than
      the box; unless both split indices sit at the box's upper ends, each
      spans fewer indices in all. */
  lemma QuadrantsShrink(b: Box, xm: int, ym: int, n: int)
    requires BoxOk(b, n) && b.ximin <= xm <= b.ximax && b.yimin <= ym <= b.yimax
    ensures forall c :: 0 <= c < 4 ==> BoxOk(Quadrants(b, xm, ym)[c], n)
    ensures forall c :: 0 <= c < 4 ==> Nx(Quadrants(b, xm, ym)[c]) <= Nx(b) && Ny(Quadrants(b, xm, ym)[c]) <= Ny(b)
    ensures !(xm == b.ximax && ym == b.yimax) ==>
      forall c :: 0 <= c < 4 ==> Nx(Quadrants(b, xm, ym)[c]) + Ny(Quadrants(b, xm, ym)[c]) < Nx(b) + Ny(b)
  {
  }

  /** `xsort[i].x` for an index up to N: index N lies one past the end of
      the array, where an empty span of a child box starts; what is read
      there is named `past`. */
  function XAt(xs: seq<Point>, past: Point, i: int): real
    requires 0 <= i <= |xs|
  {
    if i < |xs| then xs[i].x else past.x
  }

  /** `ysort[j].y`, likewise. */
  function YAt(ys: seq<Point>, past: Point, j: int): real
    requires 0 <= j <= |ys|
  {
    if j < |ys| then ys[j].y else past.y
  }

  /** The rectangle a node's box spans (old.c:248-253). */
  function BoxRect(xs: seq<Point>, ys: seq<Point>, past: Point, b: Box): Rect
    requires BoxOk(b, |xs|) && |ys| == |xs|
  {
    Rect(XAt(xs, past, b.ximin), XAt(xs, past, b.ximax), YAt(ys, past, b.yimin), YAt(ys, past, b.yimax))
  }

  /** The point at k shares its coordinate on axis a with the next one. */
  predicate SameAsNext(s: seq<Point>, a: Axis, k: int)
    requires 0 <= k < |s| - 1
  {
    Coord(s[k], a) == Coord(s[k + 1], a)
  }

  /** The end of the run of equal coordinates that starts at i, going no
      further than hi: every step up to it keeps the coordinate, and it is
      hi or the coordinate changes after it. */
  function RunEnd(s: seq<Point>, a: Axis, i: int, hi: int): (j: int)
    requires 0 <= i <= hi < |s|
    ensures i <= j <= hi
    ensures j == hi || Coord(s[j], a) != Coord(s[j + 1], a)
    ensures forall k :: i <= k < j ==> SameAsNext(s, a, k)
    decreases hi - i
  {
    if i < hi && SameAsNext(s, a, i) then RunEnd(s, a, i + 1, hi) else i
  }

  /** The "don't split on same x or y val" loops (old.c:272-286): from i,
      step forward while below hi and the next coordinate equals the
      current one. */
  method AdvanceMedian(s: seq<Point>, a: Axis, i: int, hi: int) returns (j: int)
    requires 0 <= i <= hi < |s|
    ensures j == RunEnd(s, a, i, hi)
  {
    j := i;
    while j < hi && Coord(s[j], a) == Coord(s[j + 1], a)
      invariant i <= j <= hi
      invariant RunEnd(s, a, j, hi) == RunEnd(s, a, i, hi)
      decreases hi - j
    {
      j := j + 1;
    }
  }

  /** A run of one coordinate value reaching hi ends at hi. */
  lemma {:induction false} RunEndOnConstant(s: seq<Point>, a: Axis, i: int, hi: int, v: real)
    requires 0 <= i <= hi < |s|
    requires forall k :: i <= k <= hi ==> Coord(s[k], a) == v
    ensures RunEnd(s, a, i, hi) == hi
    decreases hi - i
  {
    if i < hi {
      RunEndOnConstant(s, a, i + 1, hi, v);
    }
  }

  /** A box is split when it spans at least MINBOX indices on both axes
      (old.c:268). */
  predicate Splits(b: Box)
  {
    Nx(b) >= MINBOX && Ny(b) >= MINBOX
  }

  /** The split indices: the midpoints of the spans moved to the ends of
      their runs (old.c:270-286). */
  function XMed(xs: seq<Point>, b: Box): int
    requires 0 <= b.ximin <= b.ximax < |xs|
  {
    RunEnd(xs, X, (b.ximin + b.ximax) / 2, b.ximax)
  }

  function YMed(ys: seq<Point>, b: Box): int
    requires 0 <= b.yimin <= b.yimax < |ys|
  {
    RunEnd(ys, Y, (b.yimin + b.yimax) / 2, b.yimax)
  }

  /** Both split indices at the box's upper ends: neither axis can be
      split, and the bottom-left quadrant is the box itself. */
  predicate Stuck(xs: seq<Point>, ys: seq<Point>, b: Box)
    requires BoxOk(b, |xs|) && |ys| == |xs| && Splits(b)
  {
    XMed(xs, b) == b.ximax && YMed(ys, b) == b.yimax
  }

  /**
   * As written, `buildNode` (old.c:268-292) has no exit for a stuck box:
   * when from the midpoints on all x coordinates of the box are equal and
   * all y coordinates are equal (for instance 200 points at one position),
   * both split indices run to the upper ends and the bottom-left child
   * `buildNode(sc, ximin, ximed, yimin, yimed)` gets the node's own box,
   * so the recursion repeats the same call forever.
   */
  lemma SameSpotRecurses(xs: seq<Point>, ys: seq<Point>, b: Box)
    requires BoxOk(b, |xs|) && |ys| == |xs| && Splits(b)
    requires forall k :: (b.ximin + b.ximax) / 2 <= k <= b.ximax ==> xs[k].x == xs[b.ximax].x
    requires forall k :: (b.yimin + b.yimax) / 2 <= k <= b.yimax ==> ys[k].y == ys[b.yimax].y
    ensures Stuck(xs, ys, b)
    ensures Quadrants(b, XMed(xs, b), YMed(ys, b))[2] == b
  {
    RunEndOnConstant(xs, X, (b.ximin + b.ximax) / 2, b.ximax, xs[b.ximax].x);
    RunEndOnConstant(ys, Y, (b.yimin + b.yimax) / 2, b.yimax, ys[b.yimax].y);
  }

  /**
   * A `TreeNode`: its index box, its rectangle, its buffers `myPoints`
   * and `my5xPoints` (their filled parts), and its children tr, tl, bl, br
   * (none for a leaf). `childPoints` is written during a query and is the
   * result of `TreeHitsA` here.
   */
  datatype QNode = QNode(box: Box, rect: Rect, myPoints: seq<Point>, my5x: seq<Point>, children: seq<QNode>)

  /** One node built over the sorted copies: a box of the tree, the
      rectangle it spans, buffers holding the `maxres` and `5 * maxres`
      lowest-rank points of that rectangle, and four children over the
      quadrants exactly when the box is split and not stuck. */
  ghost predicate Shaped(node: QNode, xs: seq<Point>, ys: seq<Point>, past: Point, points: seq<Point>, maxres: nat)
  {
    && Own(node, xs, ys, past, points, maxres)
    && if Splits(node.box) && !Stuck(xs, ys, node.box) then
         && |node.children| == 4
         && forall c :: 0 <= c < 4 ==>
              node.children[c].box == Quadrants(node.box, XMed(xs, node.box), YMed(ys, node.box))[c]
       else node.children == []
  }

  /** A well-built subtree: every node in it is shaped. */
  ghost predicate QOk(node: QNode, xs: seq<Point>, ys: seq<Point>, past: Point, points: seq<Point>, maxres: nat)
    decreases node
  {
    && Shaped(node, xs, ys, past, points, maxres)
    && forall c :: 0 <= c < |node.children| ==> QOk(node.children[c], xs, ys, past, points, maxres)
  }

  /** A node buffer (old.c:260-261, 264-265): `searchBinary` with the
      node's rectangle and `size` writes the lowest-rank points of the
      rectangle into zeroed storage; the model keeps the filled part. */
  method FillBuffer(xs: seq<Point>, ys: seq<Point>, rs: seq<Point>, r: Rect, size: nat, ghost points: seq<Point>)
    returns (buf: seq<Point>)
    requires BuildInputs(xs, ys, rs, points)
    ensures |buf| <= size && Answers(buf, points, r, size)
  {
    var storage := new Point[size](_ => Origin);
    var n := SearchBinary(xs, ys, rs, r, size, storage, BASELIMIT, points);
    buf := storage[..n];
  }

  /**
   * `buildNode(sc, ximin, ximax, yimin, yimax)` (old.c:233-295), with the
   * exit for a stuck box that the source lacks (see `SameSpotRecurses`):
   * the rectangle the box spans, both buffers, and, when the box spans at
   * least MINBOX indices on both axes, four children over its quadrants.
   */
  method BuildNode(xs: seq<Point>, ys: seq<Point>, rs: seq<Point>, past: Point, b: Box, maxres: nat,
                   ghost points: seq<Point>) returns (node: QNode)
    requires BuildInputs(xs, ys, rs, points) && BoxOk(b, |xs|)
    ensures node.box == b && QOk(node, xs, ys, past, points, maxres)
    decreases Nx(b) + Ny(b), 2
  {
    var leaf := OwnNode(xs, ys, rs, past, b, maxres, points);
    if !Splits(b) {
      node := leaf;
      LeafOk(node, xs, ys, past, points, maxres);
      return;
    }
    CopiesLength(xs, ys, points);
    var xm, ym := Medians(xs, ys, b);
    if xm == b.ximax && ym == b.yimax {
      node := leaf;
      LeafOk(node, xs, ys, past, points, maxres);
      return;
    }
    var children := Grow(xs, ys, rs, past, b, xm, ym, maxres, points);
    node := leaf.(children := children);
    InnerOk(node, xs, ys, past, points, maxres);
  }

  /** The split indices of a box (old.c:270-286). */
  method Medians(xs: seq<Point>, ys: seq<Point>, b: Box) returns (xm: int, ym: int)
    requires BoxOk(b, |xs|) && |ys| == |xs| && Splits(b)
    ensures xm == XMed(xs, b) && ym == YMed(ys, b)
  {
    xm := AdvanceMedian(xs, X, (b.ximin + b.ximax) / 2, b.ximax);
    ym := AdvanceMedian(ys, Y, (b.yimin + b.yimax) / 2, b.yimax);
  }

  /** A childless node over box b, with its rectangle and its two buffers
      of the lowest-ranked points inside (old.c:246-264). */
  method OwnNode(xs: seq<Point>, ys: seq<Point>, rs: seq<Point>, past: Point, b: Box, maxres: nat,
                 ghost points: seq<Point>) returns (leaf: QNode)
    requires BuildInputs(xs, ys, rs, points) && BoxOk(b, |xs|)
    ensures leaf.box == b && leaf.children == [] && Own(leaf, xs, ys, past, points, maxres)
  {
    CopiesLength(xs, ys, points);
    var r := Rect(XAt(xs, past, b.ximin), XAt(xs, past, b.ximax), YAt(ys, past, b.yimin), YAt(ys, past, b.yimax));
    var mine := FillBuffer(xs, ys, rs, r, maxres, points);
    var mine5 := FillBuffer(xs, ys, rs, r, 5 * maxres, points);
    leaf := QNode(b, r, mine, mine5, []);
  }

  /** The four children of a box that splits at the medians xm and ym, in
      the order tr, tl, bl, br (old.c:288-292). */
  method Grow(xs: seq<Point>, ys: seq<Point>, rs: seq<Point>, past: Point, b: Box, xm: int, ym: int, maxres: nat,
              ghost points: seq<Point>) returns (children: seq<QNode>)
    requires BuildInputs(xs, ys, rs, points) && BoxOk(b, |xs|) && |ys| == |xs| && Splits(b)
    requires xm == XMed(xs, b) && ym == YMed(ys, b) && !(xm == b.ximax && ym == b.yimax)
    ensures |children| == 4 && BuiltUpTo(children, Quadrants(b, xm, ym), xs, ys, past, points, maxres)
    decreases Nx(b) + Ny(b), 1
  {
    var q := Quadrants(b, xm, ym);
    QuadrantsShrink(b, xm, ym, |xs|);
    children := [];
    children := AddQuadrant(xs, ys, rs, past, b, q, maxres, points, children);
    children := AddQuadrant(xs, ys, rs, past, b, q, maxres, points, children);
    children := AddQuadrant(xs, ys, rs, past, b, q, maxres, points, children);
    children := AddQuadrant(xs, ys, rs, past, b, q, maxres, points, children);
  }

  /** The first children, each well built over the quadrant of its
      position. */
  ghost predicate BuiltUpTo(children: seq<QNode>, q: seq<Box>, xs: seq<Point>, ys: seq<Point>, past: Point,
                            points: seq<Point>, maxres: nat)
  {
    |children| <= |q| &&
    forall c :: 0 <= c < |children| ==> children[c].box == q[c] && QOk(children[c], xs, ys, past, points, maxres)
  }

  /** Builds the child over the next quadrant, in the order tr, tl, bl, br
      (old.c:289-292). */
  method AddQuadrant(xs: seq<Point>, ys: seq<Point>, rs: seq<Point>, past: Point, b: Box, q: seq<Box>, maxres: nat,
                     ghost points: seq<Point>, children: seq<QNode>) returns (more: seq<QNode>)
    requires BuildInputs(xs, ys, rs, points)
    requires |q| == 4 && forall c :: 0 <= c < 4 ==> BoxOk(q[c], |xs|) && Nx(q[c]) + Ny(q[c]) < Nx(b) + Ny(b)
    requires |children| < 4 && BuiltUpTo(children, q, xs, ys, past, points, maxres)
    ensures |more| == |children| + 1 && BuiltUpTo(more, q, xs, ys, past, points, maxres)
    decreases Nx(b) + Ny(b), 0
  {
    var child := BuildNode(xs, ys, rs, past, q[|children|], maxres, points);
    more := children + [child];
    assert more[|children|] == child;
  }

  /** The facts a node holds of itself, whatever its children. */
  ghost predicate Own(node: QNode, xs: seq<Point>, ys: seq<Point>, past: Point, points: seq<Point>, maxres: nat)
  {
    && BoxOk(node.box, |xs|) && |ys| == |xs|
    && node.rect == BoxRect(xs, ys, past, node.box)
    && Answers(node.myPoints, points, node.rect, maxres)
    && Answers(node.my5x, points, node.rect, 5 * maxres)
  }

  /** A node that is not split, with no children, is well built. */
  lemma LeafOk(node: QNode, xs: seq<Point>, ys: seq<Point>, past: Point, points: seq<Point>, maxres: nat)
    requires Own(node, xs, ys, past, points, maxres) && node.children == []
    requires Splits(node.box) ==> Stuck(xs, ys, node.box)
    ensures QOk(node, xs, ys, past, points, maxres)
  {
  }

  /** Five sound buffers, listed. */
  lemma AllFound(a: seq<Point>, b: seq<Point>, c: seq<Point>, d: seq<Point>, e: seq<Point>, rect: Rect,
                 points: seq<Point>)
    requires Found(a, rect, points) && Found(b, rect, points) && Found(c, rect, points)
    requires Found(d, rect, points) && Found(e, rect, points)
    ensures forall s :: 0 <= s < 5 ==> Found([a, b, c, d, e][s], rect, points)
  {
    forall s | 0 <= s < 5 ensures Found([a, b, c, d, e][s], rect, points) {
      if s == 0 { assert [a, b, c, d, e][s] == a; }
      else if s == 1 { assert [a, b, c, d, e][s] == b; }
      else if s == 2 { assert [a, b, c, d, e][s] == c; }
      else if s == 3 { assert [a, b, c, d, e][s] == d; }
      else { assert [a, b, c, d, e][s] == e; }
    }
  }

  /** A split node whose four children are well built over its
      quadrants is well built. */
  lemma InnerOk(node: QNode, xs: seq<Point>, ys: seq<Point>, past: Point, points: seq<Point>, maxres: nat)
    requires Own(node, xs, ys, past, points, maxres) && Splits(node.box) && !Stuck(xs, ys, node.box)
    requires |node.children| == 4
    requires BuiltUpTo(node.children, Quadrants(node.box, XMed(xs, node.box), YMed(ys, node.box)), xs, ys, past, points, maxres)
    ensures QOk(node, xs, ys, past, points, maxres)
  {
  }

  // ---------------------------------------------------------------------
  // searchTreeA

  /**
   * `node->childPoints` once `treeHitsA(sc, node, rect)` returns
   * (old.c:39-85): the node's own answer when the query contains its
   * rectangle, nothing when the two do not overlap or the node is a leaf,
   * and otherwise the children's results merged, with repeated ranks
   * skipped, up to `maxres` points.
   */
  function ChildPoints(node: QNode, rect: Rect, maxres: nat): seq<Point>
    decreases node
  {
    if IsRectInside(rect, node.rect) then node.myPoints
    else if !IsRectOverlap(rect, node.rect) || |node.children| != 4 then []
    else
      var c := node.children;
      Take(Dedup(Merged([ChildPoints(c[0], rect, maxres), ChildPoints(c[1], rect, maxres),
                         ChildPoints(c[2], rect, maxres), ChildPoints(c[3], rect, maxres)])), maxres)
  }

  /** The boxes of the nodes whose points `treeHitsA` takes whole, in the
      order it visits them. */
  function Contained(node: QNode, rect: Rect): seq<Box>
    decreases node
  {
    if IsRectInside(rect, node.rect) then [node.box]
    else if !IsRectOverlap(rect, node.rect) || |node.children| != 4 then []
    else
      var c := node.children;
      Contained(c[0], rect) + Contained(c[1], rect) + Contained(c[2], rect) + Contained(c[3], rect)
  }

  /** The query contains the rectangle `outer`, so the lowest-rank points
      stored for `outer` are rank-ascending hits of the query. */
  lemma StoredFound(t: seq<Point>, points: seq<Point>, outer: Rect, rect: Rect, K: nat)
    requires Answers(t, points, outer, K) && IsRectInside(rect, outer)
    ensures |t| <= K && Found(t, rect, points)
  {
    AnswersFound(t, points, outer, K);
  }

  /** What `treeHitsA` leaves in a well-built node's `childPoints`: at most
      `maxres` rank-ascending hits of the query, each one of the points. */
  lemma {:induction false} ChildPointsFound(node: QNode, rect: Rect, xs: seq<Point>, ys: seq<Point>, past: Point,
                                            points: seq<Point>, maxres: nat)
    requires QOk(node, xs, ys, past, points, maxres) && RanksInRange(points)
    ensures |ChildPoints(node, rect, maxres)| <= maxres
    ensures Found(ChildPoints(node, rect, maxres), rect, points)
    decreases node, 1
  {
    if IsRectInside(rect, node.rect) {
      StoredFound(node.myPoints, points, node.rect, rect, maxres);
    } else if !IsRectOverlap(rect, node.rect) || |node.children| != 4 {
    } else {
      SplitFound(node, rect, xs, ys, past, points, maxres);
    }
  }

  /** The recursive case of ChildPointsFound: a split node that the query
      overlaps without lying inside it. */
  lemma {:induction false} SplitFound(node: QNode, rect: Rect, xs: seq<Point>, ys: seq<Point>, past: Point,
                                      points: seq<Point>, maxres: nat)
    requires QOk(node, xs, ys, past, points, maxres) && RanksInRange(points)
    requires !IsRectInside(rect, node.rect) && IsRectOverlap(rect, node.rect) && |node.children| == 4
    ensures |ChildPoints(node, rect, maxres)| <= maxres
    ensures Found(ChildPoints(node, rect, maxres), rect, points)
    decreases node, 0
  {
    var c := node.children;
    assert QOk(c[0], xs, ys, past, points, maxres) && QOk(c[1], xs, ys, past, points, maxres);
    assert QOk(c[2], xs, ys, past, points, maxres) && QOk(c[3], xs, ys, past, points, maxres);
    ChildPointsFound(c[0], rect, xs, ys, past, points, maxres);
    ChildPointsFound(c[1], rect, xs, ys, past, points, maxres);
    ChildPointsFound(c[2], rect, xs, ys, past, points, maxres);
    ChildPointsFound(c[3], rect, xs, ys, past, points, maxres);
    QuadrantMerge(ChildPoints(c[0], rect, maxres), ChildPoints(c[1], rect, maxres),
                  ChildPoints(c[2], rect, maxres), ChildPoints(c[3], rect, maxres), rect, points, maxres);
  }

  /** Every box `treeHitsA` takes whole is a box of the tree. */
  lemma {:induction false} ContainedOk(node: QNode, rect: Rect, xs: seq<Point>, ys: seq<Point>, past: Point,
                                       points: seq<Point>, maxres: nat)
    requires QOk(node, xs, ys, past, points, maxres)
    ensures forall b :: b in Contained(node, rect) ==> BoxOk(b, |xs|)
    decreases node
  {
    if !IsRectInside(rect, node.rect) && IsRectOverlap(rect, node.rect) && |node.children| == 4 {
      var c := node.children;
      ContainedOk(c[0], rect, xs, ys, past, points, maxres);
      ContainedOk(c[1], rect, xs, ys, past, points, maxres);
      ContainedOk(c[2], rect, xs, ys, past, points, maxres);
      ContainedOk(c[3], rect, xs, ys, past, points, maxres);
    }
  }

  /** The four tree bounds. */
  datatype Side = XLow | XHigh | YLow | YHigh

  function Get(b: Box, s: Side): int
  {
    match s
    case XLow => b.ximin
    case XHigh => b.ximax
    case YLow => b.yimin
    case YHigh => b.yimax
  }

  /** v lies on the inner side of bound r: above a lower bound, below an
      upper one. */
  predicate Within(s: Side, r: int, v: int)
  {
    if s == XLow || s == YLow then r <= v else v <= r
  }

  /** One tree bound after a node with bound v is found (old.c:44-47): v
      when unset or when v lies outside it. */
  function Toward(s: Side, cur: int, v: int): int
  {
    if cur == -1 || !Within(s, cur, v) then v else cur
  }

  /** The tree bounds after a node with box n is found (old.c:44-47). */
  function Widen(b: Box, n: Box): Box
  {
    Box(Toward(XLow, b.ximin, n.ximin), Toward(XHigh, b.ximax, n.ximax),
        Toward(YLow, b.yimin, n.yimin), Toward(YHigh, b.yimax, n.yimax))
  }

  /** The tree bounds after the nodes with the given boxes are found, in
      order. */
  function WidenAll(b: Box, boxes: seq<Box>): Box
    decreases |boxes|
  {
    if boxes == [] then b else WidenAll(Widen(b, boxes[0]), boxes[1..])
  }

  /** Finding two lists of nodes one after the other is finding their
      concatenation. */
  lemma {:induction false} WidenAllAppend(b: Box, s: seq<Box>, t: seq<Box>)
    ensures WidenAll(b, s + t) == WidenAll(WidenAll(b, s), t)
    decreases |s|
  {
    if s == [] {
      assert s + t == t;
    } else {
      assert (s + t)[0] == s[0];
      assert (s + t)[1..] == s[1..] + t;
      WidenAllAppend(Widen(b, s[0]), s[1..], t);
    }
  }

  /**
   * What the widening computes, bound by bound, for boxes whose bounds are
   * indices: the bound stays unset only when it started unset and no box
   * was found; otherwise it encloses the starting bound and every box's
   * bound, and equals one of them.
   */
  lemma {:induction false} WidenAllSide(b: Box, boxes: seq<Box>, s: Side)
    requires Get(b, s) >= -1
    requires forall k :: 0 <= k < |boxes| ==> Get(boxes[k], s) >= 0
    ensures Get(WidenAll(b, boxes), s) == -1 <==> Get(b, s) == -1 && boxes == []
    ensures Get(b, s) != -1 ==> Within(s, Get(WidenAll(b, boxes), s), Get(b, s))
    ensures forall k :: 0 <= k < |boxes| ==> Within(s, Get(WidenAll(b, boxes), s), Get(boxes[k], s))
    ensures Get(WidenAll(b, boxes), s) == Get(b, s) ||
            exists k :: 0 <= k < |boxes| && Get(WidenAll(b, boxes), s) == Get(boxes[k], s)
    decreases |boxes|
  {
    if boxes != [] {
      var b' := Widen(b, boxes[0]);
      var rest := boxes[1..];
      assert Get(b', s) == Toward(s, Get(b, s), Get(boxes[0], s));
      WidenAllSide(b', rest, s);
      var r := Get(WidenAll(b, boxes), s);
      assert r == Get(WidenAll(b', rest), s);
      forall k | 0 <= k < |boxes| ensures Within(s, r, Get(boxes[k], s)) {
        if k > 0 {
          assert boxes[k] == rest[k - 1];
        }
      }
      if r == Get(b', s) {
        if r != Get(b, s) {
          assert r == Get(boxes[0], s);
        }
      } else {
        var k :| 0 <= k < |rest| && r == Get(rest[k], s);
        assert rest[k] == boxes[k + 1];
      }
    }
  }

  // ---------------------------------------------------------------------
  // searchTreeB

  /** The first child, from position `from` on, whose rectangle contains
      the query; -1 when none does (old.c:184-187). */
  function Holding(children: seq<QNode>, rect: Rect, from: nat): (c: int)
    requires from <= |children|
    ensures c == -1 || (from <= c < |children| && IsRectInside(children[c].rect, rect))
    ensures c != -1 ==> forall k :: from <= k < c ==> !IsRectInside(children[k].rect, rect)
    ensures c == -1 <==> forall k :: from <= k < |children| ==> !IsRectInside(children[k].rect, rect)
    decreases |children| - from
  {
    if from == |children| then -1
    else if IsRectInside(children[from].rect, rect) then from
    else Holding(children, rect, from + 1)
  }

  /**
   * The search context of old.c: the point count, the x-, y- and
   * rank-sorted copies, the tree, the result length MAXRESLEN and the
   * bounds of the nodes the last `searchTreeA` took whole.
   */
  class Context {
    const N: nat
    const xsort: seq<Point>
    const ysort: seq<Point>
    const ranksort: seq<Point>
    /** What a read one past the end of `xsort` or `ysort` yields. */
    const past: Point
    /** MAXRESLEN: the length of `myPoints` and of a merged result. */
    const maxres: nat
    const root: QNode
    ghost const points: seq<Point>
    /** `treeximin` .. `treeyimax`. */
    var tree: Box

    /** The sorted copies of at least one point, ranks the merges can
        handle, and a well-built tree over all indices. */
    ghost predicate Valid()
    {
      && N == |points| && N >= 1 && RanksInRange(points)
      && BuildInputs(xsort, ysort, ranksort, points) && |xsort| == N
      && root.box == Box(0, N - 1, 0, N - 1) && QOk(root, xsort, ysort, past, points, maxres)
    }

    /** `create(points_begin, points_end)` (old.c:309-340): the three
        sorted copies and the tree over every index. An empty input is
        excluded: the root's box would then read `xsort[-1]`. */
    constructor Create(input: seq<Point>, maxres: nat, past: Point)
      requires |input| >= 1 && RanksInRange(input)
      ensures Valid() && points == input && this.maxres == maxres && this.past == past
    {
      var xa := SortedCopy(input, ByX);
      var ya := SortedCopy(input, ByY);
      var ra := SortedCopy(input, ByRank);
      var xs, ys, rs := xa[..], ya[..], ra[..];
      CopiesLength(xs, ys, input);
      var t := BuildNode(xs, ys, rs, past, Box(0, |input| - 1, 0, |input| - 1), maxres, input);
      N, xsort, ysort, ranksort, this.past, this.maxres, root := |input|, xs, ys, rs, past, maxres, t;
      points := input;
      tree := Unset;
    }

    /**
     * `treeHitsA(sc, node, rect)` (old.c:39-85): a node the query contains
     * gives its `myPoints` and widens the tree bounds to its box; a node
     * the query does not overlap gives nothing; otherwise the children
     * are searched in the order tr, tl, bl, br and their results merged
     * up to `maxres` points (with the repeated-rank skip in place of the
     * strict comparisons, which stall on a tied front; see
     * `Merge.StrictMergeStalls`).
     */
    method TreeHitsA(node: QNode, rect: Rect) returns (cp: seq<Point>)
      requires Valid() && QOk(node, xsort, ysort, past, points, maxres)
      modifies this
      ensures cp == ChildPoints(node, rect, maxres)
      ensures tree == WidenAll(old(tree), Contained(node, rect))
      decreases node
    {
      if IsRectInside(rect, node.rect) {
        cp := node.myPoints;
        tree := Widen(tree, node.box);
        assert Contained(node, rect) == [node.box];
        return;
      }
      if !IsRectOverlap(rect, node.rect) || |node.children| != 4 {
        cp := [];
        return;
      }
      var c := node.children;
      ghost var b0 := tree;
      var c0 := TreeHitsA(c[0], rect);
      var c1 := TreeHitsA(c[1], rect);
      var c2 := TreeHitsA(c[2], rect);
      var c3 := TreeHitsA(c[3], rect);
      WidenAllAppend(b0, Contained(c[0], rect), Contained(c[1], rect));
      WidenAllAppend(b0, Contained(c[0], rect) + Contained(c[1], rect), Contained(c[2], rect));
      WidenAllAppend(b0, Contained(c[0], rect) + Contained(c[1], rect) + Contained(c[2], rect), Contained(c[3], rect));
      ChildPointsFound(c[0], rect, xsort, ysort, past, points, maxres);
      ChildPointsFound(c[1], rect, xsort, ysort, past, points, maxres);
      ChildPointsFound(c[2], rect, xsort, ysort, past, points, maxres);
      ChildPointsFound(c[3], rect, xsort, ysort, past, points, maxres);
      cp := MergeQuadrants(c0, c1, c2, c3, rect);
    }

    /** The merge loop of `treeHitsA` (old.c:63-84) into a fresh
        `maxres`-entry buffer, corrected: the first smallest front is taken
        and a repeated rank skipped, where the strict chain of old.c:78-81
        stalls on a tie (`Merge.StrictMergeStalls`). */
    method MergeQuadrants(c0: seq<Point>, c1: seq<Point>, c2: seq<Point>, c3: seq<Point>, rect: Rect)
      returns (cp: seq<Point>)
      requires RanksInRange(points)
      requires Found(c0, rect, points) && Found(c1, rect, points) && Found(c2, rect, points) && Found(c3, rect, points)
      ensures cp == Take(Dedup(Merged([c0, c1, c2, c3])), maxres)
    {
      QuadrantMerge(c0, c1, c2, c3, rect, points, maxres);
      var buf := new Point[maxres](_ => Origin);
      var n := MergeChildren([c0, c1, c2, c3], maxres, buf);
      cp := buf[..n];
    }

    /**
     * `searchTreeA(sc, rect, count, out)` (old.c:87-180). No hits for an
     * empty axis slice; the rank-order scan when the smaller slice holds
     * more than a tenth of the points; the slice scan when it is below
     * 2 * MINBOX; otherwise the tree bounds are reset, `treeHitsA` runs
     * from the root, and its result is merged with the four leftover
     * buffers `lbox`, `rbox`, `tbox`, `bbox` up to `maxres` points, however
     * small `count` is. Every path but the tree answers the query
     * (`exact`); the tree writes rank-ascending hits.
     */
    method SearchTreeA(rect: Rect, count: nat, out: array<Point>,
                       lbox: seq<Point>, rbox: seq<Point>, tbox: seq<Point>, bbox: seq<Point>)
      returns (n: nat, ghost exact: bool)
      requires Valid()
      requires count <= out.Length && maxres <= out.Length
      requires Found(lbox, rect, points) && Found(rbox, rect, points)
      requires Found(tbox, rect, points) && Found(bbox, rect, points)
      modifies this, out
      ensures n <= out.Length && Found(out[..n], rect, points)
      ensures exact ==> n <= count && Answers(out[..n], points, rect, count) && tree == old(tree)
      ensures !exact ==> n <= maxres
      ensures !exact ==> out[..n] == Take(Dedup(Merged([ChildPoints(root, rect, maxres), lbox, rbox, tbox, bbox])), maxres)
      ensures !exact ==> tree == WidenAll(Unset, Contained(root, rect))
    {
      var xl, xr := AxisRange(xsort, X, rect.lx, rect.hx);
      var yl, yr := AxisRange(ysort, Y, rect.ly, rect.hy);
      var nx, ny := xr - xl + 1, yr - yl + 1;
      exact := true;
      if nx == 0 || ny == 0 {
        n := 0;
        EmptyAnswers(out[..0], xsort, ysort, points, rect, count, xl, xr, yl, yr);
      } else if (Min(nx, ny) as real) / (N as real) > 0.1 {
        n := RankScan(ranksort, rect, count, out, points);
      } else if Min(nx, ny) < 2 * MINBOX {
        n := SliceScan(xsort, ysort, rect, xl, xr, yl, yr, out, count, points);
      } else {
        n := MergeTree(rect, out, lbox, rbox, tbox, bbox);
        exact := false;
      }
      if exact {
        AnswersFound(out[..n], points, rect, count);
      }
    }

    /** The tree branch of `searchTreeA` (old.c:157-178): the points of
        the tree merged with the four leftover buffers by the corrected
        merge (the strict chain of old.c:169-173 stalls on a tie, see
        `Merge.StrictTreeTie`), and the tree bounds widened from unset over
        the contained boxes. */
    method MergeTree(rect: Rect, out: array<Point>, lbox: seq<Point>, rbox: seq<Point>, tbox: seq<Point>,
                     bbox: seq<Point>) returns (n: nat)
      requires Valid() && maxres <= out.Length
      requires Found(lbox, rect, points) && Found(rbox, rect, points)
      requires Found(tbox, rect, points) && Found(bbox, rect, points)
      modifies this, out
      ensures n <= maxres && Found(out[..n], rect, points)
      ensures out[..n] == Take(Dedup(Merged([ChildPoints(root, rect, maxres), lbox, rbox, tbox, bbox])), maxres)
      ensures tree == WidenAll(Unset, Contained(root, rect))
    {
      tree := Unset;
      var cp := TreeHitsA(root, rect);
      ChildPointsFound(root, rect, xsort, ysort, past, points, maxres);
      var src := [cp, lbox, rbox, tbox, bbox];
      AllFound(cp, lbox, rbox, tbox, bbox, rect, points);
      MergeFound(src, rect, points, maxres);
      n := MergeChildren(src, maxres, out);
    }

    /**
     * `treeHitsB(sc, node, rect, count, out)` (old.c:182-201): descend
     * into the first child that contains the query; otherwise, when the
     * node contains it, scan `my5xPoints`, and when that finds fewer than
     * `count` hits although the buffer holds more than `count` points,
     * run the selector over the smaller of the node's index slices with
     * the full test; when the node does not contain the query either, the
     * rank-order scan. The scan of `my5xPoints` answers the query when it
     * fills the output or the buffer is not full.
     */
    method TreeHitsB(node: QNode, rect: Rect, count: nat, out: array<Point>) returns (n: nat, ghost exact: bool)
      requires Valid() && QOk(node, xsort, ysort, past, points, maxres)
      requires count <= out.Length
      modifies out
      ensures n <= count && Found(out[..n], rect, points)
      ensures exact ==> Answers(out[..n], points, rect, count)
      decreases node
    {
      var c := Holding(node.children, rect, 0);
      if c >= 0 {
        n, exact := TreeHitsB(node.children[c], rect, count, out);
        return;
      }
      if IsRectInside(node.rect, rect) {
        var hits := FindHitsS(rect, node.my5x, out, count);
        BufferScan(node.my5x, 5 * maxres, node.rect, points, rect, count);
        if hits < count && |node.my5x| > count {
          n := BoxScan(node.box, rect, count, out);
          exact := false;
        } else {
          n := hits;
          exact := hits == count || |node.my5x| < 5 * maxres;
        }
      } else {
        n := RankScan(ranksort, rect, count, out, points);
        exact := true;
        AnswersFound(out[..n], points, rect, count);
      }
    }

    /** The fallback of `treeHitsB` (old.c:193-196): the selector over the
        smaller of the node's x and y index slices with the full test. */
    method BoxScan(b: Box, rect: Rect, count: nat, out: array<Point>) returns (n: nat)
      requires Valid() && BoxOk(b, N)
      requires count <= out.Length
      modifies out
      ensures n <= count && Found(out[..n], rect, points)
    {
      CopiesLength(xsort, ysort, points);
      var nx, ny := Nx(b), Ny(b);
      var s;
      if nx < ny {
        s := Slice(xsort, b.ximin, nx);
        RanksNonNegativeSlice(points, xsort, b.ximin, nx);
      } else {
        s := Slice(ysort, b.yimin, ny);
        RanksNonNegativeSlice(points, ysort, b.yimin, ny);
      }
      n := FindHitsU(rect, s, out, count, Both);
      TopKFound(out[..n], s, points, rect, count);
    }

    /**
     * `searchTreeB(sc, rect, count, out)` (old.c:203-226): the planner of
     * `searchTreeA`, with `treeHitsB` from the root for a query whose
     * smaller slice spans at least 2 * MINBOX indices.
     */
    method SearchTreeB(rect: Rect, count: nat, out: array<Point>) returns (n: nat, ghost exact: bool)
      requires Valid()
      requires count <= out.Length
      modifies out
      ensures n <= count && Found(out[..n], rect, points)
      ensures exact ==> Answers(out[..n], points, rect, count)
      ensures !exact ==> Min(AxisCount(xsort, X, rect), AxisCount(ysort, Y, rect)) >= 2 * MINBOX
    {
      var xl, xr := AxisRange(xsort, X, rect.lx, rect.hx);
      var yl, yr := AxisRange(ysort, Y, rect.ly, rect.hy);
      var nx, ny := xr - xl + 1, yr - yl + 1;
      exact := true;
      if nx == 0 || ny == 0 {
        n := 0;
        EmptyAnswers(out[..0], xsort, ysort, points, rect, count, xl, xr, yl, yr);
      } else if (Min(nx, ny) as real) / (N as real) > 0.1 {
        n := RankScan(ranksort, rect, count, out, points);
      } else if Min(nx, ny) < 2 * MINBOX {
        n := SliceScan(xsort, ysort, rect, xl, xr, yl, yr, out, count, points);
      } else {
        n, exact := TreeHitsB(root, rect, count, out);
        SliceSize(xsort, X, rect, xl, xr);
        SliceSize(ysort, Y, rect, yl, yr);
      }
      if exact {
        AnswersFound(out[..n], points, rect, count);
      }
    }
  }
}

=== FILE: planner.dfy ===
/**
 * The pieces every planner shares (gump.c:197-214, gumptionaire.c:247-262,
 * gumption.c:240-255, old.c:89-103, 205-224): locate the query's slice on each
 * axis, give up when one is empty, and otherwise run the top-K selector
 * over the smaller slice with only the other axis's test.
 */
module Planner {
  import opened Geometry
  import opened Ranking
  import opened Sorting
  import opened CoordSearch
  import opened Selector

  /** The number of points whose coordinate on axis `a` lies within the
      query's interval on that axis: the size of the axis slice. */
  function AxisCount(p: seq<Point>, a: Axis, rect: Rect): nat
  {
    |Hits(p, rect, AxisTest(a))|
  }

  /** The slice [l, r] of a sorted copy holds the axis count's points, so a
      non-empty slice has exactly that length. */
  lemma SliceSize(p: seq<Point>, a: Axis, rect: Rect, l: int, r: int)
    requires IsAxisRange(p, a, Low(rect, a), High(rect, a), l, r)
    ensures r - l + 1 > 0 ==> r - l + 1 == AxisCount(p, a, rect)
    ensures r - l + 1 <= 0 ==> AxisCount(p, a, rect) == 0
  {
    var s := Slice(p, l, r - l + 1);
    HitsAll(s, rect, AxisTest(a));
    forall q ensures multiset(s)[q] == multiset(Hits(p, rect, AxisTest(a)))[q] {
      SliceCount(p, a, rect, l, r, q);
      HitsCount(p, rect, AxisTest(a), q);
    }
    assert multiset(s) == multiset(Hits(p, rect, AxisTest(a)));
    assert |multiset(s)| == |multiset(Hits(p, rect, AxisTest(a)))|;
  }

  /** A slice of a reordering holds only input points, so ranks stay
      non-negative. */
  lemma RanksNonNegativeSlice(s: seq<Point>, u: seq<Point>, l: int, n: int)
    requires RanksNonNegative(s) && multiset(s) == multiset(u)
    requires n > 0 ==> 0 <= l && l + n <= |u|
    ensures forall k :: 0 <= k < |Slice(u, l, n)| ==> Slice(u, l, n)[k] in s
    ensures RanksNonNegative(Slice(u, l, n))
  {
    forall k | 0 <= k < |Slice(u, l, n)| ensures Slice(u, l, n)[k] in s && Slice(u, l, n)[k].rank >= 0 {
      var q := Slice(u, l, n)[k];
      assert q == u[l + k];
      assert q in multiset(u);
      assert q in s;
    }
  }

  /** An empty axis slice means no point hits the rectangle. */
  lemma NoHitsOnEmptySlice(xs: seq<Point>, ys: seq<Point>, rect: Rect, xl: int, xr: int, yl: int, yr: int)
    requires IsAxisRange(xs, X, rect.lx, rect.hx, xl, xr)
    requires IsAxisRange(ys, Y, rect.ly, rect.hy, yl, yr)
    requires multiset(xs) == multiset(ys)
    requires xr - xl + 1 == 0 || yr - yl + 1 == 0
    ensures Hits(xs, rect, Both) == []
  {
    forall q ensures multiset(Hits(xs, rect, Both))[q] == 0 {
      HitsCount(xs, rect, Both, q);
      if q in xs {
        var i :| 0 <= i < |xs| && xs[i] == q;
        assert q in multiset(ys);
        var j :| 0 <= j < |ys| && ys[j] == q;
        assert !(xl <= i <= xr) || !(yl <= j <= yr);
      }
    }
    assert multiset(Hits(xs, rect, Both)) == multiset{};
  }

  /** The selector run over the axis slice [l, r] of `sorted` with only
      the other axis's test: the result answers the query for every
      permutation `points` of `sorted`. */
  method ScanSlice(sorted: seq<Point>, a: Axis, rect: Rect, l: int, r: int, out: array<Point>, count: nat,
                   ghost points: seq<Point>) returns (n: nat)
    requires IsAxisRange(sorted, a, Low(rect, a), High(rect, a), l, r)
    requires multiset(sorted) == multiset(points) && RanksNonNegative(points)
    requires count <= out.Length
    modifies out
    ensures n <= count
    ensures Answers(out[..n], points, rect, count)
    ensures out[n..] == old(out[n..])
  {
    var slice := Slice(sorted, l, r - l + 1);
    RanksNonNegativeSlice(points, sorted, l, r - l + 1);
    n := FindHitsU(rect, slice, out, count, OtherTest(a));
    SliceAnswers(sorted, a, rect, l, r, out[..n], count, points);
  }

  /** The top-K of the axis slice under the other axis's test answers the
      query for every permutation `points` of the sorted copy. */
  lemma SliceAnswers(sorted: seq<Point>, a: Axis, rect: Rect, l: int, r: int, sel: seq<Point>, count: nat,
                     points: seq<Point>)
    requires IsAxisRange(sorted, a, Low(rect, a), High(rect, a), l, r)
    requires multiset(sorted) == multiset(points)
    requires RankSorted(sel) && IsTopK(sel, Hits(Slice(sorted, l, r - l + 1), rect, OtherTest(a)), count)
    ensures Answers(sel, points, rect, count)
  {
    AxisSliceHits(sorted, a, rect, l, r);
    TopKPermutation(sel, Hits(Slice(sorted, l, r - l + 1), rect, OtherTest(a)), Hits(sorted, rect, Both), count);
    AnswersPermutation(sel, sorted, points, rect, count);
  }

  /** "No hits" answers a query whose axis slice is empty. */
  lemma EmptyAnswers(out: seq<Point>, xs: seq<Point>, ys: seq<Point>, points: seq<Point>, rect: Rect,
                     count: nat, xl: int, xr: int, yl: int, yr: int)
    requires IsAxisRange(xs, X, rect.lx, rect.hx, xl, xr)
    requires IsAxisRange(ys, Y, rect.ly, rect.hy, yl, yr)
    requires multiset(xs) == multiset(points) && multiset(ys) == multiset(points)
    requires xr - xl + 1 == 0 || yr - yl + 1 == 0
    requires out == []
    ensures Answers(out, points, rect, count)
  {
    NoHitsOnEmptySlice(xs, ys, rect, xl, xr, yl, yr);
    AnswersPermutation(out, xs, points, rect, count);
  }

  /** The x- and y-sorted copies of `points` the trees are built over. */
  ghost predicate SortedCopies(xs: seq<Point>, ys: seq<Point>, points: seq<Point>)
  {
    && SortedBy(xs, ByX) && multiset(xs) == multiset(points)
    && SortedBy(ys, ByY) && multiset(ys) == multiset(points)
  }

  /** The sorted copies are as long as the points. */
  lemma CopiesLength(xs: seq<Point>, ys: seq<Point>, points: seq<Point>)
    requires SortedCopies(xs, ys, points)
    ensures |xs| == |ys| == |points|
  {
    assert |xs| == |multiset(xs)| == |multiset(points)| == |multiset(ys)| == |ys|;
  }

  /**
   * `searchBinary(sc, rect, count, out)` (gumptionaire.c:247-262,
   * gumption.c:240-255) over the sorted copies `xs` and `ys` and the
   * rank-sorted copy `rs`: an empty axis slice gives no hits; a smaller
   * slice of more than `limit` points (BASELIMIT in gumptionaire.c,
   * RANKLIMIT in gumption.c, both 10000) means the in-order scan of `rs`;
   * otherwise the selector runs over the smaller slice with the other
   * axis's test. The result answers the query.
   */
  method SearchBinary(xs: seq<Point>, ys: seq<Point>, rs: seq<Point>, rect: Rect, count: nat, out: array<Point>,
                      limit: int, ghost points: seq<Point>) returns (n: nat)
    requires SortedCopies(xs, ys, points)
    requires multiset(rs) == multiset(points) && SortedBy(rs, ByRank)
    requires RanksNonNegative(points)
    requires count <= out.Length
    modifies out
    ensures n <= count
    ensures Answers(out[..n], points, rect, count)
    ensures out[n..] == old(out[n..])
  {
    var xl, xr := AxisRange(xs, X, rect.lx, rect.hx);
    var yl, yr := AxisRange(ys, Y, rect.ly, rect.hy);
    var nx := xr - xl + 1;
    var ny := yr - yl + 1;
    if nx == 0 || ny == 0 {
      n := 0;
      EmptyAnswers(out[..0], xs, ys, points, rect, count, xl, xr, yl, yr);
      return;
    }
    if Min(nx, ny) > limit {
      n := RankScan(rs, rect, count, out, points);
      return;
    }
    if nx < ny {
      n := ScanSlice(xs, X, rect, xl, xr, out, count, points);
    } else {
      n := ScanSlice(ys, Y, rect, yl, yr, out, count, points);
    }
  }

  /** The in-order scan of the rank-sorted copy `rs` keeping the first
      `count` hits, which answers the query. */
  method RankScan(rs: seq<Point>, rect: Rect, count: nat, out: array<Point>, ghost points: seq<Point>)
    returns (n: nat)
    requires multiset(rs) == multiset(points) && SortedBy(rs, ByRank)
    requires count <= out.Length
    modifies out
    ensures n <= count
    ensures Answers(out[..n], points, rect, count)
    ensures out[n..] == old(out[n..])
  {
    n := FindHitsS(rect, rs, out, count);
    SortedByRank(rs);
    FindHitsSOfSortedAnswers(rs, rect, count, out[..n]);
    AnswersPermutation(out[..n], rs, points, rect, count);
  }

  /** What the build works from: the x- and y-sorted copies and the
      rank-sorted copy of the points, whose ranks are non-negative. */
  ghost predicate BuildInputs(xs: seq<Point>, ys: seq<Point>, rs: seq<Point>, points: seq<Point>)
  {
    && SortedCopies(xs, ys, points) && multiset(rs) == multiset(points) && SortedBy(rs, ByRank)
    && RanksNonNegative(points)
  }

  /** The query's slice of the smaller axis, scanned with the other axis's
      test (gumption.c:325-327, 331-333,
      old.c:101-103, 222-224). */
  method SliceScan(xs: seq<Point>, ys: seq<Point>, rect: Rect, xl: int, xr: int, yl: int, yr: int,
                   out: array<Point>, count: nat, ghost points: seq<Point>) returns (n: nat)
    requires SortedCopies(xs, ys, points) && RanksNonNegative(points)
    requires IsAxisRange(xs, X, rect.lx, rect.hx, xl, xr) && IsAxisRange(ys, Y, rect.ly, rect.hy, yl, yr)
    requires count <= out.Length
    modifies out
    ensures n <= count && Answers(out[..n], points, rect, count)
  {
    if xr - xl + 1 < yr - yl + 1 {
      n := ScanSlice(xs, X, rect, xl, xr, out, count, points);
    } else {
      n := ScanSlice(ys, Y, rect, yl, yr, out, count, points);
    }
  }

}

=== FILE: rangetree.dfy ===
/**
 * The range trees of gumptionaire.c: one per axis, over the x- or
 * y-sorted copy of the points. A node covers an index span [l, r] of that
 * copy; its strip is the span on its own axis and the whole extent of the
 * other axis, and its `ranksort` buffer holds the lowest-rank points of
 * the strip. Its children cover [l, med], [med, r] and the middle
 * [q1, q3]; leaves sit at depth MAXDEPTH. `rangeHits` descends to the
 * deepest node covering a query's axis slice and scans that buffer.
 */
module RangeTree {
  import opened Geometry
  import opened Ranking
  import opened Sorting
  import opened CoordSearch
  import opened Selector
  import opened Planner
  import opened Wrappers

  /** Depth of the leaves (gumptionaire.c:17). */
  const MAXDEPTH: int := 8
  /** Buffer length of a leaf (gumptionaire.c:18). */
  const DEPTHFACTOR: int := 1000

  function Pow2(e: nat): (r: nat)
    ensures r >= 1
  {
    if e == 0 then 1 else 2 * Pow2(e - 1)
  }

  /** The buffer length of a node at `depth`, `pow(2, MAXDEPTH - depth) *
      DEPTHFACTOR` (gumptionaire.c:271, 381): it doubles at every level
      up from the leaves. */
  function Len(depth: int): (n: nat)
    requires depth <= MAXDEPTH
    ensures n >= DEPTHFACTOR
  {
    Pow2(MAXDEPTH - depth) * DEPTHFACTOR
  }

  /** The sorted copy a tree over axis `a` is built on. */
  function AxisSorted(xs: seq<Point>, ys: seq<Point>, a: Axis): seq<Point>
  {
    match a
    case X => xs
    case Y => ys
  }

  /** The strip of the span [l, r] (gumptionaire.c:384-389). */
  function Strip(xs: seq<Point>, ys: seq<Point>, a: Axis, l: int, r: int): Rect
    requires |xs| == |ys| && 0 <= l < |xs| && 0 <= r < |xs|
  {
    match a
    case X => Rect(xs[l].x, xs[r].x, ys[0].y, ys[|ys| - 1].y)
    case Y => Rect(xs[0].x, xs[|xs| - 1].x, ys[l].y, ys[r].y)
  }

  /**
   * A `Range` node. `n` is how many entries of `ranksort` the build's
   * search filled (the source drops this count); the rest of the buffer
   * is the zero fill of `calloc`.
   */
  datatype Range = Range(l: int, r: int, ranksort: seq<Point>, n: nat,
                         left: Option<Range>, right: Option<Range>, mid: Option<Range>)

  /**
   * A well-built node at `depth` of the tree over axis `a`: its span lies
   * in the array, its buffer has the length of its depth, the filled part
   * is the rank-ascending top Len(depth) of the strip's points, and the
   * rest is zero. Leaves have no children; every other node has all three,
   * each well built one level down.
   */
  ghost predicate RangeOk(node: Range, depth: int, xs: seq<Point>, ys: seq<Point>, a: Axis, points: seq<Point>)
    decreases node
  {
    && 1 <= depth <= MAXDEPTH
    && |xs| == |ys| && 0 <= node.l < |xs| && 0 <= node.r < |xs|
    && node.n <= |node.ranksort| == Len(depth)
    && RankSorted(node.ranksort[..node.n])
    && IsTopK(node.ranksort[..node.n], Hits(points, Strip(xs, ys, a, node.l, node.r), Both), Len(depth))
    && (forall k :: node.n <= k < |node.ranksort| ==> node.ranksort[k] == Origin)
    && (if depth == MAXDEPTH then node.left.None? && node.right.None? && node.mid.None?
        else
          && node.left.Some? && node.right.Some? && node.mid.Some?
          && RangeOk(node.left.value, depth + 1, xs, ys, a, points)
          && RangeOk(node.right.value, depth + 1, xs, ys, a, points)
          && RangeOk(node.mid.value, depth + 1, xs, ys, a, points))
  }

  /** A point inside the query lies in the query's axis slice, so it lies
      in the strip of every span containing that slice. */
  lemma StripCovers(xs: seq<Point>, ys: seq<Point>, a: Axis, points: seq<Point>, rect: Rect,
                    left: int, right: int, l: int, r: int, p: Point)
    requires SortedCopies(xs, ys, points) && |xs| == |ys|
    requires IsAxisRange(AxisSorted(xs, ys, a), a, Low(rect, a), High(rect, a), left, right)
    requires 0 <= l < |xs| && 0 <= r < |xs| && l <= left && right <= r
    requires p in points && IsHit(rect, p)
    ensures IsHit(Strip(xs, ys, a, l, r), p)
  {
    assert p in multiset(xs) && p in multiset(ys);
    var i :| 0 <= i < |xs| && xs[i] == p;
    var j :| 0 <= j < |ys| && ys[j] == p;
    assert Key(xs[0], ByX) <= Key(xs[i], ByX) <= Key(xs[|xs| - 1], ByX);
    assert Key(ys[0], ByY) <= Key(ys[j], ByY) <= Key(ys[|ys| - 1], ByY);
    match a
    case X =>
      assert Key(xs[l], ByX) <= Key(xs[i], ByX) <= Key(xs[r], ByX);
    case Y =>
      assert Key(ys[l], ByY) <= Key(ys[j], ByY) <= Key(ys[r], ByY);
  }

  /**
   * When `count` hits come out of the filled part of a covering node's
   * buffer, they answer the query: the buffer is the strip's top list,
   * every hit of the query is in the strip, and a full prefix of the
   * buffer's hits cannot have skipped a lower-rank hit.
   */
  lemma CoveringNodeAnswers(node: Range, depth: int, xs: seq<Point>, ys: seq<Point>, a: Axis, points: seq<Point>,
                            rect: Rect, left: int, right: int, count: nat)
    requires RangeOk(node, depth, xs, ys, a, points) && SortedCopies(xs, ys, points)
    requires IsAxisRange(AxisSorted(xs, ys, a), a, Low(rect, a), High(rect, a), left, right)
    requires node.l <= left && right <= node.r
    requires |FirstHits(node.ranksort[..node.n], rect, count)| == count
    ensures Answers(FirstHits(node.ranksort[..node.n], rect, count), points, rect, count)
  {
    var strip := Strip(xs, ys, a, node.l, node.r);
    var t := node.ranksort[..node.n];
    var f := FirstHits(t, rect, count);
    forall k | 0 <= k < |points| && IsHit(rect, points[k]) ensures IsHit(strip, points[k]) {
      StripCovers(xs, ys, a, points, rect, left, right, node.l, node.r, points[k]);
    }
    HitsNested(points, strip, rect);
    TopKRefine(t, Hits(points, strip, Both), Len(depth), rect, count);
    TopKPermutation(f, Hits(Hits(points, strip, Both), rect, Both), Hits(points, rect, Both), count);
    FirstHitsOfSortedAnswer(t, rect, count);
  }

  /** The child `rangeHits` descends into: the first of left, right and
      mid whose span covers [left, right], or none. */
  function CoveringChild(node: Range, left: int, right: int): (c: Option<Range>)
    ensures c.Some? ==> c.value.l <= left && right <= c.value.r
    ensures c.Some? ==> c == node.left || c == node.right || c == node.mid
    ensures c.None? ==> forall d :: d in [node.left, node.right, node.mid] && d.Some? ==>
      !(d.value.l <= left && right <= d.value.r)
  {
    if node.left.Some? && node.left.value.l <= left && node.left.value.r >= right then node.left
    else if node.right.Some? && node.right.value.l <= left && node.right.value.r >= right then node.right
    else if node.mid.Some? && node.mid.value.l <= left && node.mid.value.r >= right then node.mid
    else None
  }

  /** The children of a well-built node are well built one level down. */
  lemma ChildOk(node: Range, depth: int, xs: seq<Point>, ys: seq<Point>, a: Axis, points: seq<Point>, c: Option<Range>)
    requires RangeOk(node, depth, xs, ys, a, points)
    requires c.Some? && (c == node.left || c == node.right || c == node.mid)
    ensures depth < MAXDEPTH && RangeOk(c.value, depth + 1, xs, ys, a, points)
  {
  }

  /** The descent of `rangeHits` (gumptionaire.c:267-269): the node it
      ends up scanning and that node's depth, following the first covering
      child at each level. */
  function Deepest(node: Range, left: int, right: int, depth: int): (d: (Range, int))
    requires depth <= MAXDEPTH
    decreases MAXDEPTH - depth
  {
    var child := CoveringChild(node, left, right);
    if child.Some? && depth < MAXDEPTH then Deepest(child.value, left, right, depth + 1) else (node, depth)
  }

  /** A well-built node at `depth` whose span covers [left, right]. */
  ghost predicate CoversAt(node: Range, depth: int, left: int, right: int, xs: seq<Point>, ys: seq<Point>, a: Axis,
                           points: seq<Point>)
  {
    RangeOk(node, depth, xs, ys, a, points) && node.l <= left && right <= node.r
  }

  /** The descent ends at a well-built node, no shallower than where it
      started, that still covers [left, right]. */
  lemma {:induction false} DeepestOk(node: Range, left: int, right: int, depth: int, xs: seq<Point>, ys: seq<Point>, a: Axis, points: seq<Point>)
    requires CoversAt(node, depth, left, right, xs, ys, a, points)
    ensures depth <= Deepest(node, left, right, depth).1 <= MAXDEPTH
    ensures CoversAt(Deepest(node, left, right, depth).0, Deepest(node, left, right, depth).1, left, right, xs, ys, a, points)
    decreases MAXDEPTH - depth
  {
    var child := CoveringChild(node, left, right);
    if child.Some? && depth < MAXDEPTH {
      ChildOk(node, depth, xs, ys, a, points, child);
      DeepestOk(child.value, left, right, depth + 1, xs, ys, a, points);
      assert Deepest(node, left, right, depth) == Deepest(child.value, left, right, depth + 1);
    } else {
      assert Deepest(node, left, right, depth) == (node, depth);
    }
  }

  /**
   * `rangeHits(sc, rect, range, left, right, count, out, depth)`
   * (gumptionaire.c:266-275): descend into the first of left, right and
   * mid whose span covers the query's axis slice [left, right]; at the
   * deepest covering node take the first `count` hits of the filled part
   * of its buffer. The result is `count`, and then the output answers the
   * query, or minus the depth of that node when the buffer ran short.
   * The source's tail recursion is split into the descent `Deepest` and
   * the scan `ScanNode`.
   */
  method RangeHits(rect: Rect, node: Range, left: int, right: int, count: nat, out: array<Point>, depth: int,
                   ghost xs: seq<Point>, ghost ys: seq<Point>, ghost a: Axis, ghost points: seq<Point>)
    returns (hits: int)
    requires RangeOk(node, depth, xs, ys, a, points) && SortedCopies(xs, ys, points)
    requires IsAxisRange(AxisSorted(xs, ys, a), a, Low(rect, a), High(rect, a), left, right)
    requires node.l <= left && right <= node.r
    requires count <= out.Length
    modifies out
    ensures hits == count || -MAXDEPTH <= hits <= -depth
    ensures hits == count ==> Answers(out[..count], points, rect, count)
  {
    DeepestOk(node, left, right, depth, xs, ys, a, points);
    var (target, d) := Deepest(node, left, right, depth);
    hits := ScanNode(rect, target, left, right, count, out, d, xs, ys, a, points);
  }

  /** The scan at the deepest covering node (gumptionaire.c:271-274). */
  method ScanNode(rect: Rect, node: Range, left: int, right: int, count: nat, out: array<Point>, depth: int,
                  ghost xs: seq<Point>, ghost ys: seq<Point>, ghost a: Axis, ghost points: seq<Point>)
    returns (hits: int)
    requires RangeOk(node, depth, xs, ys, a, points) && SortedCopies(xs, ys, points)
    requires IsAxisRange(AxisSorted(xs, ys, a), a, Low(rect, a), High(rect, a), left, right)
    requires node.l <= left && right <= node.r
    requires count <= out.Length
    modifies out
    ensures hits == count || hits == -depth
    ensures hits == count ==> Answers(out[..count], points, rect, count)
  {
    var k := FindHitsS(rect, node.ranksort[..node.n], out, count);
    if k < count {
      return -depth;
    }
    hits := k;
    CoveringNodeAnswers(node, depth, xs, ys, a, points, rect, left, right, count);
  }

  /** What `rangeHits` scans as written: all Len(depth) entries of the
      buffer, the zero fill past the filled part included
      (gumptionaire.c:271-272). */
  function ScanAsWritten(node: Range, rect: Rect, count: nat): seq<Point>
  {
    FirstHits(node.ranksort, rect, count)
  }

  /**
   * The zero fill answers queries: a well-built leaf over a single point
   * at (10, 10) has one filled entry and 999 zero entries, so a query
   * around the origin gets two copies of the point (0, 0) of rank 0 from
   * the as-written scan, neither of them a point of the input, while the
   * filled part has no hit and the corrected scan reports a shortfall.
   */
  lemma PhantomOriginHits()
    ensures var p := Point(1, 5, 10.0, 10.0);
            var node := Range(0, 0, [p] + seq(999, _ => Origin), 1, None, None, None);
            var rect := Rect(-1.0, 1.0, -1.0, 1.0);
            && RangeOk(node, MAXDEPTH, [p], [p], X, [p])
            && ScanAsWritten(node, rect, 2) == [Origin, Origin]
            && Origin !in [p]
            && FirstHits(node.ranksort[..node.n], rect, 2) == []
  {
    var p := Point(1, 5, 10.0, 10.0);
    var zeros := seq(999, _ => Origin);
    var node := Range(0, 0, [p] + zeros, 1, None, None, None);
    var rect := Rect(-1.0, 1.0, -1.0, 1.0);
    var strip := Strip([p], [p], X, 0, 0);
    assert Len(MAXDEPTH) == 1000;
    assert node.ranksort[..1] == [p];
    HitsLast([p], strip, Both);
    assert Hits([p], strip, Both) == [p];
    PrefixOfSortedIsTopK([p], Len(MAXDEPTH));
    HitsLast([p], rect, Both);
    assert Hits([p], rect, Both) == [];
    HitsAll(zeros, rect, Both);
    HitsAppend([p], zeros, rect, Both);
    assert [] + zeros == zeros;
  }

  // ---------------------------------------------------------------------
  // The split of a span into children (gumptionaire.c:396-427).

  /** Index i is the last of its run of equal coordinates on axis a. */
  predicate EndsRun(s: seq<Point>, a: Axis, i: int)
    requires 0 <= i < |s|
  {
    i == |s| - 1 || Coord(s[i], a) != Coord(s[i + 1], a)
  }

  /**
   * The "don't split on same val" loop: advance i while the next
   * coordinate equals the current one. The result is the first index at
   * or after i that ends its run. The source's loop has no bound; this
   * one stops at the last index of the array.
   */
  method SkipRun(s: seq<Point>, a: Axis, i: int) returns (j: int)
    requires 0 <= i < |s|
    ensures i <= j < |s| && EndsRun(s, a, j)
    ensures forall k :: i <= k < j ==> !EndsRun(s, a, k)
  {
    j := i;
    while !EndsRun(s, a, j)
      invariant i <= j < |s|
      invariant forall k :: i <= k < j ==> !EndsRun(s, a, k)
      decreases |s| - j
    {
      j := j + 1;
    }
  }

  /**
   * The child spans of [l, r] in `buildRange`: the median moved to the end
   * of its run, then the quartiles of [l, med] and [med, r] moved the same
   * way. No child boundary falls inside a run of equal coordinates, and
   * for a non-empty span l <= q1 <= med <= q3 when med stays within it.
   */
  method Split(sort: seq<Point>, a: Axis, l: int, r: int) returns (med: int, q1: int, q3: int)
    requires 0 <= l < |sort| && 0 <= r < |sort|
    ensures (l + r) / 2 <= med < |sort| && EndsRun(sort, a, med)
    ensures forall k :: (l + r) / 2 <= k < med ==> !EndsRun(sort, a, k)
    ensures 0 <= q1 < |sort| && EndsRun(sort, a, q1)
    ensures 0 <= q3 < |sort| && EndsRun(sort, a, q3)
    ensures l <= r ==> l <= q1 <= med
    ensures med <= r ==> med <= q3
  {
    med := SkipRun(sort, a, (l + r) / 2);
    q1 := SkipRun(sort, a, (l + med) / 2);
    q3 := SkipRun(sort, a, (med + r) / 2);
  }

  /** `q3` as written (gumptionaire.c:416-423): the loop meant to move it
      to the end of its run tests the coordinates at `med` and `med + 1`,
      which differ once the median loop has stopped, so it never runs and
      q3 stays at the midpoint of [med, r]. */
  function Q3AsWritten(med: int, r: int): int
  {
    (med + r) / 2
  }

  /** A point on the x axis with rank and id k. */
  function OnX(k: int, x: real): Point
  {
    Point(k, k, x, 0.0)
  }

  /**
   * On x coordinates 0, 1, 2, 3, 3, 3, 4, 4 the span [0, 7] has its median
   * moved to 5 (the end of the run of 3s), which ends its run, so the
   * as-written q3 loop is skipped and q3 = 6 lands inside the run of 4s,
   * which `Split` never does.
   */
  lemma Q3SplitsRun()
    ensures var s := [OnX(0, 0.0), OnX(1, 1.0), OnX(2, 2.0), OnX(3, 3.0), OnX(4, 3.0), OnX(5, 3.0), OnX(6, 4.0), OnX(7, 4.0)];
            && !EndsRun(s, X, 3) && !EndsRun(s, X, 4) && EndsRun(s, X, 5)
            && EndsRun(s, X, 5) && Coord(s[5], X) != Coord(s[5 + 1], X)
            && Q3AsWritten(5, 7) == 6 && !EndsRun(s, X, 6)
  {
  }
}

=== FILE: ranking.dfy ===
/**
 * The reference answer every search path is measured against: the hits of a
 * candidate sequence, rank order, and "the K lowest-rank hits".
 */
module Ranking {
  import opened Geometry

  function Min(a: int, b: int): int { if a <= b then a else b }

  /** The candidates among s[..n] that pass test `t` against `r`, in input
      order. Defined from the back so that a scanning loop at index n
      extends it one point at a time. */
  function HitsUpTo(s: seq<Point>, n: nat, r: Rect, t: HitTest): (h: seq<Point>)
    requires n <= |s|
    ensures |h| <= n
  {
    if n == 0 then []
    else HitsUpTo(s, n - 1, r, t) + (if Passes(t, r, s[n - 1]) then [s[n - 1]] else [])
  }

  /** The candidates of `s` that pass test `t` against `r`, in input order. */
  function Hits(s: seq<Point>, r: Rect, t: HitTest): (h: seq<Point>)
    ensures |h| <= |s|
  {
    HitsUpTo(s, |s|, r, t)
  }

  /** Ascending by rank. */
  predicate RankSorted(s: seq<Point>)
  {
    forall i, j :: 0 <= i < j < |s| ==> s[i].rank <= s[j].rank
  }

  /** The `k` lowest-rank candidates, or all of them when there are fewer:
      `sel` takes min(k, |cands|) candidates (as a sub-multiset), and no
      candidate left out ranks below one that was taken. */
  ghost predicate IsTopK(sel: seq<Point>, cands: seq<Point>, k: nat)
  {
    && |sel| == Min(k, |cands|)
    && multiset(sel) <= multiset(cands)
    && forall p, q :: p in multiset(cands) - multiset(sel) && q in sel ==> q.rank <= p.rank
  }

  /** The answer a query must return: the lowest-rank hits of `points`
      inside `r`, at most `k` of them, ascending by rank. */
  ghost predicate Answers(out: seq<Point>, points: seq<Point>, r: Rect, k: nat)
  {
    RankSorted(out) && IsTopK(out, Hits(points, r, Both), k)
  }

  /** The first `k` elements of `s` (all of them when there are fewer). */
  function Take(s: seq<Point>, k: nat): (t: seq<Point>)
    ensures |t| == Min(k, |s|)
  {
    if k <= |s| then s[..k] else s
  }

  /** The first `k` hits of `s` in input order: what a bounded scan returns. */
  function FirstHits(s: seq<Point>, r: Rect, k: nat): (f: seq<Point>)
    ensures |f| <= k
  {
    Take(Hits(s, r, Both), k)
  }

  /** The hits of the first n candidates depend only on those candidates. */
  lemma {:induction false} HitsUpToAgree(s: seq<Point>, u: seq<Point>, n: nat, r: Rect, t: HitTest)
    requires n <= |s| && n <= |u| && s[..n] == u[..n]
    ensures HitsUpTo(s, n, r, t) == HitsUpTo(u, n, r, t)
  {
    if n > 0 {
      assert s[..n - 1] == s[..n][..n - 1] && u[..n - 1] == u[..n][..n - 1];
      assert s[n - 1] == s[..n][n - 1] && u[n - 1] == u[..n][n - 1];
      HitsUpToAgree(s, u, n - 1, r, t);
    }
  }

  /** The hits of a prefix are the hits found by a scan stopped there. */
  lemma HitsPrefix(s: seq<Point>, n: nat, r: Rect, t: HitTest)
    requires n <= |s|
    ensures Hits(s[..n], r, t) == HitsUpTo(s, n, r, t)
  {
    HitsUpToAgree(s[..n], s, n, r, t);
  }

  /** The hits of a nonempty sequence are those of all but its last element,
      followed by the last element when it passes. */
  lemma HitsLast(s: seq<Point>, r: Rect, t: HitTest)
    requires s != []
    ensures Hits(s, r, t) == Hits(s[..|s| - 1], r, t) + (if Passes(t, r, s[|s| - 1]) then [s[|s| - 1]] else [])
  {
    HitsPrefix(s, |s| - 1, r, t);
  }

  /** When every element passes, the hits are the whole sequence. */
  lemma {:induction false} HitsAll(s: seq<Point>, r: Rect, t: HitTest)
    requires forall k :: 0 <= k < |s| ==> Passes(t, r, s[k])
    ensures Hits(s, r, t) == s
    decreases |s|
  {
    if s != [] {
      HitsLast(s, r, t);
      HitsAll(s[..|s| - 1], r, t);
    }
  }

  lemma {:induction false} HitsAppend(s: seq<Point>, u: seq<Point>, r: Rect, t: HitTest)
    ensures Hits(s + u, r, t) == Hits(s, r, t) + Hits(u, r, t)
    decreases |u|
  {
    if u == [] {
      assert s + u == s;
    } else {
      var w := u[..|u| - 1];
      assert (s + u)[..|s + u| - 1] == s + w;
      HitsLast(s + u, r, t);
      HitsLast(u, r, t);
      HitsAppend(s, w, r, t);
    }
  }

  /** How often a point occurs among the hits: as often as in the input when
      it passes, never otherwise. */
  lemma {:induction false} HitsCount(s: seq<Point>, r: Rect, t: HitTest, p: Point)
    ensures multiset(Hits(s, r, t))[p] == if Passes(t, r, p) then multiset(s)[p] else 0
  {
    if s != [] {
      var w := s[..|s| - 1];
      HitsLast(s, r, t);
      HitsCount(w, r, t, p);
      assert s == w + [s[|s| - 1]];
    }
  }

  /** The hits depend only on the multiset of candidates, not on their order. */
  lemma HitsPermutation(s1: seq<Point>, s2: seq<Point>, r: Rect, t: HitTest)
    requires multiset(s1) == multiset(s2)
    ensures multiset(Hits(s1, r, t)) == multiset(Hits(s2, r, t))
  {
    forall p ensures multiset(Hits(s1, r, t))[p] == multiset(Hits(s2, r, t))[p] {
      HitsCount(s1, r, t, p);
      HitsCount(s2, r, t, p);
    }
  }

  /** A point passes the test and occurs in the input iff it is a hit. */
  lemma HitsMember(s: seq<Point>, r: Rect, t: HitTest, p: Point)
    ensures p in Hits(s, r, t) <==> p in s && Passes(t, r, p)
  {
    HitsCount(s, r, t, p);
    assert p in s <==> p in multiset(s);
    assert p in Hits(s, r, t) <==> p in multiset(Hits(s, r, t));
  }

  /** Filtering keeps rank order. */
  lemma {:induction false} HitsSorted(s: seq<Point>, r: Rect, t: HitTest)
    requires RankSorted(s)
    ensures RankSorted(Hits(s, r, t))
  {
    if s != [] {
      var w := s[..|s| - 1];
      HitsLast(s, r, t);
      HitsSorted(w, r, t);
      var last := s[|s| - 1];
      forall q | q in Hits(w, r, t) ensures q.rank <= last.rank {
        HitsMember(w, r, t, q);
        var i :| 0 <= i < |w| && w[i] == q;
      }
    }
  }

  /** IsTopK only looks at the candidates as a multiset. */
  lemma TopKPermutation(sel: seq<Point>, c1: seq<Point>, c2: seq<Point>, k: nat)
    requires multiset(c1) == multiset(c2)
    requires IsTopK(sel, c1, k)
    ensures IsTopK(sel, c2, k)
  {
    assert |c1| == |multiset(c1)| == |multiset(c2)| == |c2|;
  }

  /** Reordering the selection keeps it a top-K selection. */
  lemma TopKReorder(sel: seq<Point>, sel2: seq<Point>, c: seq<Point>, k: nat)
    requires multiset(sel) == multiset(sel2)
    requires IsTopK(sel, c, k)
    ensures IsTopK(sel2, c, k)
  {
    assert |sel| == |multiset(sel)| == |multiset(sel2)| == |sel2|;
    forall q | q in sel2 ensures q in sel {
      assert q in multiset(sel2);
    }
  }

  /** The prefix of a rank-sorted candidate sequence is its top-K. */
  lemma PrefixOfSortedIsTopK(c: seq<Point>, k: nat)
    requires RankSorted(c)
    ensures IsTopK(Take(c, k), c, k)
  {
    var m := Min(k, |c|);
    var pre, post := c[..m], c[m..];
    assert c == pre + post;
    assert Take(c, k) == pre;
    assert multiset(c) == multiset(pre) + multiset(post);
    assert multiset(c) - multiset(pre) == multiset(post);
    forall p, q | p in multiset(post) && q in pre ensures q.rank <= p.rank {
      assert p in post;
      var j :| 0 <= j < |post| && post[j] == p;
      var i :| 0 <= i < m && pre[i] == q;
      assert c[i] == q && c[m + j] == p;
    }
  }

  /** Scanning a rank-sorted sequence and keeping the first `k` hits yields
      the `k` lowest-rank hits, ascending: the reason the rank-ordered scans
      (`baselineSearch`, `findHitsS` over a rank-sorted buffer) are correct. */
  lemma FirstHitsOfSortedAnswer(s: seq<Point>, r: Rect, k: nat)
    requires RankSorted(s)
    ensures Answers(FirstHits(s, r, k), s, r, k)
  {
    HitsSorted(s, r, Both);
    PrefixOfSortedIsTopK(Hits(s, r, Both), k);
  }

  /** A selection that answers the query for a permutation of the points
      answers it for the points. */
  lemma AnswersPermutation(out: seq<Point>, s: seq<Point>, points: seq<Point>, rect: Rect, count: nat)
    requires multiset(s) == multiset(points)
    requires RankSorted(out) && IsTopK(out, Hits(s, rect, Both), count)
    ensures Answers(out, points, rect, count)
  {
    HitsPermutation(s, points, rect, Both);
    TopKPermutation(out, Hits(s, rect, Both), Hits(points, rect, Both), count);
  }

  /** Cutting `done + rest` at `c` gives `done` when `done` already has `c`
      points or nothing follows it. */
  lemma TakeDone(done: seq<Point>, rest: seq<Point>, c: nat)
    requires |done| == c || (|done| <= c && rest == [])
    ensures Take(done + rest, c) == done
  {
    assert (done + rest)[..|done|] == done;
  }

  /** Hits of a sub-multiset are a sub-multiset of the hits. */
  lemma HitsSubMultiset(t: seq<Point>, c: seq<Point>, r: Rect, tst: HitTest)
    requires multiset(t) <= multiset(c)
    ensures multiset(Hits(t, r, tst)) <= multiset(Hits(c, r, tst))
  {
    forall p ensures multiset(Hits(t, r, tst))[p] <= multiset(Hits(c, r, tst))[p] {
      HitsCount(t, r, tst, p);
      HitsCount(c, r, tst, p);
    }
  }

  /**
   * Refining a stored top-K: when `t` holds the `k` lowest-rank points of
   * `c`, ascending, and its first `count` hits of a query exist, those are
   * the `count` lowest-rank hits of the query among all of `c`. This is why
   * a precomputed rank-sorted buffer answers a narrower query whenever the
   * scan fills the output.
   */
  lemma TopKRefine(t: seq<Point>, c: seq<Point>, k: nat, q: Rect, count: nat)
    requires RankSorted(t) && IsTopK(t, c, k)
    requires |FirstHits(t, q, count)| == count
    ensures IsTopK(FirstHits(t, q, count), Hits(c, q, Both), count)
  {
    var h := Hits(t, q, Both);
    var f := FirstHits(t, q, count);
    var hc := Hits(c, q, Both);
    HitsSubMultiset(t, c, q, Both);
    assert f == h[..count];
    assert h == f + h[count..];
    assert multiset(h) == multiset(f) + multiset(h[count..]);
    assert multiset(hc) == multiset(f) + (multiset(hc) - multiset(f));
    RefineBelow(t, c, k, q, count);
  }

  /** The ordering half of `TopKRefine`. */
  lemma RefineBelow(t: seq<Point>, c: seq<Point>, k: nat, q: Rect, count: nat)
    requires RankSorted(t) && IsTopK(t, c, k)
    requires |FirstHits(t, q, count)| == count
    ensures forall p, y ::
      p in multiset(Hits(c, q, Both)) - multiset(FirstHits(t, q, count)) && y in FirstHits(t, q, count) ==> y.rank <= p.rank
  {
    var h := Hits(t, q, Both);
    var f := FirstHits(t, q, count);
    var hc := Hits(c, q, Both);
    HitsSorted(t, q, Both);
    assert f == h[..count];
    var after := h[count..];
    assert h == f + after;
    assert multiset(h) == multiset(f) + multiset(after);
    forall p, y | p in multiset(hc) - multiset(f) && y in f ensures y.rank <= p.rank {
      var i :| 0 <= i < count && f[i] == y;
      if multiset(after)[p] > 0 {
        assert p in after;
        var j :| 0 <= j < |after| && after[j] == p;
        assert h[i] == y && h[count + j] == p;
      } else {
        HitsCount(t, q, Both, p);
        HitsCount(c, q, Both, p);
        assert p in multiset(c) - multiset(t);
        assert y in multiset(h);
        HitsMember(t, q, Both, y);
      }
    }
  }

  /** When every query hit among `s` also lies in `outer`, first narrowing
      to `outer` does not change the query's hits (up to order). */
  lemma HitsNested(s: seq<Point>, outer: Rect, q: Rect)
    requires forall k :: 0 <= k < |s| && IsHit(q, s[k]) ==> IsHit(outer, s[k])
    ensures multiset(Hits(Hits(s, outer, Both), q, Both)) == multiset(Hits(s, q, Both))
  {
    var so := Hits(s, outer, Both);
    forall p ensures multiset(Hits(so, q, Both))[p] == multiset(Hits(s, q, Both))[p] {
      HitsCount(so, q, Both, p);
      HitsCount(s, outer, Both, p);
      HitsCount(s, q, Both, p);
      if IsHit(q, p) && p in s {
        var k :| 0 <= k < |s| && s[k] == p;
      }
    }
  }

  /** What a search may write when it cannot promise the full answer:
      rank-ascending hits of the query, each one of the points. */
  ghost predicate Found(found: seq<Point>, rect: Rect, points: seq<Point>)
  {
    RankSorted(found) && forall k :: 0 <= k < |found| ==> IsHit(rect, found[k]) && found[k] in points
  }

  /** An answer is what a search may write. */
  lemma AnswersFound(found: seq<Point>, points: seq<Point>, rect: Rect, count: nat)
    requires Answers(found, points, rect, count)
    ensures Found(found, rect, points)
  {
    forall k | 0 <= k < |found| ensures IsHit(rect, found[k]) && found[k] in points {
      assert found[k] in multiset(Hits(points, rect, Both));
      HitsMember(points, rect, Both, found[k]);
    }
  }

  /**
   * The in-order scan of a precomputed buffer `t`, the K lowest-rank
   * points inside `outer`, finds rank-ascending hits among the points.
   * When `outer` contains the query, the scan answers the query over all
   * points if it fills the output (the query's lowest-rank hits are then
   * among the buffer's points) or if the buffer is not full (it then holds
   * every point inside `outer`).
   */
  lemma BufferScan(t: seq<Point>, K: nat, outer: Rect, points: seq<Point>, rect: Rect, count: nat)
    requires Answers(t, points, outer, K)
    ensures Found(FirstHits(t, rect, count), rect, points)
    ensures IsRectInside(outer, rect) && (|FirstHits(t, rect, count)| == count || |t| < K) ==>
      Answers(FirstHits(t, rect, count), points, rect, count)
  {
    var f := FirstHits(t, rect, count);
    var inOuter := Hits(points, outer, Both);
    FirstHitsOfSortedAnswer(t, rect, count);
    AnswersFound(f, t, rect, count);
    forall k | 0 <= k < |f| ensures f[k] in points {
      assert f[k] in multiset(t);
      assert f[k] in multiset(inOuter);
      HitsMember(points, outer, Both, f[k]);
    }
    if IsRectInside(outer, rect) {
      if |f| == count {
        TopKRefine(t, inOuter, K, rect, count);
        HitsNested(points, outer, rect);
        TopKPermutation(f, Hits(inOuter, rect, Both), Hits(points, rect, Both), count);
      } else if |t| < K {
        ShortBufferScan(t, K, outer, points, rect, count);
      }
    }
  }

  /** A buffer shorter than K holds every point inside `outer`, so its
      scan answers a query inside `outer`. */
  lemma ShortBufferScan(t: seq<Point>, K: nat, outer: Rect, points: seq<Point>, rect: Rect, count: nat)
    requires Answers(t, points, outer, K) && |t| < K && IsRectInside(outer, rect)
    ensures Answers(FirstHits(t, rect, count), points, rect, count)
  {
    var inOuter := Hits(points, outer, Both);
    FirstHitsOfSortedAnswer(t, rect, count);
    assert |multiset(t)| == |multiset(inOuter)|;
    SubMultisetEqual(multiset(t), multiset(inOuter));
    HitsPermutation(t, inOuter, rect, Both);
    HitsNested(points, outer, rect);
    TopKPermutation(FirstHits(t, rect, count), Hits(t, rect, Both), Hits(points, rect, Both), count);
  }

  /** A sub-multiset as large as the whole is the whole. */
  lemma SubMultisetEqual(a: multiset<Point>, b: multiset<Point>)
    requires a <= b && |a| == |b|
    ensures a == b
  {
    var d := b - a;
    assert b == a + d;
    assert |d| == 0;
  }

  /** The top-K hits among candidates drawn from the points are what a
      search may write. */
  lemma TopKFound(sel: seq<Point>, s: seq<Point>, points: seq<Point>, rect: Rect, count: nat)
    requires RankSorted(sel) && IsTopK(sel, Hits(s, rect, Both), count)
    requires forall k :: 0 <= k < |s| ==> s[k] in points
    ensures Found(sel, rect, points)
  {
    forall k | 0 <= k < |sel| ensures IsHit(rect, sel[k]) && sel[k] in points {
      assert sel[k] in multiset(Hits(s, rect, Both));
      HitsMember(s, rect, Both, sel[k]);
    }
  }
}

=== FILE: selector.dfy ===
/**
 * The two selection primitives every planner ends in: the bounded top-K
 * selector that scans an unordered candidate slice keeping the K
 * lowest-rank hits (`findHitsU`, gumptionaire.c:101-163; the same
 * algorithm is `findHits` in gump.c and `findHitsUX`/`findHitsUY` in
 * gumption.c), and the in-order scan that keeps the first K hits
 * (`findHitsS`, gumptionaire.c:165-178 and gumption.c:221-234).
 */
module Selector {
  import opened Geometry
  import opened Ranking
  import opened Sorting

  /** Ranks are never negative: the selector's running maximum starts at -1
      and relies on every real rank beating it. */
  predicate RanksNonNegative(s: seq<Point>)
  {
    forall k :: 0 <= k < |s| ==> s[k].rank >= 0
  }

  /**
   * The rescan after a replacement (gumptionaire.c:149-156): the largest
   * rank among out[0..count) and the first slot holding it, or (-1, -1)
   * for an empty buffer.
   */
  method ScanMax(out: array<Point>, count: nat) returns (max: int, maxloc: int)
    requires count <= out.Length
    requires RanksNonNegative(out[..count])
    ensures count == 0 ==> max == -1 && maxloc == -1
    ensures count > 0 ==> 0 <= maxloc < count && out[maxloc].rank == max
    ensures forall k :: 0 <= k < count ==> out[k].rank <= max
    ensures forall k :: 0 <= k < maxloc ==> out[k].rank < max
  {
    max, maxloc := -1, -1;
    var j := 0;
    while j < count
      invariant 0 <= j <= count
      invariant j == 0 ==> max == -1 && maxloc == -1
      invariant j > 0 ==> 0 <= maxloc < j && out[maxloc].rank == max
      invariant forall k :: 0 <= k < j ==> out[k].rank <= max
      invariant forall k :: 0 <= k < maxloc ==> out[k].rank < max
    {
      if out[j].rank > max {
        max := out[j].rank;
        maxloc := j;
      }
      j := j + 1;
    }
  }

  /**
   * The selector's state during the replacement phase. The hits seen so far
   * are split into the kept points `sel` and the `dropped` ones; no kept
   * point ranks above `max`, no dropped one below it, and `maxloc` is the
   * first slot holding the maximum (both are -1 while nothing is kept).
   */
  ghost predicate Kept(sel: seq<Point>, dropped: seq<Point>, seen: seq<Point>, max: int, maxloc: int)
  {
    && multiset(sel) + multiset(dropped) == multiset(seen)
    && RanksNonNegative(sel)
    && (forall k :: 0 <= k < |sel| ==> sel[k].rank <= max)
    && (forall k :: 0 <= k < |dropped| ==> dropped[k].rank >= max)
    && (|sel| == 0 ==> max == -1)
    && (|sel| > 0 ==> 0 <= maxloc < |sel| && sel[maxloc].rank == max)
  }

  /** A buffer filled with exactly the hits seen, nothing dropped yet. */
  lemma StartKept(sel: seq<Point>, max: int, maxloc: int)
    requires RanksNonNegative(sel)
    requires |sel| == 0 ==> max == -1
    requires |sel| > 0 ==> 0 <= maxloc < |sel| && sel[maxloc].rank == max
    requires forall k :: 0 <= k < |sel| ==> sel[k].rank <= max
    ensures Kept(sel, [], sel, max, maxloc)
  {
  }

  /** When as many hits are kept as the limit allows, the kept points are a
      top-`count` selection of the hits seen. */
  lemma KeptIsTopK(sel: seq<Point>, dropped: seq<Point>, seen: seq<Point>, max: int, maxloc: int, count: nat)
    requires Kept(sel, dropped, seen, max, maxloc)
    requires |sel| == Min(count, |seen|)
    ensures IsTopK(sel, seen, count)
  {
    assert multiset(seen) - multiset(sel) == multiset(dropped);
    forall p, q | p in multiset(seen) - multiset(sel) && q in sel ensures q.rank <= p.rank {
      assert p in dropped;
      var j :| 0 <= j < |dropped| && dropped[j] == p;
      var k :| 0 <= k < |sel| && sel[k] == q;
    }
  }

  /** A hit ranked above the maximum is dropped. */
  lemma SkipStep(sel: seq<Point>, dropped: seq<Point>, seen: seq<Point>, p: Point, max: int, maxloc: int)
    requires Kept(sel, dropped, seen, max, maxloc) && p.rank > max
    ensures Kept(sel, dropped + [p], seen + [p], max, maxloc)
  {
    assert multiset(dropped + [p]) == multiset(dropped) + multiset{p};
    assert multiset(seen + [p]) == multiset(seen) + multiset{p};
  }

  /** Overwriting the maximum's slot with a hit of no larger rank drops the
      old maximum and keeps every kept rank at most `max`. */
  lemma ReplaceStep(sel: seq<Point>, dropped: seq<Point>, seen: seq<Point>, p: Point, max: int, maxloc: int,
                    sel': seq<Point>, dropped': seq<Point>)
    requires Kept(sel, dropped, seen, max, maxloc)
    requires |sel| > 0 && 0 <= p.rank <= max
    requires sel' == sel[maxloc := p] && dropped' == dropped + [sel[maxloc]]
    ensures multiset(sel') + multiset(dropped') == multiset(seen + [p])
    ensures RanksNonNegative(sel')
    ensures forall k :: 0 <= k < |sel'| ==> sel'[k].rank <= max
    ensures forall k :: 0 <= k < |dropped'| ==> dropped'[k].rank >= max
  {
    assert multiset(sel') == multiset(sel) - multiset{sel[maxloc]} + multiset{p};
    assert multiset(dropped') == multiset(dropped) + multiset{sel[maxloc]};
    assert multiset(seen + [p]) == multiset(seen) + multiset{p};
  }

  /**
   * `findHitsU(rect, in, n, out, count, hitcheck)` (gumptionaire.c:101-163).
   * When the candidates fit (n <= count) every passing candidate is
   * copied; otherwise the first `count` passing candidates fill the buffer,
   * tracking the largest rank and its slot, and every later passing
   * candidate of no larger rank overwrites that slot, after which the
   * buffer is rescanned for the new maximum. The buffer is finally sorted
   * by rank. The result is the min(count, #hits) lowest-rank candidates
   * passing the test, ascending, and nothing past them in `out` is touched.
   */
  method FindHitsU(rect: Rect, input: seq<Point>, out: array<Point>, count: nat, t: HitTest)
    returns (hits: nat)
    requires count <= out.Length
    requires RanksNonNegative(input)
    modifies out
    ensures hits <= count
    ensures RankSorted(out[..hits])
    ensures IsTopK(out[..hits], Hits(input, rect, t), count)
    ensures out[hits..] == old(out[hits..])
  {
    if |input| <= count {
      hits := CopyHits(rect, input, out, t);
      assert multiset(out[..hits]) - multiset(Hits(input, rect, t)) == multiset{};
    } else {
      var i, max, maxloc;
      hits, i, max, maxloc := FillFirst(rect, input, out, count, t);
      StartKept(out[..hits], max, maxloc);
      ReplaceWorst(rect, input, out, count, t, hits, i, max, maxloc);
    }
    SortKept(input, rect, out, count, t, hits);
  }

  /** The n <= count branch: every candidate passing the test, in order. */
  method CopyHits(rect: Rect, input: seq<Point>, out: array<Point>, t: HitTest) returns (hits: nat)
    requires |input| <= out.Length
    modifies out
    ensures hits <= |input|
    ensures out[..hits] == Hits(input, rect, t)
    ensures out[hits..] == old(out[hits..])
  {
    var n := |input|;
    hits := 0;
    var i := 0;
    while i < n
      invariant 0 <= i <= n && hits <= i
      invariant out[..hits] == HitsUpTo(input, i, rect, t)
      invariant forall j :: hits <= j < out.Length ==> out[j] == old(out[j])
    {
      var p := input[i];
      if Passes(t, rect, p) {
        out[hits] := p;
        hits := hits + 1;
      }
      i := i + 1;
    }
  }

  /** The fill phase: the first `count` passing candidates, in order, with
      the largest rank among them and the first slot holding it. */
  method FillFirst(rect: Rect, input: seq<Point>, out: array<Point>, count: nat, t: HitTest)
    returns (hits: nat, i: nat, max: int, maxloc: int)
    requires count <= out.Length
    requires RanksNonNegative(input)
    modifies out
    ensures i <= |input| && hits <= count
    ensures i == |input| || hits == count
    ensures out[..hits] == HitsUpTo(input, i, rect, t)
    ensures out[hits..] == old(out[hits..])
    ensures hits == 0 ==> max == -1 && maxloc == -1
    ensures hits > 0 ==> 0 <= maxloc < hits && out[maxloc].rank == max
    ensures forall k :: 0 <= k < hits ==> out[k].rank <= max
    ensures RanksNonNegative(out[..hits])
  {
    var n := |input|;
    hits, i := 0, 0;
    max, maxloc := -1, -1;
    while i < n && hits < count
      invariant 0 <= i <= n && hits <= count
      invariant out[..hits] == HitsUpTo(input, i, rect, t)
      invariant forall j :: hits <= j < out.Length ==> out[j] == old(out[j])
      invariant hits == 0 ==> max == -1 && maxloc == -1
      invariant hits > 0 ==> 0 <= maxloc < hits && out[maxloc].rank == max
      invariant forall k :: 0 <= k < hits ==> out[k].rank <= max
      invariant RanksNonNegative(out[..hits])
    {
      var p := input[i];
      if Passes(t, rect, p) {
        out[hits] := p;
        if p.rank > max {
          max := p.rank;
          maxloc := hits;
        }
        hits := hits + 1;
      }
      i := i + 1;
    }
  }

  /** The replacement phase over input[i0..]: afterwards out[0..hits) is a
      top-`count` selection of all the hits. */
  method ReplaceWorst(rect: Rect, input: seq<Point>, out: array<Point>, count: nat, t: HitTest,
                      hits: nat, i0: nat, max0: int, maxloc0: int)
    requires count <= out.Length && i0 <= |input| && hits <= count
    requires i0 == |input| || hits == count
    requires RanksNonNegative(input)
    requires hits == Min(count, |HitsUpTo(input, i0, rect, t)|)
    requires Kept(out[..hits], [], HitsUpTo(input, i0, rect, t), max0, maxloc0)
    modifies out
    ensures IsTopK(out[..hits], Hits(input, rect, t), count)
    ensures out[hits..] == old(out[hits..])
  {
    var n := |input|;
    var i, max, maxloc := i0, max0, maxloc0;
    ghost var seen := HitsUpTo(input, i, rect, t);
    ghost var dropped: seq<Point> := [];
    while i < n
      invariant i0 <= i <= n
      invariant i == n || hits == count
      invariant seen == HitsUpTo(input, i, rect, t)
      invariant hits == Min(count, |seen|)
      invariant Kept(out[..hits], dropped, seen, max, maxloc)
      invariant out[hits..] == old(out[hits..])
    {
      var p := input[i];
      max, maxloc, dropped := Offer(rect, p, out, hits, t, max, maxloc, dropped, seen);
      if Passes(t, rect, p) {
        seen := seen + [p];
      }
      i := i + 1;
    }
    KeptIsTopK(out[..hits], dropped, seen, max, maxloc, count);
  }

  /** One step of the replacement phase (gumptionaire.c:137-159) for
      candidate `p`: skip it when it ranks above the current maximum or
      misses, otherwise overwrite the maximum's slot and rescan. */
  method Offer(rect: Rect, p: Point, out: array<Point>, hits: nat, t: HitTest,
               max: int, maxloc: int, ghost dropped: seq<Point>, ghost seen: seq<Point>)
    returns (max': int, maxloc': int, ghost dropped': seq<Point>)
    requires hits <= out.Length && p.rank >= 0
    requires Kept(out[..hits], dropped, seen, max, maxloc)
    modifies out
    ensures Passes(t, rect, p) ==> Kept(out[..hits], dropped', seen + [p], max', maxloc')
    ensures !Passes(t, rect, p) ==> Kept(out[..hits], dropped', seen, max', maxloc')
    ensures out[hits..] == old(out[hits..])
  {
    max', maxloc', dropped' := max, maxloc, dropped;
    if p.rank > max {
      if Passes(t, rect, p) {
        SkipStep(out[..hits], dropped, seen, p, max, maxloc);
        dropped' := dropped + [p];
      }
    } else if Passes(t, rect, p) {
      max', maxloc', dropped' := ReplaceMax(p, out, hits, max, maxloc, dropped, seen);
    }
  }

  /** Overwrite the slot holding the maximum with `p` and rescan the buffer
      for the new maximum (gumptionaire.c:145-156). */
  method ReplaceMax(p: Point, out: array<Point>, hits: nat, max: int, maxloc: int,
                    ghost dropped: seq<Point>, ghost seen: seq<Point>)
    returns (max': int, maxloc': int, ghost dropped': seq<Point>)
    requires hits <= out.Length && 0 <= p.rank <= max
    requires Kept(out[..hits], dropped, seen, max, maxloc)
    modifies out
    ensures Kept(out[..hits], dropped', seen + [p], max', maxloc')
    ensures out[hits..] == old(out[hits..])
  {
    ghost var before := out[..hits];
    dropped' := dropped + [before[maxloc]];
    ReplaceStep(before, dropped, seen, p, max, maxloc, before[maxloc := p], dropped');
    out[maxloc] := p;
    assert out[..hits] == before[maxloc := p];
    max', maxloc' := ScanMax(out, hits);
  }

  /** The closing `qsort(out, hits, sizeof(Point), rankcomp)`: the kept
      hits, now ascending by rank, are still a top-`count` selection. */
  method SortKept(input: seq<Point>, rect: Rect, out: array<Point>, count: nat, t: HitTest, hits: nat)
    requires hits <= out.Length
    requires IsTopK(out[..hits], Hits(input, rect, t), count)
    modifies out
    ensures RankSorted(out[..hits])
    ensures IsTopK(out[..hits], Hits(input, rect, t), count)
    ensures out[hits..] == old(out[hits..])
  {
    ghost var kept := out[..hits];
    SortSegment(out, 0, hits, ByRank);
    SortedByRank(out[..hits]);
    TopKReorder(kept, out[..hits], Hits(input, rect, t), count);
  }

  /**
   * `findHitsS(rect, in, n, out, count)`: scan the candidates in order and
   * keep the first `count` that hit the rectangle. Over a rank-sorted
   * candidate array these are the `count` best hits (see
   * `FindHitsSOfSortedAnswers`).
   */
  method FindHitsS(rect: Rect, input: seq<Point>, out: array<Point>, count: nat) returns (k: nat)
    requires count <= out.Length
    modifies out
    ensures k <= count
    ensures out[..k] == FirstHits(input, rect, count)
    ensures out[k..] == old(out[k..])
  {
    var n := |input|;
    k := 0;
    var i := 0;
    while k < count && i < n
      invariant 0 <= i <= n && k <= count
      invariant out[..k] == HitsUpTo(input, i, rect, Both)
      invariant forall j :: k <= j < out.Length ==> out[j] == old(out[j])
    {
      var p := input[i];
      if IsHit(rect, p) {
        out[k] := p;
        k := k + 1;
      }
      i := i + 1;
    }
    assert input == input[..i] + input[i..];
    HitsAppend(input[..i], input[i..], rect, Both);
    HitsPrefix(input, i, rect, Both);
    if k < count {
      assert input[i..] == [];
    }
  }

  /** Over a rank-sorted candidate array the in-order scan answers the
      query for those candidates. */
  lemma FindHitsSOfSortedAnswers(input: seq<Point>, rect: Rect, count: nat, found: seq<Point>)
    requires RankSorted(input)
    requires found == FirstHits(input, rect, count)
    ensures Answers(found, input, rect, count)
  {
    FirstHitsOfSortedAnswer(input, rect, count);
  }
}

=== FILE: sorting.dfy ===
/**
 * The orderings the source obtains from the C library's `qsort` with the
 * comparators `xcomp`/`xCompare`, `ycomp`/`yCompare` and `rankcomp`/
 * `rankCompare`. The library routine itself is not part of this model; its
 * result is described as "a permutation sorted by the key", and `Sort`
 * is one such permutation.
 */
module Sorting {
  import opened Geometry
  import opened Ranking

  /** Which comparator is handed to `qsort`. */
  datatype SortKey = ByX | ByY | ByRank

  /** The value the comparator orders by. */
  function Key(p: Point, k: SortKey): real
  {
    match k
    case ByX => p.x
    case ByY => p.y
    case ByRank => p.rank as real
  }

  /** The sort key of the coordinate an axis search works on. */
  function AxisKey(a: Axis): SortKey
  {
    match a
    case X => ByX
    case Y => ByY
  }

  /** Ascending by the key. */
  predicate SortedBy(s: seq<Point>, k: SortKey)
  {
    forall i, j :: 0 <= i < j < |s| ==> Key(s[i], k) <= Key(s[j], k)
  }

  /** Sorted by rank is the same as rank-sorted. */
  lemma SortedByRank(s: seq<Point>)
    ensures SortedBy(s, ByRank) <==> RankSorted(s)
  {
  }

  /** Prepending a key no larger than every other keeps a sequence sorted. */
  lemma ConsSorted(x: Point, t: seq<Point>, k: SortKey)
    requires SortedBy(t, k)
    requires forall y :: y in t ==> Key(x, k) <= Key(y, k)
    ensures SortedBy([x] + t, k)
  {
    forall i, j | 0 <= i < j < |[x] + t| ensures Key(([x] + t)[i], k) <= Key(([x] + t)[j], k) {
      if i > 0 {
        assert ([x] + t)[i] == t[i - 1] && ([x] + t)[j] == t[j - 1];
      } else {
        assert ([x] + t)[j] in t;
      }
    }
  }

  /** Insert `p` into a sorted sequence before the first larger key. */
  function Insert(p: Point, s: seq<Point>, k: SortKey): (r: seq<Point>)
    requires SortedBy(s, k)
    ensures SortedBy(r, k)
    ensures multiset(r) == multiset(s) + multiset{p}
    ensures |r| == |s| + 1
    ensures forall y :: y in r ==> y == p || y in s
  {
    if s == [] then [p]
    else if Key(p, k) <= Key(s[0], k) then
      ConsSorted(p, s, k);
      [p] + s
    else
      assert s == [s[0]] + s[1..];
      var rest := Insert(p, s[1..], k);
      assert forall y :: y in s[1..] ==> Key(s[0], k) <= Key(y, k);
      ConsSorted(s[0], rest, k);
      [s[0]] + rest
  }

  /** A permutation of `s` sorted by the key. */
  function Sort(s: seq<Point>, k: SortKey): (r: seq<Point>)
    ensures SortedBy(r, k)
    ensures multiset(r) == multiset(s)
    ensures |r| == |s|
  {
    if s == [] then []
    else
      assert s == s[..|s| - 1] + [s[|s| - 1]];
      Insert(s[|s| - 1], Sort(s[..|s| - 1], k), k)
  }

  /** `qsort(&a[lo], hi - lo, sizeof(Point), cmp)`: sorts the segment
      a[lo .. hi) by the key and leaves the rest of the array alone. */
  method SortSegment(a: array<Point>, lo: nat, hi: nat, k: SortKey)
    requires lo <= hi <= a.Length
    modifies a
    ensures a[lo..hi] == Sort(old(a[lo..hi]), k)
    ensures a[..lo] == old(a[..lo]) && a[hi..] == old(a[hi..])
  {
    var sorted := Sort(a[lo..hi], k);
    WriteSegment(a, lo, hi, sorted);
  }

  /** Overwrite a[lo .. hi) with `s`, leaving the rest of the array alone. */
  method WriteSegment(a: array<Point>, lo: nat, hi: nat, s: seq<Point>)
    requires lo <= hi <= a.Length && |s| == hi - lo
    modifies a
    ensures a[lo..hi] == s
    ensures a[..lo] == old(a[..lo]) && a[hi..] == old(a[hi..])
  {
    forall i | lo <= i < hi {
      a[i] := s[i - lo];
    }
    assert a[..lo] == old(a[..lo]);
    assert a[lo..hi] == s;
    assert a[hi..] == old(a[hi..]);
  }

  /** Permuting one segment of a sequence in place (as sorting it does)
      permutes the whole sequence. */
  lemma SegmentPermutes(before: seq<Point>, after: seq<Point>, lo: int, hi: int)
    requires 0 <= lo <= hi <= |before| == |after|
    requires multiset(after[lo..hi]) == multiset(before[lo..hi])
    requires after[..lo] == before[..lo] && after[hi..] == before[hi..]
    ensures multiset(after) == multiset(before)
  {
    assert before == before[..lo] + before[lo..hi] + before[hi..];
    assert after == after[..lo] + after[lo..hi] + after[hi..];
  }

  /** A fresh array holding `input` sorted by the key: the `calloc`,
      `memcpy` and `qsort` of one sorted copy. */
  method SortedCopy(input: seq<Point>, k: SortKey) returns (a: array<Point>)
    ensures fresh(a)
    ensures multiset(a[..]) == multiset(input) && SortedBy(a[..], k)
  {
    a := new Point[|input|](i requires 0 <= i < |input| => input[i]);
    assert a[0..|input|] == input;
    SortSegment(a, 0, |input|, k);
    assert a[..] == a[0..|input|] == Sort(input, k);
  }
}

=== FILE: wrappers.dfy ===
/** An optional value: a possibly-NULL reference of the source. */
module Wrappers {
  datatype Option<T> = None | Some(value: T)
}
